=== FILE: README.md ===
# graphsense-dashboard core, modelled in Dafny

This project models the deterministic core of the graphsense dashboard, a
browser front end for exploring crypto-currency address and cluster graphs:

- **the graph store** (`src/store.js`): entities keyed `keyspace|id`,
  field-wise merging `add`, the address/cluster membership relation, the
  per-source outgoing edge tables with their upsert rule, and
  `serialize`/`deserialize`;
- **the node-loading workflow** (`src/model.js:451-559`): the five stages
  of `addNodeCont` and the three stages of the `excourseLoadDegree`
  excursion, as pure transitions from (store, `adding` set, context,
  fetch result) to (store, next message or fetch request);
- **hash-fragment routing** (`fromURL`, `src/model.js:84-104`);
- **REST request and response shaping** (`src/rest.js`): URL joining,
  the `.csv` rewrite, the endpoint URL builders, keyspace stamping and
  tag normalisation;
- **the detail browser's panel stack** (`src/browser.js`);
- **cluster-node decisions** (`src/nodeGraph/clusterNode.js`): the address
  sort comparator, expand/collapse, `add` and `getHeight`;
- **the configuration panel** (`src/config.js`): visibility toggles, label
  setters and the saved settings.

JavaScript values are the datatype `Js.Value`:

- the primitives: `undefined`, `null`, `NaN`, booleans, integers, strings;
- arrays and plain objects;
- three reference forms: `Ref(kind, key)`, a store entity identified by its
  store key; `TableRef(key)`, an edge table; and `Members`, a cluster's
  ordered address map.

Store maps are insertion-ordered (`OrderedMap.OMap`), because the d3 maps
the source uses iterate in insertion order, and both `find` and
`serialize` depend on that order.

A JavaScript exception is an explicit outcome carrying the state at the
moment of the throw, since mutations made before a throw persist. The code
is ES-module strict code, so writing a property of a primitive throws.

Files:

- `js.dfy`: the value model and JavaScript helpers (truthiness, `==`,
  `===`, `+`, conversion to string, string splitting).
- `omap.dfy`: insertion-ordered maps.
- `store.dfy`, `store_props.dfy`, `store_roundtrip.dfy`: the store, its
  properties, and the serialize/deserialize round trip.
- `orchestrator.dfy`: the node-loading workflow.
- `routing.dfy`: hash-fragment routing.
- `rest.dfy`: REST request and response shaping.
- `browser.dfy`: the detail browser's panel stack.
- `cluster_node.dfy`: cluster-node decisions.
- `config.dfy`: the configuration panel.

### Quirks modelled as written

- **Untyped edge-table keys** (`src/store.js:132`). An edge table is keyed
  `keyspace|id` with no entity type, so an address and a cluster with the
  same id share one table (`Store.InitOutgoing`).
- **The cluster created on the address path clones the address**
  (`src/store.js:27`, `49`, `65-66`):
  - While the address is new, the local `empty` is that address object. The
    spread at line 65 therefore copies every field of the address (its id
    and its type `address` included) into the new cluster.
  - The new cluster's edge table is the address's.
  - This is shown by `StoreProps.ClusterCreatedByAddressCopiesAddress` and
    `StoreProps.JoinClusterClones`.
- **`add` writes `toCluster` onto its argument** (`src/store.js:60`). When
  the argument is itself a store entity, the write lands in the store.
- **Falsy statistics** (`src/store.js:142`). A falsy `noTransactions` or
  `estimatedValue` counts as "no data".
- **Edges are upserted, not upgraded.**
  - Recorded statistics are overwritten by any truthy payload, even one
    whose fields are falsy (`StoreProps.PartialDataOverwritesStats`).
  - Only an undefined or other falsy payload leaves them alone
    (`StoreProps.LinkNeverDowngrades`).
- **The stage-5 tag fetch spells its context key `keypspace`**
  (`src/model.js:512`). The `resultTags` lookup at line 561 therefore
  searches key `undefined|<id>` (`Orchestrator.TagsLookupKey`).
- **An empty page segment** (`src/rest.js:134-136`). A neighbours request
  without `nextPage` still has its `&`, so its query carries an empty
  segment (`Rest.NeighborsQuery`).
- **Browser operations that throw part-way** (`src/browser.js`):
  - `setTransaction` on `undefined` empties the stack before it throws.
  - `initTagsTable` truncates the stack before it reads the tags that throw.
  - `setResultNode` with a type that is neither address nor cluster leaves
    the stack empty.

## Model

| member | source | states |
|---|---|---|
| Store.EmptyStore | src/store.js:18-22 | a new store holds no address, no cluster and no edge table |
| Store.PrefixInjective | src/store.js:8-10 | within one keyspace, two ids give the same key exactly when they convert to the same string |
| Store.Prefix | src/store.js:8-10 | `keyspace + '|' + id` on the string forms; its meaning is given by `PrefixInjective` and the round trip `StoreProps.UnprefixPrefix` |
| Store.Unprefix | src/store.js:11-15 | a key without `\|` splits to `(null, key)`; otherwise to the parts around the first `\|`, which rejoin to the key |
| StoreProps.UnprefixPrefix | src/store.js:8-15 | `unprefix(prefix(k, id))` gives back `k` and `id` as strings whenever `k` has no `\|`, even when `id` has one |
| Store.InitOutgoing | src/store.js:128-138 | throws exactly for an id that is neither a string nor a number; returns the table under `keyspace\|id`; creates it empty only when missing, and leaves every other table and all entities as they were |
| Store.InitKeepsEdges | src/store.js:128-138 | creating a table records no edge |
| Store.LinkOutgoing | src/store.js:139-151 | throws exactly for a bad source id; no stats entry plus absent or partial data gives a stats-less entry; a stats entry with falsy data is kept; truthy data over stats, or with both fields truthy, gives exactly those two fields; no other edge and no entity changes |
| StoreProps.LinkNeverDowngrades | src/store.js:139-151 | an edge with statistics keeps statistics after any further link |
| StoreProps.PartialDataOverwritesStats | src/store.js:146-150 | recorded statistics `(5, 7)` are replaced by `(0, undefined)` when a payload carries only `noTransactions: 0` |
| Store.Add | src/store.js:26-30 | adding `undefined` or `null` throws and leaves the store alone |
| StoreProps.AddClassification | src/store.js:31-44 | `add` rejects exactly the payloads that are neither address- nor cluster-like, and those without a keyspace; an address-like payload always takes the address path, even when it is also cluster-like |
| Store.Classify | src/store.js:31-40 | the type and id `add` reads off a payload; `StoreProps.AddClassification` states which payloads it accepts and which path each takes |
| StoreProps.AddIsAddAddress | src/store.js:31-46 | an address-like payload with a keyspace is handled by the address path |
| StoreProps.AddIsAddCluster | src/store.js:31-44 | an added payload that is not address-like took the cluster path |
| Store.Ensure | src/store.js:47-55 | the entity is created with its own fresh edge table only when missing; it throws exactly when it is missing and its id is neither a string nor a number |
| Store.Merge | src/store.js:47-59 | the entity under the key becomes the stored or fresh entity with every payload field copied over it and the classifying field removed; the key order only gains the key when new |
| Store.MergeKeepsEdges | src/store.js:47-59 | merging a payload touches no edge |
| Store.AddAddress | src/store.js:46-73 | the address path never rejects; it returns the address under `keyspace\|id`, and joins the cluster `toCluster` exactly when that is truthy |
| Store.JoinCluster | src/store.js:61-72 | the address ends as a member of the cluster it names, under its own id; the cluster is created first when missing |
| Store.EnsureCluster | src/store.js:63-69 | the named cluster is created when missing, as a copy of the new address when the address is new, and with the address's edge table; no other cluster, no address and no edge changes |
| Store.LinkMember | src/store.js:69-70 | the address points at the cluster and the cluster's member map gains `memberKey -> address`; throws exactly when the cluster's `addresses` is not a map; nothing else but these two entities changes |
| Store.LinkMemberEffect | src/store.js:69-70 | after one member link, the membership relation is the new entry plus every old entry it does not overwrite |
| Store.AddCluster | src/store.js:74-97 | the cluster path never rejects; it returns the cluster under `keyspace\|id`, and runs the `forAddresses` loop exactly when that is truthy, in which case it must be an array |
| Store.LinkForAddresses | src/store.js:88-96 | the loop keeps every key and every edge table, and changes no address outside the list and no other cluster |
| Store.LinkStep | src/store.js:90-95 | one listed id with no stored address changes nothing; one with a stored address ends listed under its id; either way only that address and the cluster's `addresses` change |
| Store.LinkStepLinks | src/store.js:90-95 | one step links the listed address, if it is in the store, and undoes no earlier link |
| Store.LinkMembers | src/store.js:88-96 | after a loop that ran to the end, an entry is a member exactly when a listed id of a stored address wrote it, or it was there before and no such id wrote its key; ids without a stored address add nothing |
| Store.ListedCons | src/store.js:89-96 | which entries a list writes, by its first id and the rest |
| Store.LinkDone | src/store.js:88-96 | the loop runs to the end when the cluster's `addresses` is a map, or when no listed id names a stored address; a map stays a map |
| Store.LinkNeedsMap | src/store.js:88-96 | a loop that linked a stored address ran on a member map; a loop that found no stored address changes nothing |
| Store.LinkAllLinked | src/store.js:88-96 | after the loop, every listed address in the store and every address linked before is linked both ways with the cluster |
| Store.LinkKeepsClusterFields | src/store.js:88-96 | the loop changes no cluster field but `addresses` |
| StoreProps.AddThenGet | src/store.js:26-112 | after a successful `add`, `get` with the payload's keyspace, type and id returns the entity `add` returned |
| StoreProps.AddressEntity | src/store.js:46-73 | the stored address is the merged payload, with `cluster` pointing at the named cluster when there is one |
| StoreProps.AddressPathEntity | src/store.js:46-73 | the same for a direct run of the address path |
| StoreProps.ClusterEntity | src/store.js:74-97 | every field but `addresses` of the stored cluster is the merged payload's |
| StoreProps.AddressMerge | src/store.js:46-59 | every payload field but `address` and `cluster` lands on the address (last write wins), `address` is dropped, and the fields the payload omits are kept |
| StoreProps.ClusterMerge | src/store.js:74-87 | every payload field but `cluster` and `addresses` lands on the cluster, `cluster` is dropped, and the fields the payload omits are kept |
| StoreProps.NewAddressDefaults | src/store.js:49-55 | a new address gets its own table and type `address` unless the payload sets them |
| StoreProps.NewClusterDefaults | src/store.js:77-83 | a new cluster gets its own table and type `cluster` unless the payload sets them |
| StoreProps.MergedDefaults | src/store.js:47-87 | merging into a fresh entity keeps its table and type unless the payload sets them |
| StoreProps.NewAddressHasIdAndType | src/store.js:49-53 | a new address always carries an id and a type |
| StoreProps.AddressFields | src/store.js:57-72 | the fields of a merged address with `address` dropped and `cluster` possibly relinked |
| StoreProps.ClusterFields | src/store.js:85-87 | the fields of a merged cluster with `cluster` dropped |
| StoreProps.AddressJoinsCluster | src/store.js:60-72 | an address payload that names a cluster ends linked both ways (its `cluster` is that cluster, whose member map lists it under its id); one that names none keeps the `cluster` it was given |
| StoreProps.FirstAddFacts | src/store.js:46-72 | an accepted address payload has a keyspace and a classification, its id is kept on the stored address, and if it names a cluster the address is listed in that cluster's members under its id |
| StoreProps.RejoinKeepsMembers | src/store.js:69-70 | linking an address that is already listed under the same id into a cluster whose member maps are unchanged adds no membership and removes none |
| StoreProps.AddAgainKeepsMembers | src/store.js:46-72 | a second identical address `add` is accepted again and leaves the cluster membership relation exactly as the first `add` left it |
| StoreProps.ForAddressesLinks | src/store.js:88-96 | `forAddresses` links every listed address already in the store both ways and creates no address; every member entry the cluster ends with was in its merged member map or belongs to a listed id whose address is in the store; no other cluster's members and no unlisted address change |
| StoreProps.ClusterPathFacts | src/store.js:74-97 | the cluster path merges into the cluster under the payload's key, touching no address and no other cluster, then runs the loop over the listed ids |
| StoreProps.ClusterAgainMerge | src/store.js:74-87 | a second `add` of the same cluster payload merges into the cluster the first left, touching no address and no other cluster |
| StoreProps.AddClusterAgainKeepsMembers | src/store.js:74-97 | a second identical cluster `add` with a `forAddresses` list is accepted again and leaves the membership relation exactly as the first left it |
| StoreProps.JoinClusterClones | src/store.js:61-67 | a cluster created for a new address copies every field of the address but `addresses` and `outgoing` |
| StoreProps.AddressPathClones | src/store.js:46-72 | on the address path, a new address with a new cluster leaves the two agreeing on every field but `addresses`, `outgoing` and `cluster` |
| StoreProps.ClusterCreatedByAddressCopiesAddress | src/store.js:27-72 | such a cluster takes the address's id and type `address` |
| Store.Get | src/store.js:100-112 | returns the entity under `keyspace\|key` of the requested type, or `undefined` exactly for a missing key or a type other than address or cluster |
| Store.FirstMatch | src/store.js:113-127 | the first position from `from` on whose id is loosely equal to the key, or none when no position matches |
| Store.Find | src/store.js:113-127 | returns the first entity in insertion order whose id is `==` the key, searching addresses before clusters when no type is given; `null` when nothing matches |
| Store.KeyValues | src/store.js:162-164 | the member keys, as strings, in order |
| Store.SerializeAddresses | src/store.js:153-159 | every address in order, or a throw exactly when one address's cluster is unreadable |
| Store.SerializeClusters | src/store.js:160-166 | every cluster in order, or a throw exactly when one cluster's `addresses` has no `keys` |
| Store.Entries | src/store.js:168-170 | a table's entries in insertion order, with their payloads |
| Store.SerializeLinks | src/store.js:167-170 | every table with its entries, in insertion order |
| Store.Serialize | src/store.js:152-172 | succeeds exactly when every address has a readable cluster and every cluster a member map or array; addresses lose their table and carry their cluster's id; clusters carry their member ids; edges are listed per table in order |
| Store.Deserialize | src/store.js:173-196 | clusters re-added first with `forAddresses` set to their member ids, then addresses, then every edge through `linkOutgoing`; its meaning is given by `StoreRoundTrip.RoundTrip`, `ReAddAll`, `ReAddAddresses` and `ReplayAll` |
| StoreRoundTrip.ConsistentSerializes | src/store.js:152-172 | a consistent store serializes without error |
| StoreRoundTrip.RoundTrip | src/store.js:152-196 | `deserialize(serialize(s))` into an empty store, for a consistent `s` and a format other than 0.4.0, rebuilds the same address and cluster keys in the same order, every address but for its table, every cluster but for its table and member map, the same membership relation, and every edge, with falsy statistics read as "no data" |
| StoreRoundTrip.ReplayAll | src/store.js:183-194 | replaying the serialized tables records exactly the normalized edges of the original and changes no entity |
| StoreRoundTrip.ReplayTable | src/store.js:188-193 | replaying one table's entries records each of them, normalized, and touches nothing else |
| StoreRoundTrip.ReplayOne | src/store.js:183-194 | replaying the n-th table extends a store that has replayed the first n |
| StoreRoundTrip.ReplayedNext | src/store.js:183-194 | the edges after n tables plus the n-th are the edges after n + 1 |
| StoreRoundTrip.LinkFresh | src/store.js:139-151 | replaying one edge onto a store that lacks it records it, normalized |
| StoreRoundTrip.ReaddedCluster | src/store.js:174-178 | the payload a serialized cluster is re-added with lists its member ids as `forAddresses` and otherwise keeps the cluster's fields |
| StoreRoundTrip.ReAddClusterIsMerge | src/store.js:74-97 | a serialized cluster, re-added to a store without addresses, is a plain merge |
| StoreRoundTrip.NoAddressesNoLinks | src/store.js:88-96 | the `forAddresses` loop links nothing in a store without addresses |
| StoreRoundTrip.FreshClusterFields | src/store.js:77-87 | a re-added cluster starts with an empty member map and its other fields as they were |
| StoreRoundTrip.ReAddCluster | src/store.js:174-180 | re-adding one cluster appends it to the key order with no members and every other field as it was, and changes no address and no edge |
| StoreRoundTrip.ReAddOne | src/store.js:174-180 | re-adding the n-th cluster extends a store that holds the first n |
| StoreRoundTrip.ReAddAll | src/store.js:174-180 | phase one of `deserialize` re-adds every cluster in order |
| StoreRoundTrip.AddAllStep | src/store.js:174-182 | one re-added object advances the replay by one |
| StoreRoundTrip.ReAddAddressIsJoin | src/store.js:46-72 | a new address whose `cluster` names an existing cluster is merged, then linked to that cluster |
| StoreRoundTrip.ReaddedAddressEntity | src/store.js:49-72 | the address rebuilt from its serialized form is the original with its own table |
| StoreRoundTrip.ReAddAddress | src/store.js:181-182 | re-adding one address appends it to the key order as it was (with its own table) and changes only the cluster it joins, and only that cluster's members |
| StoreRoundTrip.ReAddAddressMembers | src/store.js:69-70 | re-adding one address adds exactly its own member entry |
| StoreRoundTrip.ReAddAddressEdges | src/store.js:181-182 | re-adding one address records no edge |
| StoreRoundTrip.MergeAddressEdges | src/store.js:47-59 | merging an address records no edge |
| StoreRoundTrip.ReAddAddressOne | src/store.js:181-182 | re-adding the n-th address extends a store that holds the first n |
| StoreRoundTrip.ReAddAddresses | src/store.js:181-182 | phase two of `deserialize` re-adds every address in order |
| StoreRoundTrip.AddressesDone | src/store.js:181-182 | once every address is back, the keys, addresses, cluster fields and membership relation are those of the original |
| StoreRoundTrip.ListedOnce | src/store.js:60-72 | in a consistent store, an address is listed only by its own cluster, under its own id |
| StoreRoundTrip.AddressFacts | src/store.js:60-72 | what consistency says about one address: its cluster, that cluster's id, its only member entry |
| StoreRoundTrip.MembersStep | src/store.js:69-70 | the membership relation after one more address is back |
| Orchestrator.AddNode | src/model.js:451-455 | marks the id as being added and starts stage 1 with the request's id, type, keyspace and anchor |
| Orchestrator.Stage1 | src/model.js:459-466 | fetches the node exactly when the store lacks it; otherwise passes the stored entity straight to stage 2; either way stage 2 keeps only the keyspace and the anchor |
| Orchestrator.AnchorLink | src/model.js:470-473 | for an anchor with `isOutgoing === false`, records an edge from the new node to the anchor's node, keeping existing statistics, and throws exactly when `nodeId` cannot be read or the linking throws; otherwise changes nothing |
| Orchestrator.Stage2 | src/model.js:467-481 | a rejected or throwing `add` stops the workflow; an added result throws exactly when its anchor link throws; otherwise: idle exactly when the id is no longer being added, the cluster-for-address fetch exactly for an address without a cluster, stage 4 for everything else |
| Orchestrator.AnchorLinkSucceeds | src/model.js:470-473 | the anchor link succeeds exactly for a non-incoming anchor, or for an incoming one whose `nodeId` can be read while the new node's id is a string or number |
| Orchestrator.Stage2Advances | src/model.js:467-481 | an added result whose anchor link can succeed always moves the workflow on, with the anchor edge recorded for an incoming anchor |
| Orchestrator.ClusterPayloadFor | src/model.js:484-494 | the cluster payload lists the address in `forAddresses`; without a `cluster` in the result it is a mock-up named `mockup<addressId>` |
| Orchestrator.Stage3 | src/model.js:482-495 | does nothing once the address is no longer being added; otherwise adds the cluster payload and goes on to stage 4 for the address, unless `add` throws |
| Orchestrator.Stage4 | src/model.js:496-507 | a cluster prefetches its own degree, an address with a non-mockup cluster that cluster's; any other address resumes at stage 5; the `backCall` is the context at stage 5; it throws exactly when the node is missing |
| Orchestrator.Stage5 | src/model.js:508-517 | hands the stored node and the anchor to the graph, with a tag fetch exactly when the node has no truthy tags; it throws exactly when the node is missing |
| Orchestrator.TagsLookupKey | src/model.js:512-561 | the tag lookup reads the keyspace as `undefined`, so it searches `undefined\|<id>` and not the node's own key |
| Orchestrator.DegreeStart | src/model.js:520-528 | skips the incoming fetch exactly when `inDegree >= 100`, and otherwise fetches 100 incoming neighbours; it throws exactly when the node is missing |
| Orchestrator.DegreeIncoming | src/model.js:529-545 | records the incoming edges; after they are recorded it throws exactly when the node is missing or when `outDegree < 100` and `outgoing` is no table; otherwise it resumes the `backCall` exactly when `outDegree >= 100` or `outDegree === outgoing.size()`, and fetches the outgoing neighbours when not |
| Orchestrator.DegreeIncomingResumes | src/model.js:538-541 | a stored node with its incoming edges recorded and `outDegree >= 100` or `outDegree === outgoing.size()` resumes the node workflow at its `backCall` |
| Orchestrator.DegreeIncomingFetches | src/model.js:538-545 | otherwise, with an edge table in place, the outgoing neighbours are fetched for degree stage 3 |
| Orchestrator.DegreeOutgoing | src/model.js:546-558 | records the outgoing edges and resumes the `backCall`; it throws exactly when linking throws |
| Orchestrator.Rank | src/model.js:459-508 | the termination measure `Orchestrator.Progress` uses, which the source does not compute: it orders the stage numbers the handlers dispatch on (stages 1-5, the degree excursion between 4 and 5) and is at most 50 |
| Orchestrator.Progress | src/model.js:451-559 | every continuation a handler sends, or asks a fetch to deliver, is strictly further along than the message handled, so a workflow ends after at most 50 handler steps |
| Orchestrator.HandleAddNodeCont | src/model.js:456-518 | runs the first stage whose guard holds, or does nothing; `Progress` shows every continuation it sends is further along |
| Orchestrator.HandleLoadDegree | src/model.js:519-557 | runs the degree stage the context names, or does nothing; `Progress` shows every continuation it sends is further along |
| Orchestrator.Handle | src/model.js:451-557 | dispatches a message to its handler; `Progress` bounds the number of handler steps of a workflow |
| Orchestrator.LinkOne | src/model.js:535-536 | linking one same-type neighbour throws exactly for a bad source id, records that neighbour's edge, and changes no other edge |
| Orchestrator.LinkOneOnly | src/model.js:535-536 | the one edge a link changes is its own |
| Orchestrator.LinkNeighbors | src/model.js:532-537 | recording neighbours changes no entity |
| Orchestrator.LinkEach | src/model.js:534-537 | the neighbour loop changes no entity |
| Orchestrator.LinkEachCompletes | src/model.js:534-537 | the loop runs to the end exactly when every neighbour is readable and, when of the node's type, has a usable source id |
| Orchestrator.LinkEachKeeps | src/model.js:534-537 | no edge is removed |
| Orchestrator.LinkEachLinks | src/model.js:534-537 | after a completed loop, every neighbour of the node's type has its edge (`neighbour -> node` for incoming, `node -> neighbour` for outgoing) |
| Orchestrator.LinkEachOnly | src/model.js:534-537 | every edge that changes, completed loop or not, is the edge of a neighbour of the node's type |
| Orchestrator.LinkEachHead | src/model.js:534-537 | a run that changed the store got past its first neighbour |
| Orchestrator.LaterNeighbor | src/model.js:534-537 | linking changes no entity, so later neighbours read the same |
| Orchestrator.SameEntities | src/model.js:535 | the type test, the loop guard and the edge key read the same in stores with the same entities |
| Orchestrator.AllOkCons | src/model.js:534-537 | the loop guard over a list is the guard on its head and on its rest |
| Routing.FromUrl | src/model.js:84-104 | the route is the start page exactly when the location has no non-empty `#!` fragment; any other route found has an allowed type, a supported keyspace or none, and has no keyspace only for a label; `Routing.FragmentRoute`, `UnknownKeyspaceRefused` and `UnknownTypeRefused` give the result for a fragment that starts with a keyspace |
| Routing.FromSegments | src/model.js:87-103 | a leading `label` gives the label route of the second segment; otherwise a route is found exactly when the first segment is a supported keyspace and the second an allowed type, and it is then `{keyspace, id, type}` from segments 0, 2 and 1; every route found has an allowed type |
| Routing.UrlFor | src/model.js:60-63 | a non-empty type and id give a `#!` fragment |
| Routing.NodeUrlRoundTrip | src/model.js:57-104 | loading the location written for a node of a supported keyspace and an allowed type shows that node again |
| Routing.LabelUrlRoundTrip | src/model.js:57-104 | the same for a label, whose location has no keyspace |
| Routing.NoFragmentGoesHome | src/model.js:85-86 | a location without `#!` goes to the start page |
| Routing.UnknownKeyspaceRefused | src/model.js:95-98 | a first segment that is neither `label` nor a supported keyspace is refused |
| Routing.UnknownTypeRefused | src/model.js:99-102 | a supported keyspace followed by a missing or disallowed type is refused |
| Routing.FragmentRoute | src/model.js:84-104 | any fragment whose first segment is a supported keyspace and whose second is an allowed type gives the route of its first three segments, extra segments ignored and a missing id read as `undefined` |
| Routing.HashOf | src/model.js:85 | the fragment after the first `#!` |
| Rest.Resolve | src/rest.js:35 | the keyspace URL and the path, with exactly one `/` inserted when the path has none |
| Rest.KeyspaceUrl | src/rest.js:65-67 | the base URL, then `/` and the keyspace when the keyspace is truthy; `Resolve` and `OneSlash` state the URLs built on it |
| Rest.OneSlash | src/rest.js:35 | a path without a leading `/` requests the same URL as that path with one |
| Rest.CsvOf | src/rest.js:57-61 | the `.csv` suffix goes on the URL's path, before its query, and the query is untouched |
| Rest.CsvUrl | src/rest.js:55-61 | a csv URL is the json URL with `.csv` on its path and the same query |
| Rest.CsvInserted | src/rest.js:57-58 | replacing the first `?` with `.csv?` extends the path and keeps the query |
| Rest.CsvAppended | src/rest.js:59-60 | appending `.csv` to a URL without a query extends the path |
| Rest.PathAndQuery | src/rest.js:57 | a URL is its path, then its query after the first `?` |
| Rest.NodeCall | src/rest.js:82-85 | the node request is a json call in the keyspace whose response gets its tags normalized |
| Rest.ClusterForAddressCall | src/rest.js:86-90 | the same for the cluster of an address |
| Rest.TransactionsCall | src/rest.js:91-99 | throws exactly when `params` is unreadable; csv exactly when asked, without paging; otherwise paged, listing `txs` exactly for a block and `transactions` otherwise |
| Rest.TransactionsQuery | src/rest.js:95-97 | a transactions query has a page segment (empty without `nextPage`) and a page size segment exactly with `pagesize` |
| Rest.AddressesCall | src/rest.js:100-107 | the cluster's addresses: csv exactly when asked, without paging; otherwise paged, listing `addresses` |
| Rest.TagsCall | src/rest.js:108-113 | the tags of a node: csv exactly when asked; otherwise each tag is normalized with its own currency |
| Rest.NeighborsCall | src/rest.js:130-138 | the neighbours of a node in a direction: csv exactly when asked, then without paging; otherwise listing `neighbors` |
| Rest.NeighborsQuery | src/rest.js:130-137 | the query's segments are the direction, the page segment (empty without `nextPage`), and a page size exactly when `pagesize` is set |
| Rest.NeighborsDirection | src/rest.js:131-132 | the query asks for `direction=out` exactly for outgoing neighbours and `direction=in` exactly for incoming ones |
| Rest.DirectionSegs | src/rest.js:131 | the direction segment is `out` exactly for a truthy direction |
| Rest.PageSplit | src/rest.js:134-136 | the paging part splits into the page segment, then the page size when there is one |
| Rest.QuerySegments | src/rest.js:132-136 | the segments of a path, a `?`, a first segment and the rest |
| Rest.SearchCriterion | src/rest.js:146-151 | a category wins over addresses; addresses are joined with commas and throw when not an array; no criterion is empty |
| Rest.SearchNeighborsCall | src/rest.js:142-153 | throws exactly when `id` or `params` is unreadable or the criterion throws; otherwise the keyspace is `id[2]`, the path id `id[0]`, and the response is stamped by `addKeyspace` |
| Rest.SearchQuerySegments | src/rest.js:142-153 | a neighbour search asks, in order, for `direction=out` or `direction=in`, its criterion (empty when there is none), `depth=<depth>` and `breadth=<breadth>` |
| Rest.FourSegments | src/rest.js:153 | helper: the segments of a four-part query |
| Rest.StampItems | src/rest.js:43 | item i of the result is item i with `keyspace` written, for every i; throws exactly when an item is a primitive |
| Rest.StampItemsTwice | src/rest.js:43 | stamping twice is stamping once |
| Rest.Stamp | src/rest.js:37-48 | with a field naming an array, succeeds exactly when every element can be stamped and then replaces only that array by its stamped copy; with a field naming anything else the result is left alone; without a field, an object result gets the keyspace and an array is left alone |
| Rest.StampStampsEveryItem | src/rest.js:37-48 | a response whose field is an array of objects succeeds, and every element carries the keyspace with its other fields kept, in order; the response's other fields are kept |
| Rest.NormalizeTag | src/rest.js:16-20 | the tag's `currency` is the keyspace upper-cased and its `keyspace` the keyspace, its other fields untouched; throws exactly for a keyspace that is not a string or a primitive tag |
| Rest.NormalizeTags | src/rest.js:24 | every tag is normalized in place, in order |
| Rest.NormalizeNodeTags | src/rest.js:22-26 | a node whose `tags` is not an array comes back unchanged; otherwise it succeeds exactly when every tag can be normalised, and then only its tags change, each to its normalised form |
| Rest.NormalizeNodeTagsEffect | src/rest.js:16-26 | for a string keyspace, a node with an array of object tags succeeds, each tag carrying the upper-cased currency and the keyspace with its other fields kept |
| Rest.OwnCurrencyTag | src/rest.js:112 | succeeds exactly for an object tag with a string `currency`; the result has that currency upper-cased, as keyspace the currency lower-cased, and every other field unchanged |
| Rest.OwnCurrencyTagList | src/rest.js:112 | each tag of the list is normalized with its own currency |
| Rest.OwnCurrencyTags | src/rest.js:112 | succeeds exactly on an array whose every tag succeeds, and then maps each tag to its own-currency form in order |
| Rest.OwnCurrencyTagTwice | src/rest.js:112 | normalizing a tag with its own currency a second time changes nothing |
| Rest.OwnCurrencyTagsEffect | src/rest.js:112 | an array of object tags with string currencies succeeds, each tag normalised with its own currency |
| Rest.AddKeyspace | src/rest.js:154-162 | a node with falsy `paths` comes back unchanged; otherwise it succeeds exactly when `paths` is an array whose every path can be stamped, and its `paths` becomes their stamped copies; every path below, at every depth, then carries the keyspace on its node and matching addresses, and the node's other fields are untouched |
| Rest.WithPaths | src/rest.js:155-161 | falsy `paths` leave the node as it is; otherwise success exactly when `paths` is an array whose every path can be stamped, and the new `paths` is the list of stamped paths, other fields untouched |
| Rest.StampPaths | src/rest.js:156-160 | succeeds exactly when every path succeeds, and element i of the result is path i stamped |
| Rest.StampPath | src/rest.js:157-159 | succeeds exactly for an object path with an object-like `node`, an array of object-like `matchingAddresses` and stampable own `paths`; the result is the path with `node` given the keyspace, `matchingAddresses` stamped item by item, its own `paths` stamped, and every other field unchanged |
| Rest.AddKeyspaceKeepsPaths | src/rest.js:154-162 | every path of the node survives, in order: path i of the output is path i of the input with only `node`, `matchingAddresses` and `paths` rewritten, its node stamped and as many matching addresses |
| Browser.DestroyFrom | src/browser.js:21-26 | the stack keeps its first `min(index, length)` panels, counting a negative index from the back |
| Browser.DestroyTwice | src/browser.js:21-26 | truncating twice keeps the shorter prefix |
| Browser.ShowingOutgoing | src/browser.js:27-33 | the direction of a neighbours table at the end of the stack, otherwise `null` |
| Browser.CurrentNode | src/browser.js:34-39 | the data of the first panel when it shows an address or a cluster, otherwise `null` |
| Browser.SetAddress | src/browser.js:40-45 | the address panel alone, on the address tab |
| Browser.SetCluster | src/browser.js:56-61 | the cluster panel alone, on the address tab |
| Browser.SetTransaction | src/browser.js:46-55 | the transaction, its inputs table and its outputs table, in that order; throws exactly for an unreadable transaction, after emptying the stack |
| Browser.SetResultNode | src/browser.js:62-77 | nothing happens unless a node or transaction panel shows and the node's id is loading; reading the id of `undefined`/`null` throws; otherwise the id stops loading and the stack becomes the node's address panel, its cluster panel, or empty for any other type |
| Browser.Slot | src/browser.js:85-86 | the request names the panel at a numeric index inside the stack |
| Browser.Open | src/browser.js:90-91 | the stack up to the panel, then the new table |
| Browser.InitTransactionsTable | src/browser.js:84-93 | no-op when the index names no panel, the panel is not an address, or a transactions table follows it; otherwise everything after the panel is dropped and a transactions table is opened, totalling incoming and outgoing transactions; throws exactly for a panel without data |
| Browser.InitAddressesTable | src/browser.js:94-103 | no-op when the index names no panel, the panel is not a cluster, or an addresses table follows it; otherwise everything after the panel is dropped and an addresses table sized by `noAddresses` is opened; throws exactly for a panel without data |
| Browser.InitTagsTable | src/browser.js:104-114 | no-op when the index names no panel, the panel is not a node, or a tags table follows it; otherwise everything after the panel is dropped and a tags table with the panel's tags is opened; a throw leaves the stack truncated after the panel |
| Browser.InitNeighborsTable | src/browser.js:115-127 | no-op when the index names no panel, the panel is not a node, or a neighbours table with a `==` direction follows it; otherwise everything after the panel is dropped and a neighbours table sized by the degree in its direction is opened |
| Browser.NodeShown | src/browser.js:27-45 | after `setAddress` or `setCluster`, that node is the current node and no neighbours table shows |
| Browser.TransactionIsNoNode | src/browser.js:34-55 | while a transaction shows, there is no current node |
| Browser.ResultNodeShown | src/browser.js:34-77 | a loading node of a known type, arriving while a node or transaction shows, becomes the current node and stops loading |
| Browser.TransactionsTableOnce | src/browser.js:84-93 | opening the transactions table again changes nothing |
| Browser.AddressesTableOnce | src/browser.js:94-103 | opening the addresses table again changes nothing |
| Browser.TagsTableOnce | src/browser.js:104-114 | opening the tags table again changes nothing |
| Browser.NeighborsTableOnce | src/browser.js:115-127 | opening the neighbours table in the same direction again changes nothing, unless the direction is `NaN` |
| Browser.NeighborsShown | src/browser.js:27-33 | after a neighbours table opens, the browser reports its direction and the stack ends two past the index |
| ClusterNode.Compare | src/nodeGraph/clusterNode.js:16-20 | the comparator gives 1 exactly when the second value is smaller, -1 only when the first is, and otherwise 0 |
| ClusterNode.CompareAntisymmetric | src/nodeGraph/clusterNode.js:16-20 | swapping the nodes negates the comparison |
| ClusterNode.CompareTransitive | src/nodeGraph/clusterNode.js:16-20 | the comparator is transitive where it orders |
| ClusterNode.CompareStringsLevel | src/nodeGraph/clusterNode.js:16-20 | two string keys compare level exactly when they are equal |
| ClusterNode.StrLessAsymmetric | src/nodeGraph/clusterNode.js:19 | string `<` is asymmetric |
| ClusterNode.StrLessTransitive | src/nodeGraph/clusterNode.js:19 | string `<` is transitive |
| ClusterNode.StrLessTotal | src/nodeGraph/clusterNode.js:19 | two strings neither less than the other are equal |
| ClusterNode.ExpandOrCollapse | src/nodeGraph/clusterNode.js:37-45 | a node is never both to be expanded and collapsed; either way it has fewer than 16 addresses, and more than it shows when it expands |
| ClusterNode.Expandable | src/nodeGraph/clusterNode.js:37-39 | `noAddresses < 16`; `ExpandOrCollapse` and `ExpandCollapseOrShowAddressTable` state its consequences |
| ClusterNode.IsExpand | src/nodeGraph/clusterNode.js:40-42 | expandable and showing fewer address nodes than it has; `ExpandOrCollapse` bounds it and excludes `IsCollapse` |
| ClusterNode.IsCollapse | src/nodeGraph/clusterNode.js:43-45 | expandable and showing exactly as many address nodes as it has; `ExpandOrCollapse` states the count |
| ClusterNode.ExpandCollapseOrShowAddressTable | src/nodeGraph/clusterNode.js:46-54 | loads the addresses, limited to `noAddresses`, exactly when expanding; removes them exactly when collapsing; opens the address table otherwise |
| ClusterNode.Title | src/nodeGraph/clusterNode.js:55-57 | the title is one of the three menu labels |
| ClusterNode.TitleNamesAction | src/nodeGraph/clusterNode.js:46-57 | the menu title names the action the entry dispatches |
| ClusterNode.Add | src/nodeGraph/clusterNode.js:133-136 | throws exactly for a node without a truthy id; otherwise sets it under its id and keeps every other node, so the size grows by at most one |
| ClusterNode.AddTwice | src/nodeGraph/clusterNode.js:133-136 | adding the same node twice is adding it once |
| ClusterNode.Height | src/nodeGraph/clusterNode.js:254-259 | the drawn height is that of the same node with no address shown, plus one address row per shown address node and, once there is one, a second gap; it is never below the empty node's height |
| ClusterNode.HeightFor | src/nodeGraph/clusterNode.js:254-259 | `getHeight` as a function of the node count, the mock-up flag and the layout; its meaning is given by `Height`, `HeightMonotone`, `HeightStep` and `AddHeight` |
| ClusterNode.HeightMonotone | src/nodeGraph/clusterNode.js:254-259 | with non-negative layout constants, more address nodes never make a node shorter, and a mock-up is never taller than a real cluster |
| ClusterNode.AddHeight | src/nodeGraph/clusterNode.js:133-136 | adding a new node adds one row, plus the second gap for the first one; re-adding a known node keeps the height |
| ClusterNode.HeightStep | src/nodeGraph/clusterNode.js:254-259 | one more address node adds one row, plus the second gap for the first |
| Config.Initial | src/config.js:13-21 | a new panel shows nothing |
| Config.ToggleConfig | src/config.js:22-25 | the settings open exactly when they were not open, and close to `null` otherwise; nothing else changes |
| Config.ToggleLegend | src/config.js:26-29 | the same for the legend |
| Config.Hide | src/config.js:34-37 | closes whatever is open |
| Config.ToggleConfigTwice | src/config.js:22-37 | toggling the settings twice gets back to the settings when they were open, and closes the panel otherwise |
| Config.ToggleShows | src/config.js:18-29 | a toggle shows its dropdown exactly when that dropdown was not open, and the two never show at once |
| Config.SetLabelKey | src/config.js:136-141 | writes one key of the label settings and keeps the others; throws exactly when the settings are not an object |
| Config.SetAddressLabel | src/config.js:136-138 | writes key `address` and keeps every other key |
| Config.SetClusterLabel | src/config.js:139-141 | writes key `cluster` and keeps every other key |
| Config.SetTxLabel | src/config.js:142-144 | replaces the transaction label setting only |
| Config.LabelSettersCommute | src/config.js:136-141 | the two node label setters commute |
| Config.Serialize | src/config.js:145-150 | the saved settings are a two-element array |
| Config.Deserialize | src/config.js:151-154 | restores the label settings to exactly `values[0]` and `values[1]` and keeps the panel's own state; throws exactly for unreadable saved values |
| Config.RoundTrip | src/config.js:145-154 | loading saved settings restores both label settings exactly |
| Config.LabelNotShown | src/config.js:55-56 | the label setters as written never change the label the dropdown preselects |
| Config.SetShownLabel | src/config.js:55-56 | the corrected setter makes the dropdown preselect the chosen label and keeps every other setting |
| OrderedMap.Put | src/store.js:135 | a put binds the key, keeps every other binding, and appends the key to the order only when new |
| OrderedMap.SizePut | src/model.js:540 | a put grows `size()` by one exactly for a new key |

## Left out

- Network and promises: `json`/`fetch`, `mapResult` and the promise chains are left out. A fetch becomes a `Fetch` action naming the request and the message its result is delivered with; the result is a parameter of the next handler.
- Message scheduling (`src/callable.js`): timers, the snapshot debounce and replay flags are left out. Delivering a message applies the next transition.
- Status bar messages, `graph.add`, `browser.setUpdate` and `shouldUpdate` are left out: they are UI side effects. Stage 5 returns a `Show` action instead.
- Rendering (`render`, `menu`, the select and input renderers, `destroy()` of panels) is left out as DOM work.
- `setResponse` (`src/browser.js:78-83`) is left out: it forwards a response to table components that are not part of this model.
- The REST endpoints `search`, `searchLabels`, `egonet`, `clusterAddresses`, `transaction`, `block`, `label` and `stats` are left out. Each is a fixed string template with no branching, and none is on the modelled workflow. `disable`/`enable` swap the transport.
- Rest.SearchNeighborsCall: its own contract states the path and the keyspace; the query's segments are stated by `Rest.SearchQuerySegments` only for ids, types, depths, breadths and criteria without `?` or `&`, whose URL cannot be split back unambiguously otherwise.
- Store.Deserialize: the input is a snapshot of the shape `serialize` produces: addresses and clusters are objects, the link tables are `[id, entries]` pairs with string ids, and entries are key/value pairs. The TypeErrors that a malformed saved graph raises in src/store.js:173-195 are not modelled. These are a missing part in the destructuring, a `null` or primitive cluster entry, a table that is not a pair, and an entry without `key`/`value`.
- Rest.NodeCall, Rest.ClusterForAddressCall: the paths (`/<type>_with_tags/<id>`, `/address/<id>/cluster_with_tags`) are built, but the contract states only the call kind and the post-processing.
- `historyPushState` is modelled only as the fragment it writes (`Routing.UrlFor`), as the partner of `fromURL`. The browser history calls are I/O.
- `sortAddresses`, `has`, and the cluster node's own serialization are left out. They set a field, or are unused by the modelled core.
- ClusterNode.Compare: comparing a string with a number, a boolean or `null`, or an object with anything, is taken as unordered. JavaScript converts such pairs (`'0' < true` is true); that conversion is not modelled.
- Js.LooseEq: objects compare by value rather than identity. A string equals a number only through the number's canonical decimal form, so `' 1' == 1` is not modelled.
- Js.ToUpper, Js.ToLower: change ASCII letters only. JavaScript's `toUpperCase`/`toLowerCase`, used by `normalizeTag` and the own-currency tag path, map all of Unicode; for non-ASCII currencies and keyspaces the model's result differs.
- Js.ToNumber: strings are not converted, so `AtLeast`/`Below` read a numeric string as `NaN`. In JavaScript `'150' >= 100` is true; the model makes it false. This reaches `inDegree`/`outDegree` in the degree stages (src/model.js:523, 540) and `noAddresses` in `expandable` (src/nodeGraph/clusterNode.js:38), which the REST responses deliver as numbers.
- ClusterNode.StrLess: compares strings by Unicode scalar values. JavaScript compares UTF-16 code units, and the two orders differ for characters above U+FFFF against U+E000–U+FFFF.
- Numbers are integers. Fractional numbers and `Infinity` are not modelled.
- Browser.Slot: a request index that is not a number (a numeric string, say) names no panel in this model.
- The layout constants `addressHeight`, `padding` and `labelHeight` come from `graphNode.js`, which is not part of this model. They are parameters (`ClusterNode.Layout`).
- StoreRoundTrip.RoundTrip: proved only for a consistent store (every address linked with its cluster, clusters of the expected shape) and a format other than 0.4.0, which resolves tables by bare id through `find`. A cluster created on the address path is not consistent (it clones the address), so such stores are outside the theorem.
- StoreRoundTrip.RoundTrip: re-added clusters keep the `forAddresses` property their payload carried. The theorem therefore compares clusters on every field but `addresses`, `forAddresses` and `outgoing`.
- "An address points at a cluster exactly when that cluster lists it" is not an invariant of the store, in either direction, and the model follows the code. Relinking an address to another cluster leaves a stale member entry in the old one. A cluster payload that carries its own `addresses` field replaces the member map (src/store.js:85), dropping entries whose addresses still point at the cluster. The member key is the address's `id` (src/store.js:70), which a payload may set to something other than the address key: adding `{address: 'x', id: 'y', keyspace: 'btc', cluster: 5}` and then `{address: 'z', id: 'y', keyspace: 'btc', cluster: 5}` leaves `btc|x` pointing at cluster 5 while entry `y` names `btc|z`. Lemmas state membership only for the `add` just made (`StoreProps.AddressJoinsCluster`, `StoreProps.ForAddressesLinks`).
- `setLocale` and `setCategoryColors` (`src/config.js:30-40`) are left out. They replace a field read only by rendering.
- The label settings object is shared, by reference, with the graph (`src/model.js:959-961`). The model holds it by value, so changes the graph makes to it are not seen here.

## Findings

| source | as written | input that shows it | evidently intended | confidence | as-written member | corrected member |
|---|---|---|---|---|---|---|
| src/config.js:136-141 | `setAddressLabel`/`setClusterLabel` write keys `address` and `cluster` of the label settings, while the settings dropdown reads `addressLabel` and `clusterLabel` (lines 55-56), the keys of the default settings (`src/model.js:73-76`) | default settings `{clusterLabel: 'id', addressLabel: 'id'}`, then choosing the cluster label `noAddresses`: the dropdown still preselects `id` | the setter writes the key the dropdown reads, so the dropdown preselects the label just chosen | not executed; low to medium, because the graph holds the same settings object and code outside this model may also write it | Config.SetClusterLabel, Config.LabelNotShown | Config.SetShownLabel |

=== FILE: browser.dfy ===
/** The detail browser's component stack (src/browser.js): a list of panels,
    the node or transaction panel first and the tables opened from it after.
    Panels are kept by kind and construction arguments; the DOM work of
    creating, rendering and destroying them is not modelled. Panel data is
    the entity object as the caller passes it. */
module Browser {
  import opened Js

  datatype Panel =
    | AddressPanel(data: Value)
    | ClusterPanel(data: Value)
    | TransactionPanel(data: Value)
    | TxAddressesTable(addresses: Value, caption: string)
    | TransactionsTable(index: int, total: Value, id: Value, ty: Value)
    | AddressesTable(index: int, total: Value, id: Value)
    | TagsTable(index: int, tags: Value, id: Value, ty: Value)
    | NeighborsTable(index: int, total: Value, id: Value, ty: Value, isOutgoing: Value)

  /** `content`, the d3 set `loading` (whose members are the ids converted
      to strings) and `activeTab`. */
  datatype Browser = Browser(content: seq<Panel>, loading: set<string>, activeTab: Value)

  /** A table request: the position of the panel it is opened from, and the
      entity it is about. */
  datatype Request = Request(index: Value, id: Value, ty: Value)

  /** The state after an operation, or the state at the moment it threw. */
  datatype Outcome = Done(state: Browser) | Thrown(state: Browser)

  predicate IsNodePanel(p: Panel) {
    p.AddressPanel? || p.ClusterPanel?
  }

  // ------------------------------------------------------------ the stack

  /** `content.slice(0, index)`: a negative end counts from the back. */
  function DestroyFrom(b: Browser, index: int): (r: Browser)
    ensures r.loading == b.loading && r.activeTab == b.activeTab
    ensures |r.content| <= |b.content|
    ensures forall i :: 0 <= i < |r.content| ==> r.content[i] == b.content[i]
    ensures index >= 0 ==> |r.content| == if index < |b.content| then index else |b.content|
    ensures index < 0 ==> |r.content| == if |b.content| + index > 0 then |b.content| + index else 0
  {
    var n := |b.content|;
    var end := if index < 0 then (if n + index > 0 then n + index else 0)
               else if index < n then index else n;
    b.(content := b.content[..end])
  }

  /** Truncating twice keeps the shorter prefix. */
  lemma DestroyTwice(b: Browser, i: nat, j: nat)
    ensures DestroyFrom(DestroyFrom(b, i), j) == DestroyFrom(b, if i < j then i else j)
  {
    var r := DestroyFrom(DestroyFrom(b, i), j);
    var s := DestroyFrom(b, if i < j then i else j);
    assert r.content == s.content;
  }

  /** `content.push(p)`. */
  function Push(b: Browser, p: Panel): Browser {
    b.(content := b.content + [p])
  }

  /** `isShowingOutgoingNeighbors()`: the direction of the neighbours table
      at the end of the stack, `null` when the last panel is something else
      or there is none. */
  function ShowingOutgoing(b: Browser): (r: Value)
    ensures |b.content| == 0 ==> r == Null
    ensures |b.content| > 0 && !b.content[|b.content| - 1].NeighborsTable? ==> r == Null
    ensures |b.content| > 0 && b.content[|b.content| - 1].NeighborsTable? ==>
      r == b.content[|b.content| - 1].isOutgoing
  {
    if |b.content| == 0 then Null
    else
      var last := b.content[|b.content| - 1];
      if last.NeighborsTable? then last.isOutgoing else Null
  }

  /** `getCurrentNode()`: the data of the first panel when it shows an
      address or a cluster, otherwise `null`. */
  function CurrentNode(b: Browser): (r: Value)
    ensures |b.content| > 0 && IsNodePanel(b.content[0]) ==> r == b.content[0].data
    ensures (|b.content| == 0 || !IsNodePanel(b.content[0])) ==> r == Null
  {
    if |b.content| > 0 && IsNodePanel(b.content[0]) then b.content[0].data else Null
  }

  // ----------------------------------------------------------- node panels

  /** `setAddress(address)`: the address panel alone. */
  function SetAddress(b: Browser, address: Value): (r: Browser)
    ensures r.content == [AddressPanel(address)]
    ensures r.activeTab == Str("address") && r.loading == b.loading
  {
    DestroyFrom(b, 0).(activeTab := Str("address"), content := [AddressPanel(address)])
  }

  /** `setCluster(cluster)`: the cluster panel alone. */
  function SetCluster(b: Browser, cluster: Value): (r: Browser)
    ensures r.content == [ClusterPanel(cluster)]
    ensures r.activeTab == Str("address") && r.loading == b.loading
  {
    DestroyFrom(b, 0).(activeTab := Str("address"), content := [ClusterPanel(cluster)])
  }

  /** `setTransaction(tx)`: the transaction panel, then its inputs and its
      outputs table. Reading `tx.inputs` of `undefined` or `null` throws
      after the stack has been emptied. */
  function SetTransaction(b: Browser, tx: Value): (r: Outcome)
    ensures r.state.activeTab == Str("transactions") && r.state.loading == b.loading
    ensures r.Thrown? <==> !Readable(tx)
    ensures r.Thrown? ==> r.state.content == []
    ensures r.Done? ==>
      && |r.state.content| == 3
      && r.state.content[0] == TransactionPanel(tx)
      && r.state.content[1] == TxAddressesTable(Read(tx, "inputs").value, "Inputs")
      && r.state.content[2] == TxAddressesTable(Read(tx, "outputs").value, "Outputs")
  {
    var cleared := DestroyFrom(b, 0).(activeTab := Str("transactions"));
    match (Read(tx, "inputs"), Read(tx, "outputs"))
    case (Some(inputs), Some(outputs)) =>
      Done(cleared.(content := [TransactionPanel(tx), TxAddressesTable(inputs, "Inputs"), TxAddressesTable(outputs, "Outputs")]))
    case _ => Thrown(cleared)
  }

  /** `setResultNode(object)`: a node that was being loaded for the browser
      replaces the stack, provided a node or transaction panel is showing.
      A node whose type is neither address nor cluster leaves the stack
      empty. */
  function SetResultNode(b: Browser, node: Value): (r: Outcome)
    ensures r.state.activeTab == b.activeTab
    ensures r.Thrown? <==> |b.content| > 0 && (IsNodePanel(b.content[0]) || b.content[0].TransactionPanel?) && !Readable(node)
    ensures r.Thrown? ==> r.state == b
    ensures (|b.content| == 0 || !(IsNodePanel(b.content[0]) || b.content[0].TransactionPanel?)) ==> r == Done(b)
    ensures Readable(node) && ToStr(Read(node, "id").value) !in b.loading ==> r == Done(b)
    ensures |b.content| > 0 && (IsNodePanel(b.content[0]) || b.content[0].TransactionPanel?)
            && Readable(node) && ToStr(Read(node, "id").value) in b.loading ==>
      var ty := Read(node, "type").value;
      && r.Done?
      && r.state.loading == b.loading - {ToStr(Read(node, "id").value)}
      && r.state.content == (if ty == Str("address") then [AddressPanel(node)]
                             else if ty == Str("cluster") then [ClusterPanel(node)]
                             else [])
  {
    if |b.content| == 0 || !(IsNodePanel(b.content[0]) || b.content[0].TransactionPanel?) then Done(b)
    else match (Read(node, "id"), Read(node, "type"))
      case (Some(id), Some(ty)) =>
        if ToStr(id) !in b.loading then Done(b)
        else
          var cleared := DestroyFrom(b.(loading := b.loading - {ToStr(id)}), 0);
          if StrictEq(ty, Str("address")) then Done(cleared.(content := [AddressPanel(node)]))
          else if StrictEq(ty, Str("cluster")) then Done(cleared.(content := [ClusterPanel(node)]))
          else Done(cleared)
      case _ => Thrown(b)
  }

  // ---------------------------------------------------------------- tables

  /** `content[request.index]` after the `index !== 0 && !index` guard: the
      position of the panel the request names, when there is one. A
      non-numeric index names no panel in this model. */
  function Slot(b: Browser, index: Value): (r: Option<nat>)
    ensures r.Some? <==> index.Num? && 0 <= index.n < |b.content|
    ensures r.Some? ==> r.value == index.n
  {
    if !StrictEq(index, Num(0)) && !Truthy(index) then None
    else if index.Num? && 0 <= index.n < |b.content| then Some(index.n)
    else None
  }

  /** Everything up to the panel at `i`, then `table`. */
  function Open(b: Browser, i: nat, table: Panel): (r: Browser)
    requires i < |b.content|
    ensures r.content == b.content[..i + 1] + [table]
    ensures r.loading == b.loading && r.activeTab == b.activeTab
  {
    Push(DestroyFrom(b, i + 1), table)
  }

  /** `initTransactionsTable(request)`: opens the transactions table of the
      address panel at the request's index, with the address's incoming and
      outgoing transaction counts added as its total. */
  function InitTransactionsTable(b: Browser, req: Request): (r: Outcome)
    ensures r.Thrown? ==> r.state == b
    ensures r.Thrown? <==>
      && Slot(b, req.index).Some? && b.content[req.index.n].AddressPanel?
      && !(req.index.n + 1 < |b.content| && b.content[req.index.n + 1].TransactionsTable?)
      && !Readable(b.content[req.index.n].data)
    ensures Slot(b, req.index).None? ==> r == Done(b)
    ensures Slot(b, req.index).Some? && !b.content[req.index.n].AddressPanel? ==> r == Done(b)
    ensures Slot(b, req.index).Some? && req.index.n + 1 < |b.content| && b.content[req.index.n + 1].TransactionsTable? ==> r == Done(b)
    ensures Slot(b, req.index).Some? && b.content[req.index.n].AddressPanel?
            && !(req.index.n + 1 < |b.content| && b.content[req.index.n + 1].TransactionsTable?)
            && Readable(b.content[req.index.n].data) ==>
      var i := req.index.n;
      var data := b.content[i].data;
      r == Done(Open(b, i, TransactionsTable(i + 1, Plus(Read(data, "noIncomingTxs").value, Read(data, "noOutgoingTxs").value), req.id, req.ty)))
  {
    match Slot(b, req.index)
    case None => Done(b)
    case Some(i) =>
      var comp := b.content[i];
      if !comp.AddressPanel? then Done(b)
      else if i + 1 < |b.content| && b.content[i + 1].TransactionsTable? then Done(b)
      else match (Read(comp.data, "noIncomingTxs"), Read(comp.data, "noOutgoingTxs"))
        case (Some(incoming), Some(outgoing)) =>
          Done(Open(b, i, TransactionsTable(i + 1, Plus(incoming, outgoing), req.id, req.ty)))
        case _ => Thrown(b)
  }

  /** `initAddressesTable(request)`: opens the addresses table of the
      cluster panel at the request's index, sized by `noAddresses`. */
  function InitAddressesTable(b: Browser, req: Request): (r: Outcome)
    ensures r.Thrown? ==> r.state == b
    ensures r.Thrown? <==>
      && Slot(b, req.index).Some? && b.content[req.index.n].ClusterPanel?
      && !(req.index.n + 1 < |b.content| && b.content[req.index.n + 1].AddressesTable?)
      && !Readable(b.content[req.index.n].data)
    ensures Slot(b, req.index).None? ==> r == Done(b)
    ensures Slot(b, req.index).Some? && !b.content[req.index.n].ClusterPanel? ==> r == Done(b)
    ensures Slot(b, req.index).Some? && req.index.n + 1 < |b.content| && b.content[req.index.n + 1].AddressesTable? ==> r == Done(b)
    ensures Slot(b, req.index).Some? && b.content[req.index.n].ClusterPanel?
            && !(req.index.n + 1 < |b.content| && b.content[req.index.n + 1].AddressesTable?)
            && Readable(b.content[req.index.n].data) ==>
      var i := req.index.n;
      r == Done(Open(b, i, AddressesTable(i + 1, Read(b.content[i].data, "noAddresses").value, req.id)))
  {
    match Slot(b, req.index)
    case None => Done(b)
    case Some(i) =>
      var last := b.content[i];
      if !last.ClusterPanel? then Done(b)
      else if i + 1 < |b.content| && b.content[i + 1].AddressesTable? then Done(b)
      else match Read(last.data, "noAddresses")
        case Some(total) => Done(Open(b, i, AddressesTable(i + 1, total, req.id)))
        case None => Thrown(b)
  }

  /** `initTagsTable(request)`: opens the tags table of the address or
      cluster panel at the request's index. The panel's tags are read after
      the later panels are gone, so a throw leaves the stack truncated. */
  function InitTagsTable(b: Browser, req: Request): (r: Outcome)
    ensures r.Thrown? <==>
      && Slot(b, req.index).Some? && IsNodePanel(b.content[req.index.n])
      && !(req.index.n + 1 < |b.content| && b.content[req.index.n + 1].TagsTable?)
      && !Readable(b.content[req.index.n].data)
    ensures r.Thrown? ==> req.index.Num? && r.state == DestroyFrom(b, req.index.n + 1)
    ensures Slot(b, req.index).None? ==> r == Done(b)
    ensures Slot(b, req.index).Some? && !IsNodePanel(b.content[req.index.n]) ==> r == Done(b)
    ensures Slot(b, req.index).Some? && req.index.n + 1 < |b.content| && b.content[req.index.n + 1].TagsTable? ==> r == Done(b)
    ensures Slot(b, req.index).Some? && IsNodePanel(b.content[req.index.n])
            && !(req.index.n + 1 < |b.content| && b.content[req.index.n + 1].TagsTable?)
            && Readable(b.content[req.index.n].data) ==>
      var i := req.index.n;
      r == Done(Open(b, i, TagsTable(i + 1, Read(b.content[i].data, "tags").value, req.id, req.ty)))
  {
    match Slot(b, req.index)
    case None => Done(b)
    case Some(i) =>
      var last := b.content[i];
      if !IsNodePanel(last) then Done(b)
      else if i + 1 < |b.content| && b.content[i + 1].TagsTable? then Done(b)
      else match Read(last.data, "tags")
        case Some(tags) => Done(Open(b, i, TagsTable(i + 1, tags, req.id, req.ty)))
        case None => Thrown(DestroyFrom(b, i + 1))
  }

  /** `initNeighborsTable(request, isOutgoing)`: opens the outgoing or
      incoming neighbours table of the address or cluster panel at the
      request's index, sized by its out- or in-degree; nothing happens when
      the next panel already lists neighbours in a direction `==` to it. */
  function InitNeighborsTable(b: Browser, req: Request, isOutgoing: Value): (r: Outcome)
    ensures r.Thrown? ==> r.state == b
    ensures r.Thrown? <==>
      && Slot(b, req.index).Some? && IsNodePanel(b.content[req.index.n])
      && !(req.index.n + 1 < |b.content| && b.content[req.index.n + 1].NeighborsTable?
           && LooseEq(b.content[req.index.n + 1].isOutgoing, isOutgoing))
      && !Readable(b.content[req.index.n].data)
    ensures Slot(b, req.index).None? ==> r == Done(b)
    ensures Slot(b, req.index).Some? && !IsNodePanel(b.content[req.index.n]) ==> r == Done(b)
    ensures (&& Slot(b, req.index).Some? && req.index.n + 1 < |b.content| && b.content[req.index.n + 1].NeighborsTable?
             && LooseEq(b.content[req.index.n + 1].isOutgoing, isOutgoing)) ==> r == Done(b)
    ensures Slot(b, req.index).Some? && IsNodePanel(b.content[req.index.n])
            && !(req.index.n + 1 < |b.content| && b.content[req.index.n + 1].NeighborsTable?
                 && LooseEq(b.content[req.index.n + 1].isOutgoing, isOutgoing))
            && Readable(b.content[req.index.n].data) ==>
      var i := req.index.n;
      var total := Read(b.content[i].data, if Truthy(isOutgoing) then "out_degree" else "in_degree").value;
      r == Done(Open(b, i, NeighborsTable(i + 1, total, req.id, req.ty, isOutgoing)))
  {
    match Slot(b, req.index)
    case None => Done(b)
    case Some(i) =>
      var last := b.content[i];
      if !IsNodePanel(last) then Done(b)
      else if i + 1 < |b.content| && b.content[i + 1].NeighborsTable? && LooseEq(b.content[i + 1].isOutgoing, isOutgoing) then Done(b)
      else match Read(last.data, if Truthy(isOutgoing) then "out_degree" else "in_degree")
        case Some(total) => Done(Open(b, i, NeighborsTable(i + 1, total, req.id, req.ty, isOutgoing)))
        case None => Thrown(b)
  }

  // ------------------------------------------------------------ properties

  /** The node panel the browser was set to is the current node, and no
      neighbours table is showing. */
  lemma NodeShown(b: Browser, address: Value, cluster: Value)
    ensures CurrentNode(SetAddress(b, address)) == address
    ensures CurrentNode(SetCluster(b, cluster)) == cluster
    ensures ShowingOutgoing(SetAddress(b, address)) == Null
    ensures ShowingOutgoing(SetCluster(b, cluster)) == Null
  {
  }

  /** A transaction is not a node: while it shows, there is no current node. */
  lemma TransactionIsNoNode(b: Browser, tx: Value)
    ensures CurrentNode(SetTransaction(b, tx).state) == Null
  {
  }

  /** A node that was loading for the browser, arriving while a node or
      transaction panel shows, becomes the current node and stops loading. */
  lemma ResultNodeShown(b: Browser, node: Value)
    requires |b.content| > 0 && (IsNodePanel(b.content[0]) || b.content[0].TransactionPanel?)
    requires node.Obj? && ToStr(Prop(node.props, "id")) in b.loading
    requires Prop(node.props, "type") in {Str("address"), Str("cluster")}
    ensures SetResultNode(b, node).Done?
    ensures CurrentNode(SetResultNode(b, node).state) == node
    ensures ToStr(Prop(node.props, "id")) !in SetResultNode(b, node).state.loading
  {
  }

  /** Opening the transactions table a second time changes nothing. */
  lemma TransactionsTableOnce(b: Browser, req: Request)
    requires InitTransactionsTable(b, req).Done?
    ensures InitTransactionsTable(InitTransactionsTable(b, req).state, req) == InitTransactionsTable(b, req)
  {
    var b1 := InitTransactionsTable(b, req).state;
    if b1 != b {
      var i := req.index.n;
      assert b1.content[i] == b.content[i];
      assert b1.content[i + 1].TransactionsTable?;
    }
  }

  /** Opening the addresses table a second time changes nothing. */
  lemma AddressesTableOnce(b: Browser, req: Request)
    requires InitAddressesTable(b, req).Done?
    ensures InitAddressesTable(InitAddressesTable(b, req).state, req) == InitAddressesTable(b, req)
  {
    var b1 := InitAddressesTable(b, req).state;
    if b1 != b {
      var i := req.index.n;
      assert b1.content[i] == b.content[i];
      assert b1.content[i + 1].AddressesTable?;
    }
  }

  /** Opening the tags table a second time changes nothing. */
  lemma TagsTableOnce(b: Browser, req: Request)
    requires InitTagsTable(b, req).Done?
    ensures InitTagsTable(InitTagsTable(b, req).state, req) == InitTagsTable(b, req)
  {
    var b1 := InitTagsTable(b, req).state;
    if b1 != b {
      var i := req.index.n;
      assert b1.content[i] == b.content[i];
      assert b1.content[i + 1].TagsTable?;
    }
  }

  /** Opening the neighbours table in the same direction a second time
      changes nothing, unless the direction is `NaN`, which is `==` to
      nothing. */
  lemma NeighborsTableOnce(b: Browser, req: Request, isOutgoing: Value)
    requires InitNeighborsTable(b, req, isOutgoing).Done?
    requires !isOutgoing.NaN?
    ensures InitNeighborsTable(InitNeighborsTable(b, req, isOutgoing).state, req, isOutgoing) == InitNeighborsTable(b, req, isOutgoing)
  {
    var b1 := InitNeighborsTable(b, req, isOutgoing).state;
    if b1 != b {
      var i := req.index.n;
      assert b1.content[i] == b.content[i];
      assert b1.content[i + 1] == NeighborsTable(i + 1, b1.content[i + 1].total, req.id, req.ty, isOutgoing);
      assert LooseEq(isOutgoing, isOutgoing);
    }
  }

  /** After a neighbours table is opened, the browser reports its direction. */
  lemma NeighborsShown(b: Browser, req: Request, isOutgoing: Value)
    requires InitNeighborsTable(b, req, isOutgoing).Done?
    requires InitNeighborsTable(b, req, isOutgoing).state != b
    ensures ShowingOutgoing(InitNeighborsTable(b, req, isOutgoing).state) == isOutgoing
    ensures |InitNeighborsTable(b, req, isOutgoing).state.content| == req.index.n + 2
  {
  }
}

=== FILE: cluster_node.dfy ===
/** The decisions of a cluster node on the graph (src/nodeGraph/clusterNode.js):
    whether its addresses can be expanded, collapsed or only listed in a
    table, the order of its addresses, the map of address nodes it holds and
    the height it is drawn with. */
module ClusterNode {
  import opened Js
  import opened OrderedMap

  /** `noExpandableAddresses`: clusters with fewer addresses can be expanded. */
  const NoExpandableAddresses: int := 16
  /** `noAddressesLabelHeight`. */
  const NoAddressesLabelHeight: int := 16

  /** The layout constants the node inherits from graphNode.js, which is not
      part of this model; `gap` equals `padding`. */
  datatype Layout = Layout(addressHeight: int, padding: int, labelHeight: int)

  /** A cluster node: its graph id, the cluster entity it shows and the
      d3 map of its address nodes, keyed by the address node's id as a string. */
  datatype ClusterNode = ClusterNode(id: Value, data: map<string, Value>, nodes: OMap<Value>)

  // --------------------------------------------------------------- sorting

  /** `s < t` on strings: lexicographic, a proper prefix first. */
  predicate StrLess(s: string, t: string)
    decreases |s|
  {
    if t == [] then false
    else if s == [] then true
    else if s[0] != t[0] then s[0] < t[0]
    else StrLess(s[1..], t[1..])
  }

  /** `a < b`: strings compare lexicographically, numbers, booleans and
      `null` numerically; anything involving `undefined` or `NaN` is false.
      Comparing a string with a number, or an object, is not modelled and is
      false. */
  predicate Less(a: Value, b: Value) {
    if a.Str? && b.Str? then StrLess(a.s, b.s)
    else if a.Str? || b.Str? then false
    else
      var x := ToNumber(a);
      var y := ToNumber(b);
      x.Some? && y.Some? && x.value < y.value
  }

  /** `sort(getValue)(n1, n2)` on the two nodes' data. */
  function Compare(key: Value -> Value, d1: Value, d2: Value): (r: int)
    ensures r in {-1, 0, 1}
    ensures r == 1 <==> Less(key(d2), key(d1))
    ensures r == -1 ==> Less(key(d1), key(d2))
  {
    var v1 := key(d1);
    var v2 := key(d2);
    if Less(v2, v1) then 1 else if Less(v1, v2) then -1 else 0
  }

  lemma {:induction false} StrLessAsymmetric(s: string, t: string)
    ensures !(StrLess(s, t) && StrLess(t, s))
    decreases |s|
  {
    if s != [] && t != [] && s[0] == t[0] {
      StrLessAsymmetric(s[1..], t[1..]);
    }
  }

  lemma {:induction false} StrLessTransitive(s: string, t: string, u: string)
    requires StrLess(s, t) && StrLess(t, u)
    ensures StrLess(s, u)
    decreases |s|
  {
    if s != [] && s[0] == t[0] && t[0] == u[0] {
      StrLessTransitive(s[1..], t[1..], u[1..]);
    }
  }

  lemma {:induction false} StrLessTotal(s: string, t: string)
    requires !StrLess(s, t) && !StrLess(t, s)
    ensures s == t
    decreases |s|
  {
    if s != [] && t != [] {
      StrLessTotal(s[1..], t[1..]);
      assert s == [s[0]] + s[1..] && t == [t[0]] + t[1..];
    }
  }

  /** The comparator is antisymmetric: swapping the nodes negates it. */
  lemma CompareAntisymmetric(key: Value -> Value, d1: Value, d2: Value)
    ensures Compare(key, d1, d2) == -Compare(key, d2, d1)
  {
    var v1 := key(d1);
    var v2 := key(d2);
    if v1.Str? && v2.Str? {
      StrLessAsymmetric(v1.s, v2.s);
    }
  }

  /** It is transitive where it orders. */
  lemma CompareTransitive(key: Value -> Value, d1: Value, d2: Value, d3: Value)
    requires Compare(key, d1, d2) == -1 && Compare(key, d2, d3) == -1
    ensures Compare(key, d1, d3) == -1
  {
    var v1, v2, v3 := key(d1), key(d2), key(d3);
    if v1.Str? && v2.Str? && v3.Str? {
      StrLessTransitive(v1.s, v2.s, v3.s);
      StrLessAsymmetric(v1.s, v3.s);
    }
  }

  /** Sorting by a string property puts two nodes level only when the
      property is the same string. */
  lemma CompareStringsLevel(key: Value -> Value, d1: Value, d2: Value)
    requires key(d1).Str? && key(d2).Str?
    ensures Compare(key, d1, d2) == 0 <==> key(d1) == key(d2)
  {
    var v1, v2 := key(d1), key(d2);
    if Compare(key, d1, d2) == 0 {
      StrLessTotal(v1.s, v2.s);
    } else if v1 == v2 {
      StrLessAsymmetric(v1.s, v1.s);
    }
  }

  // --------------------------------------------------- expand and collapse

  /** `expandable()`: `noAddresses < 16`. */
  predicate Expandable(c: ClusterNode) {
    Below(Prop(c.data, "noAddresses"), NoExpandableAddresses)
  }

  /** `isExpand()`: expandable, and fewer address nodes shown than it has. */
  predicate IsExpand(c: ClusterNode) {
    var n := ToNumber(Prop(c.data, "noAddresses"));
    Expandable(c) && n.Some? && Size(c.nodes) < n.value
  }

  /** `isCollapse()`: expandable, and exactly as many address nodes shown as it has. */
  predicate IsCollapse(c: ClusterNode) {
    Expandable(c) && StrictEq(Num(Size(c.nodes)), Prop(c.data, "noAddresses"))
  }

  /** A node is never both to be expanded and to be collapsed; either way it
      has fewer than 16 addresses, and more than it shows when it expands. */
  lemma ExpandOrCollapse(c: ClusterNode)
    ensures !(IsExpand(c) && IsCollapse(c))
    ensures IsExpand(c) ==> Size(c.nodes) < ToNumber(Prop(c.data, "noAddresses")).value < NoExpandableAddresses
    ensures IsCollapse(c) ==> Prop(c.data, "noAddresses") == Num(Size(c.nodes)) && Size(c.nodes) < NoExpandableAddresses
  {
  }

  /** The messages the node's menu entry dispatches. */
  datatype Dispatch =
    | LoadClusterAddresses(id: Value, keyspace: Value, limit: Value)
    | RemoveClusterAddresses(node: Value)
    | InitAddressesTableWithCluster(id: Value, keyspace: Value, ty: string)

  /** `expandCollapseOrShowAddressTable()`. */
  function ExpandCollapseOrShowAddressTable(c: ClusterNode): (d: Dispatch)
    ensures d.LoadClusterAddresses? <==> IsExpand(c)
    ensures d.RemoveClusterAddresses? <==> IsCollapse(c)
    ensures d.InitAddressesTableWithCluster? <==> !Expandable(c) || (!IsExpand(c) && !IsCollapse(c))
    ensures d.LoadClusterAddresses? ==>
      d == LoadClusterAddresses(c.id, Prop(c.data, "keyspace"), Prop(c.data, "noAddresses"))
    ensures d.RemoveClusterAddresses? ==> d.node == c.id
    ensures d.InitAddressesTableWithCluster? ==>
      d == InitAddressesTableWithCluster(Prop(c.data, "id"), Prop(c.data, "keyspace"), "cluster")
  {
    if IsExpand(c) then LoadClusterAddresses(c.id, Prop(c.data, "keyspace"), Prop(c.data, "noAddresses"))
    else if IsCollapse(c) then RemoveClusterAddresses(c.id)
    else InitAddressesTableWithCluster(Prop(c.data, "id"), Prop(c.data, "keyspace"), "cluster")
  }

  /** `expandCollapseOrShowAddressTableTitle()`. */
  function Title(c: ClusterNode): (t: string)
    ensures t in {"Expand", "Collapse", "Show address table"}
  {
    if IsExpand(c) then "Expand" else if IsCollapse(c) then "Collapse" else "Show address table"
  }

  /** The menu title names what the entry does. */
  lemma TitleNamesAction(c: ClusterNode)
    ensures Title(c) == "Expand" <==> ExpandCollapseOrShowAddressTable(c).LoadClusterAddresses?
    ensures Title(c) == "Collapse" <==> ExpandCollapseOrShowAddressTable(c).RemoveClusterAddresses?
    ensures Title(c) == "Show address table" <==> ExpandCollapseOrShowAddressTable(c).InitAddressesTableWithCluster?
  {
    assert "Expand"[0] != "Collapse"[0] && "Expand"[0] != "Show address table"[0] && "Collapse"[0] != "Show address table"[0];
  }

  // ---------------------------------------------------------- address nodes

  /** `add(node)`: throws (`None`) when the node has no truthy id, otherwise
      sets the node under its id. */
  function Add(c: ClusterNode, node: Value): (r: Option<ClusterNode>)
    ensures r.None? <==> !Readable(node) || !Truthy(Read(node, "id").value)
    ensures r.Some? ==>
      var k := ToStr(Read(node, "id").value);
      && r.value.id == c.id && r.value.data == c.data
      && k in r.value.nodes.m && r.value.nodes.m[k] == node
      && (forall j :: j in c.nodes.m && j != k ==> j in r.value.nodes.m && r.value.nodes.m[j] == c.nodes.m[j])
      && r.value.nodes.m.Keys == c.nodes.m.Keys + {k}
      && Size(c.nodes) <= Size(r.value.nodes) <= Size(c.nodes) + 1
  {
    match Read(node, "id")
    case None => None
    case Some(id) =>
      if !Truthy(id) then None
      else
        SizePut(c.nodes, ToStr(id), node);
        Some(c.(nodes := Put(c.nodes, ToStr(id), node)))
  }

  /** Adding the same node twice is adding it once. */
  lemma AddTwice(c: ClusterNode, node: Value)
    requires Add(c, node).Some?
    ensures Add(Add(c, node).value, node) == Add(c, node)
  {
    var k := ToStr(Read(node, "id").value);
    var c1 := Add(c, node).value;
    assert k in c1.nodes.m;
    assert Put(c1.nodes, k, node) == c1.nodes;
  }

  // ----------------------------------------------------------------- height

  /** `getHeight()`, the drawn height of a node with `size` address nodes. */
  function HeightFor(size: nat, mockup: bool, layout: Layout): (h: int)
  {
    size * layout.addressHeight
    + 2 * layout.padding
    + (if mockup then 0 else layout.labelHeight + NoAddressesLabelHeight)
    + (if size > 0 then 2 * layout.padding else layout.padding)
  }

  /** The drawn height of the node: the height of the same node with no
      address shown, plus one row per address node and, once there is one,
      a second gap below them. */
  function Height(c: ClusterNode, layout: Layout): (h: int)
    ensures var empty := HeightFor(0, Truthy(Prop(c.data, "mockup")), layout);
      h == empty + Size(c.nodes) * layout.addressHeight + (if Size(c.nodes) > 0 then layout.padding else 0)
    ensures layout.addressHeight >= 0 && layout.padding >= 0 ==>
      h >= HeightFor(0, Truthy(Prop(c.data, "mockup")), layout)
  {
    HeightFor(Size(c.nodes), Truthy(Prop(c.data, "mockup")), layout)
  }

  /** With non-negative layout constants, more address nodes never make a
      node shorter, and a mockup cluster, which has no label, is never
      taller than a real one. */
  lemma HeightMonotone(s1: nat, s2: nat, mockup: bool, layout: Layout)
    requires s1 <= s2
    requires layout.addressHeight >= 0 && layout.padding >= 0 && layout.labelHeight >= 0
    ensures HeightFor(s1, mockup, layout) <= HeightFor(s2, mockup, layout)
    ensures HeightFor(s1, true, layout) <= HeightFor(s1, false, layout)
  {
    assert s1 * layout.addressHeight <= s2 * layout.addressHeight by {
      assert (s2 - s1) * layout.addressHeight >= 0;
    }
  }

  /** A new address node adds one address row, and the second gap when it
      is the first one; re-adding a known node keeps the height. */
  lemma AddHeight(c: ClusterNode, node: Value, layout: Layout)
    requires Add(c, node).Some?
    ensures var k := ToStr(Read(node, "id").value);
      Height(Add(c, node).value, layout) ==
        if k in c.nodes.m then Height(c, layout)
        else Height(c, layout) + layout.addressHeight + (if Size(c.nodes) == 0 then layout.padding else 0)
  {
    var k := ToStr(Read(node, "id").value);
    SizePut(c.nodes, k, node);
    if k !in c.nodes.m {
      HeightStep(Size(c.nodes), Truthy(Prop(c.data, "mockup")), layout);
    }
  }

  /** One more address node: one more row, and the second gap for the first. */
  lemma HeightStep(n: nat, mockup: bool, layout: Layout)
    ensures HeightFor(n + 1, mockup, layout) ==
      HeightFor(n, mockup, layout) + layout.addressHeight + (if n == 0 then layout.padding else 0)
  {
    assert (n + 1) * layout.addressHeight == n * layout.addressHeight + layout.addressHeight;
  }
}

=== FILE: config.dfy ===
/** The configuration panel (src/config.js): which dropdown is open, the
    label settings it edits, and the part of it saved with the graph. */
module Config {
  import opened Js

  /** `visible` starts as `false` and is then `null`, `'config'` or
      `'legend'`; `labelType` is the object of node label settings and
      `txLabelType` the transaction label setting. */
  datatype Config = Config(visible: Value, labelType: Value, txLabelType: Value, locale: Value)

  /** The constructor's state. */
  function Initial(labelType: Value, txLabelType: Value, locale: Value): (c: Config)
    ensures !Shown(c)
  {
    Config(Bool(false), labelType, txLabelType, locale)
  }

  /** The panel is drawn open exactly when `visible` is truthy. */
  predicate Shown(c: Config) {
    Truthy(c.visible)
  }

  // ---------------------------------------------------------- visibility

  /** `toggleConfig()`: closes the settings dropdown when it is open, and
      opens it otherwise, the legend included. */
  function ToggleConfig(c: Config): (r: Config)
    ensures r.visible == Str("config") <==> !StrictEq(c.visible, Str("config"))
    ensures r.visible != Str("config") ==> r.visible == Null
    ensures r.(visible := c.visible) == c
  {
    c.(visible := if StrictEq(c.visible, Str("config")) then Null else Str("config"))
  }

  /** `toggleLegend()`: the same for the legend. */
  function ToggleLegend(c: Config): (r: Config)
    ensures r.visible == Str("legend") <==> !StrictEq(c.visible, Str("legend"))
    ensures r.visible != Str("legend") ==> r.visible == Null
    ensures r.(visible := c.visible) == c
  {
    c.(visible := if StrictEq(c.visible, Str("legend")) then Null else Str("legend"))
  }

  /** `hide()`: closes whatever is open. */
  function Hide(c: Config): (r: Config)
    ensures !Shown(r) && r.visible == Null
    ensures r.(visible := c.visible) == c
  {
    c.(visible := Null)
  }

  /** Toggling the settings twice closes them, whatever was open before;
      from the settings, it opens them again. */
  lemma ToggleConfigTwice(c: Config)
    ensures StrictEq(c.visible, Str("config")) ==> ToggleConfig(ToggleConfig(c)) == c
    ensures !StrictEq(c.visible, Str("config")) ==> ToggleConfig(ToggleConfig(c)) == Hide(c)
  {
  }

  /** One toggle shows the panel exactly when the other dropdown or none
      was open; the two dropdowns never show at once. */
  lemma ToggleShows(c: Config)
    ensures Shown(ToggleConfig(c)) <==> c.visible != Str("config")
    ensures Shown(ToggleLegend(c)) <==> c.visible != Str("legend")
    ensures Shown(ToggleConfig(c)) ==> ToggleConfig(c).visible != Str("legend")
    ensures ToggleLegend(ToggleConfig(c)).visible == Str("legend")
  {
  }

  // -------------------------------------------------------------- labels

  /** `labelType[key] = x`; `None` is the TypeError of writing to
      `undefined`, `null` or, in strict code, another primitive. */
  function SetLabelKey(c: Config, key: string, x: Value): (r: Option<Config>)
    ensures r.Some? <==> IsObjectLike(c.labelType)
    ensures r.Some? && c.labelType.Obj? ==>
      && r.value.labelType.Obj?
      && Prop(r.value.labelType.props, key) == x
      && forall k :: k != key ==> Prop(r.value.labelType.props, k) == Prop(c.labelType.props, k)
    ensures r.Some? ==> r.value.(labelType := c.labelType) == c
  {
    match SetProp(c.labelType, key, x)
    case None => None
    case Some(l) => Some(c.(labelType := l))
  }

  /** `setAddressLabel(labelType)`: writes key `address` of the label settings. */
  function SetAddressLabel(c: Config, x: Value): (r: Option<Config>)
    ensures r.Some? <==> IsObjectLike(c.labelType)
    ensures r.Some? && c.labelType.Obj? ==>
      && r.value.labelType.Obj?
      && Prop(r.value.labelType.props, "address") == x
      && forall k :: k != "address" ==> Prop(r.value.labelType.props, k) == Prop(c.labelType.props, k)
    ensures r.Some? ==> r.value.(labelType := c.labelType) == c
  {
    SetLabelKey(c, "address", x)
  }

  /** `setClusterLabel(labelType)`: writes key `cluster`. */
  function SetClusterLabel(c: Config, x: Value): (r: Option<Config>)
    ensures r.Some? <==> IsObjectLike(c.labelType)
    ensures r.Some? && c.labelType.Obj? ==>
      && r.value.labelType.Obj?
      && Prop(r.value.labelType.props, "cluster") == x
      && forall k :: k != "cluster" ==> Prop(r.value.labelType.props, k) == Prop(c.labelType.props, k)
    ensures r.Some? ==> r.value.(labelType := c.labelType) == c
  {
    SetLabelKey(c, "cluster", x)
  }

  /** `setTxLabel(labelType)`: replaces the transaction label setting. */
  function SetTxLabel(c: Config, x: Value): (r: Config)
    ensures r.txLabelType == x
    ensures r.(txLabelType := c.txLabelType) == c
  {
    c.(txLabelType := x)
  }

  /** The two node label setters touch different keys: applied in either
      order they give the same settings. */
  lemma LabelSettersCommute(c: Config, a: Value, b: Value)
    requires c.labelType.Obj?
    ensures SetAddressLabel(c, a).Some? && SetClusterLabel(SetAddressLabel(c, a).value, b).Some?
    ensures SetClusterLabel(c, b).Some? && SetAddressLabel(SetClusterLabel(c, b).value, a).Some?
    ensures SetClusterLabel(SetAddressLabel(c, a).value, b) == SetAddressLabel(SetClusterLabel(c, b).value, a)
  {
    var m := c.labelType.props;
    assert m["address" := a]["cluster" := b] == m["cluster" := b]["address" := a];
  }

  // ------------------------------------------------------ saved settings

  /** `serialize()`: the label settings, as a two-element array. */
  function Serialize(c: Config): (v: Value)
    ensures v.Arr? && |v.items| == 2
  {
    Arr([c.labelType, c.txLabelType])
  }

  /** `deserialize(version, values)`: takes the label settings from the
      first two elements; `None` is the TypeError of indexing `undefined`
      or `null`. The version is not consulted. */
  function Deserialize(c: Config, version: Value, values: Value): (r: Option<Config>)
    ensures r.Some? <==> Readable(values)
    ensures r.Some? ==> r.value.visible == c.visible && r.value.locale == c.locale
    ensures r.Some? ==> r.value == c.(labelType := Index(values, 0).value, txLabelType := Index(values, 1).value)
  {
    match (Index(values, 0), Index(values, 1))
    case (Some(l), Some(t)) => Some(c.(labelType := l, txLabelType := t))
    case _ => None
  }

  /** Loading saved settings restores both label settings exactly and keeps
      the panel's own state. */
  lemma RoundTrip(saved: Config, c: Config, version: Value)
    ensures Deserialize(c, version, Serialize(saved)) ==
      Some(c.(labelType := saved.labelType, txLabelType := saved.txLabelType))
  {
  }

  // ------------------------------------------------ the label the panel shows

  /** What the settings dropdown preselects for a node kind:
      `labelType['addressLabel']` or `labelType['clusterLabel']`, the keys
      the default settings use. */
  function ShownLabel(c: Config, kind: string): (v: Value)
    ensures !c.labelType.Obj? ==> v == Undefined
    ensures c.labelType.Obj? ==> v == Prop(c.labelType.props, kind + "Label")
  {
    if c.labelType.Obj? then Prop(c.labelType.props, kind + "Label") else Undefined
  }

  /** Choosing an address or cluster label does not change the label the
      dropdown preselects: the setters write `address` and `cluster`, the
      dropdown reads `addressLabel` and `clusterLabel`. */
  lemma LabelNotShown(c: Config, x: Value)
    requires c.labelType.Obj?
    ensures SetAddressLabel(c, x).Some? && SetClusterLabel(c, x).Some?
    ensures ShownLabel(SetAddressLabel(c, x).value, "address") == ShownLabel(c, "address")
    ensures ShownLabel(SetClusterLabel(c, x).value, "cluster") == ShownLabel(c, "cluster")
  {
    assert "address" + "Label" != "address" by { assert |"address" + "Label"| != |"address"|; }
    assert "cluster" + "Label" != "cluster" by { assert |"cluster" + "Label"| != |"cluster"|; }
  }

  /** The setter writing the key the dropdown reads for `kind`: with it,
      the dropdown preselects the label just chosen, and the other settings
      stay as they were. */
  function SetShownLabel(c: Config, kind: string, x: Value): (r: Option<Config>)
    ensures r.Some? <==> IsObjectLike(c.labelType)
    ensures r.Some? && c.labelType.Obj? ==> ShownLabel(r.value, kind) == x
    ensures r.Some? && c.labelType.Obj? ==>
      && r.value.labelType.Obj?
      && forall k :: k != kind + "Label" ==> Prop(r.value.labelType.props, k) == Prop(c.labelType.props, k)
  {
    SetLabelKey(c, kind + "Label", x)
  }
}

=== FILE: js.dfy ===
/** The slice of JavaScript value semantics the dashboard's core relies on:
    truthiness, `typeof` tests for ids, `String(v)` conversion (used by string
    concatenation and by map keys), numeric coercion for `<`/`>=`, and
    property reads. Numbers are integers: the core only ever stores counts and
    ids in them. */
module Js {
  import opened OrderedMap

  /** Which store table an entity reference points into. */
  datatype Kind = AddressKind | ClusterKind

  datatype Value =
    | Undefined
    | Null
    | NaN
    | Bool(b: bool)
    | Num(n: int)
    | Str(s: string)
    | Arr(items: seq<Value>)
    | Obj(props: map<string, Value>)
      /** A store entity object, identified by its key in the store's address or cluster map. */
    | Ref(kind: Kind, key: string)
      /** An edge table object, identified by its key in the store's table map. */
    | TableRef(table: string)
      /** A cluster's `addresses` d3 map: member id -> key of the member address. */
    | Members(members: OMap<string>)

  /** JavaScript truthiness. */
  predicate Truthy(v: Value) {
    match v
    case Undefined => false
    case Null => false
    case NaN => false
    case Bool(b) => b
    case Num(n) => n != 0
    case Str(s) => s != ""
    case _ => true
  }

  /** `typeof v === 'string' || typeof v === 'number'`. */
  predicate IsStringOrNumber(v: Value) {
    v.Str? || v.Num? || v.NaN?
  }

  /** Reading a property of `undefined` or `null` throws a TypeError. */
  predicate Readable(v: Value) {
    !v.Undefined? && !v.Null?
  }

  /** `o[name]` on a plain object: a missing property reads as `undefined`. */
  function Prop(o: map<string, Value>, name: string): (v: Value)
    ensures name !in o ==> v == Undefined
    ensures name in o ==> v == o[name]
  {
    if name in o then o[name] else Undefined
  }

  function DigitChar(d: nat): (c: char)
    requires d < 10
    ensures '0' <= c <= '9'
  {
    "0123456789"[d]
  }

  function NatToString(n: nat): (s: string)
    ensures |s| > 0
    ensures forall i :: 0 <= i < |s| ==> '0' <= s[i] <= '9'
    decreases n
  {
    if n < 10 then [DigitChar(n)] else NatToString(n / 10) + [DigitChar(n % 10)]
  }

  /** `String(n)` for an integer. */
  function IntToString(n: int): (s: string)
    ensures forall i :: 0 <= i < |s| ==> s[i] == '-' || '0' <= s[i] <= '9'
  {
    if n < 0 then "-" + NatToString(-n) else NatToString(n)
  }

  /** `String(v)`, the conversion used by `+` with a string and by map keys.
      Arrays join their elements with ",", rendering `undefined`/`null` as "". */
  function ToStr(v: Value): string
    decreases v, 0
  {
    match v
    case Undefined => "undefined"
    case Null => "null"
    case NaN => "NaN"
    case Bool(b) => if b then "true" else "false"
    case Num(n) => IntToString(n)
    case Str(s) => s
    case Arr(items) => JoinItems(items)
    case _ => "[object Object]"
  }

  function JoinItems(items: seq<Value>): string
    decreases items, 0
  {
    if items == [] then ""
    else if |items| == 1 then ItemStr(items[0])
    else ItemStr(items[0]) + "," + JoinItems(items[1..])
  }

  function ItemStr(v: Value): string
    decreases v, 1
  {
    if v.Undefined? || v.Null? then "" else ToStr(v)
  }

  /** `Number(v)` for the values the core compares; `None` stands for NaN.
      String and array operands are not coerced in this model. */
  function ToNumber(v: Value): Option<int> {
    match v
    case Null => Some(0)
    case Bool(b) => Some(if b then 1 else 0)
    case Num(n) => Some(n)
    case _ => None
  }

  datatype Option<T> = None | Some(value: T)

  /** `a === b`: the same value, except that `NaN` equals nothing. Objects
      compare by identity in JavaScript; here by value. */
  predicate StrictEq(a: Value, b: Value) {
    a == b && !a.NaN?
  }

  /** `v >= bound` for a numeric bound. */
  predicate AtLeast(v: Value, bound: int) {
    var x := ToNumber(v); x.Some? && x.value >= bound
  }

  /** `v < bound` for a numeric bound. */
  predicate Below(v: Value, bound: int) {
    var x := ToNumber(v); x.Some? && x.value < bound
  }

  /** `a + b` on two values: numeric addition unless a string (or an object,
      which converts to a string) takes part. */
  function Plus(a: Value, b: Value): (r: Value)
    ensures a.Num? && b.Num? ==> r == Num(a.n + b.n)
  {
    if a.Str? || b.Str? || IsObjectLike(a) || IsObjectLike(b) then Str(ToStr(a) + ToStr(b))
    else
      var x := ToNumber(a);
      var y := ToNumber(b);
      if x.Some? && y.Some? then Num(x.value + y.value) else NaN
  }

  predicate IsObjectLike(v: Value) {
    v.Arr? || v.Obj? || v.Ref? || v.TableRef? || v.Members?
  }

  /** `v[name]` on a value; `None` is the TypeError of reading a
      property of `undefined` or `null`. */
  function Read(v: Value, name: string): (r: Option<Value>)
    ensures r.None? <==> !Readable(v)
  {
    if !Readable(v) then None
    else if v.Obj? then Some(Prop(v.props, name))
    else Some(Undefined)
  }

  /** `v[i]`: an array element, a string's character, an object's property. */
  function Index(v: Value, i: nat): (r: Option<Value>)
    ensures r.None? <==> !Readable(v)
  {
    match v
    case Undefined => None
    case Null => None
    case Arr(items) => Some(if i < |items| then items[i] else Undefined)
    case Str(s) => Some(if i < |s| then Str([s[i]]) else Undefined)
    case Obj(m) => Some(Prop(m, NatToString(i)))
    case _ => Some(Undefined)
  }

  /** `v[name] = x`: objects take the property; arrays and other objects
      would too, but keep no named properties in this model; a write to a
      primitive throws. */
  function SetProp(v: Value, name: string, x: Value): (r: Option<Value>)
    ensures r.Some? <==> IsObjectLike(v)
    ensures v.Obj? ==> r == Some(Obj(v.props[name := x]))
    ensures r.Some? && !v.Obj? ==> r.value == v
  {
    if v.Obj? then Some(Obj(v.props[name := x]))
    else if IsObjectLike(v) then Some(v)
    else None
  }

  /** `a == b`, JavaScript's loose equality: `undefined` and `null` equal
      each other only, `NaN` equals nothing, a number equals its canonical
      decimal string, booleans compare as 0/1. Objects compare by value
      here, and a string is converted to a number only through its
      canonical form (`' 1' == 1` is not modelled). */
  predicate LooseEq(a: Value, b: Value) {
    if (a.Undefined? || a.Null?) || (b.Undefined? || b.Null?) then
      (a.Undefined? || a.Null?) && (b.Undefined? || b.Null?)
    else if a.NaN? || b.NaN? then false
    else
      var x := BoolAsNum(a);
      var y := BoolAsNum(b);
      if x.Str? && y.Num? then x.s == IntToString(y.n)
      else if x.Num? && y.Str? then y.s == IntToString(x.n)
      else x == y
  }

  /** A boolean compared with `==` converts to 0 or 1. */
  function BoolAsNum(v: Value): Value {
    if v.Bool? then Num(if v.b then 1 else 0) else v
  }

  // ---------------------------------------------------------------- strings

  function ToUpperChar(c: char): char {
    if 'a' <= c <= 'z' then (c as int - 32) as char else c
  }

  function ToLowerChar(c: char): char {
    if 'A' <= c <= 'Z' then (c as int + 32) as char else c
  }

  /** `s.toUpperCase()` on ASCII letters. */
  function ToUpper(s: string): (r: string)
    ensures |r| == |s|
    ensures forall i :: 0 <= i < |s| ==> r[i] == ToUpperChar(s[i])
  {
    if s == [] then [] else [ToUpperChar(s[0])] + ToUpper(s[1..])
  }

  /** `s.toLowerCase()` on ASCII letters. */
  function ToLower(s: string): (r: string)
    ensures |r| == |s|
    ensures forall i :: 0 <= i < |s| ==> r[i] == ToLowerChar(s[i])
  {
    if s == [] then [] else [ToLowerChar(s[0])] + ToLower(s[1..])
  }

  /** Upper-casing forgets an earlier lower-casing. */
  lemma UpperOfLower(s: string)
    ensures ToUpper(ToLower(s)) == ToUpper(s)
  {
    var l := ToLower(s);
    forall i | 0 <= i < |s|
      ensures ToUpper(l)[i] == ToUpper(s)[i]
    {
      assert ToUpperChar(ToLowerChar(s[i])) == ToUpperChar(s[i]);
    }
  }

  /** Index of the first occurrence of `c` in `s` (`indexOf`), if any. */
  function IndexOf(s: string, c: char): (r: Option<nat>)
    ensures r.None? <==> c !in s
    ensures r.Some? ==> r.value < |s| && s[r.value] == c && c !in s[..r.value]
  {
    if s == [] then None
    else if s[0] == c then Some(0)
    else
      var t := IndexOf(s[1..], c);
      if t.None? then None
      else
        assert s[..t.value + 1] == [s[0]] + s[1..][..t.value];
        Some(t.value + 1)
  }

  predicate StartsWith(s: string, p: string) {
    |p| <= |s| && s[..|p|] == p
  }

  /** `sep` occurs in `s` starting at position `i`. */
  predicate OccursAt(s: string, sep: string, i: int) {
    0 <= i && i + |sep| <= |s| && s[i..i + |sep|] == sep
  }

  predicate NoOccurrence(s: string, sep: string) {
    forall i :: 0 <= i <= |s| ==> !OccursAt(s, sep, i)
  }

  /** Position of the first occurrence of `sep` at or after `from`. */
  function Find(s: string, sep: string, from: nat): (r: Option<nat>)
    requires |sep| > 0
    ensures r.Some? ==> from <= r.value && OccursAt(s, sep, r.value)
    ensures r.Some? ==> forall j :: from <= j < r.value ==> !OccursAt(s, sep, j)
    ensures r.None? ==> forall j :: from <= j ==> !OccursAt(s, sep, j)
    decreases |s| - from
  {
    if from + |sep| > |s| then None
    else if s[from..from + |sep|] == sep then Some(from)
    else Find(s, sep, from + 1)
  }

  /** `s.split(sep)` for a non-empty separator. */
  function Split(s: string, sep: string): (r: seq<string>)
    requires |sep| > 0
    ensures |r| >= 1
    decreases |s|
  {
    var i := Find(s, sep, 0);
    if i.None? then [s]
    else [s[..i.value]] + Split(s[i.value + |sep|..], sep)
  }

  /** `parts.join(sep)`. */
  function Join(parts: seq<string>, sep: string): string {
    if parts == [] then ""
    else if |parts| == 1 then parts[0]
    else parts[0] + sep + Join(parts[1..], sep)
  }

  /** Splitting a string in which `sep` never occurs gives the string itself. */
  lemma SplitNoSep(s: string, sep: string)
    requires |sep| > 0
    requires NoOccurrence(s, sep)
    ensures Split(s, sep) == [s]
  {
  }

  /** Splitting `a + sep + b`, where `sep` occurs in neither part nor across
      the seams, gives `[a] + split(b)`. */
  lemma SplitAt(a: string, sep: string, b: string)
    requires |sep| > 0
    requires forall j :: 0 <= j < |a| ==> !OccursAt(a + sep + b, sep, j)
    ensures Split(a + sep + b, sep) == [a] + Split(b, sep)
  {
    var s := a + sep + b;
    assert OccursAt(s, sep, |a|) by {
      assert s[|a|..|a| + |sep|] == sep;
    }
    var i := Find(s, sep, 0);
    assert i.Some?;
    assert i.value == |a|;
    assert s[..|a|] == a;
    assert s[|a| + |sep|..] == b;
  }

  /** A one-character separator occurs exactly where that character is. */
  lemma OccursChar(s: string, c: char, j: int)
    ensures OccursAt(s, [c], j) <==> 0 <= j < |s| && s[j] == c
  {
    if 0 <= j < |s| {
      assert s[j..j + 1] == [s[j]];
    }
  }

  /** Splitting at a character that is absent from the part before it. */
  lemma SplitCharAt(a: string, c: char, b: string)
    requires c !in a
    ensures Split(a + [c] + b, [c]) == [a] + Split(b, [c])
  {
    var s := a + [c] + b;
    forall j | 0 <= j < |a| ensures !OccursAt(s, [c], j) {
      OccursChar(s, c, j);
      assert s[j] == a[j];
    }
    SplitAt(a, [c], b);
  }

  lemma SplitCharNone(s: string, c: char)
    requires c !in s
    ensures Split(s, [c]) == [s]
  {
    forall j | 0 <= j <= |s| ensures !OccursAt(s, [c], j) {
      OccursChar(s, c, j);
    }
    SplitNoSep(s, [c]);
  }

  /** Lower-casing forgets an earlier upper-casing. */
  lemma LowerOfUpper(s: string)
    ensures ToLower(ToUpper(s)) == ToLower(s)
  {
    var u := ToUpper(s);
    forall i | 0 <= i < |s|
      ensures ToLower(u)[i] == ToLower(s)[i]
    {
      assert ToLowerChar(ToUpperChar(s[i])) == ToLowerChar(s[i]);
    }
  }
}

=== FILE: omap.dfy ===
/** Insertion-ordered string-keyed maps, the shape of a `d3-collection` map:
    `set` on a new key appends it, `set` on a present key keeps its position,
    and iteration (`each`, `keys`, `entries`) follows insertion order. */
module OrderedMap {

  /** The listed keys, in insertion order, and the bindings. Every listed key
      is bound; `WellFormed` adds that each bound key is listed exactly once. */
  datatype Raw<V> = Raw(keys: seq<string>, m: map<string, V>) {
    predicate Valid() {
      forall i :: 0 <= i < |keys| ==> keys[i] in m
    }
  }

  type OMap<V> = o: Raw<V> | o.Valid() witness Raw([], map[])

  /** The full d3 map invariant: the key list enumerates the bindings without repetition. */
  predicate WellFormed<V>(o: OMap<V>) {
    && (forall i, j :: 0 <= i < j < |o.keys| ==> o.keys[i] != o.keys[j])
    && (forall k :: k in o.m ==> k in o.keys)
  }

  function Empty<V>(): (o: OMap<V>)
    ensures o.keys == [] && o.m == map[]
  {
    Raw([], map[])
  }

  predicate Has<V>(o: OMap<V>, k: string) {
    k in o.m
  }

  /** `map.size()`: the number of bindings. */
  function Size<V>(o: OMap<V>): (n: nat)
    ensures o.m == map[] <==> n == 0
  {
    |o.m.Keys|
  }

  /** On a well-formed map the size is the length of the key list. */
  lemma SizeIsLength<V>(o: OMap<V>)
    requires WellFormed(o)
    ensures Size(o) == |o.keys|
  {
    DistinctCard(o.keys);
    assert o.m.Keys == set k | k in o.keys;
  }

  /** `map.set(k, v)`. */
  function Put<V>(o: OMap<V>, k: string, v: V): (r: OMap<V>)
    ensures r.m == o.m[k := v]
    ensures k in o.m ==> r.keys == o.keys
    ensures k !in o.m ==> r.keys == o.keys + [k]
  {
    if k in o.m then Raw(o.keys, o.m[k := v]) else Raw(o.keys + [k], o.m[k := v])
  }

  /** `set` adds one to the size exactly when the key is new. */
  lemma SizePut<V>(o: OMap<V>, k: string, v: V)
    ensures Size(Put(o, k, v)) == if k in o.m then Size(o) else Size(o) + 1
  {
    var r := Put(o, k, v);
    if k in o.m {
      assert r.m.Keys == o.m.Keys;
    } else {
      assert r.m.Keys == o.m.Keys + {k};
    }
  }

  /** `set` keeps a map well-formed. */
  lemma PutWellFormed<V>(o: OMap<V>, k: string, v: V)
    requires WellFormed(o)
    ensures WellFormed(Put(o, k, v))
  {
    var r := Put(o, k, v);
    if k !in o.m {
      forall i, j | 0 <= i < j < |r.keys| ensures r.keys[i] != r.keys[j] {
        if j == |o.keys| {
          assert r.keys[i] == o.keys[i];
          assert o.keys[i] in o.m;
        }
      }
    }
  }

  /** Appending a new key, bound alongside the old ones, keeps a map well-formed. */
  lemma ExtendWellFormed<V>(o: OMap<V>, r: OMap<V>, k: string)
    requires WellFormed(o) && k !in o.m
    requires r.keys == o.keys + [k] && r.m.Keys == o.m.Keys + {k}
    ensures WellFormed(r)
  {
    forall i, j | 0 <= i < j < |r.keys| ensures r.keys[i] != r.keys[j] {
      if j == |o.keys| {
        assert r.keys[i] == o.keys[i];
        assert o.keys[i] in o.m;
      }
    }
  }

  /** Every listed key is bound. */
  lemma InKeys<V>(o: OMap<V>)
    ensures forall k :: k in o.keys ==> k in o.m
  {
    forall k | k in o.keys ensures k in o.m {
      var i :| 0 <= i < |o.keys| && o.keys[i] == k;
    }
  }

  lemma DistinctCard(s: seq<string>)
    requires forall i, j :: 0 <= i < j < |s| ==> s[i] != s[j]
    ensures |set k | k in s| == |s|
  {
    if s != [] {
      var t := s[..|s| - 1];
      DistinctCard(t);
      assert (set k | k in s) == (set k | k in t) + {s[|s| - 1]};
      assert s[|s| - 1] !in (set k | k in t);
    }
  }

  lemma KeyIndex<V>(o: OMap<V>, k: string) returns (i: nat)
    requires WellFormed(o) && k in o.m
    ensures i < |o.keys| && o.keys[i] == k
  {
    i :| i < |o.keys| && o.keys[i] == k;
  }
}

=== FILE: orchestrator.dfy ===
/** The node-loading workflow of the model (src/model.js:451-559): the
    `addNodeCont` handler walks a node through five stages, and stage 4 may
    detour through the `excourseLoadDegree` handler, which prefetches the
    node's neighbours and then resumes the first workflow at stage 5 through
    its `backCall`.

    Each handler invocation is a pure transition from the store, the set of
    ids being added and the message to a new store and one action: the next
    message, a fetch whose result comes back as a message, or the final
    hand-over to the graph. A handler that throws ends the workflow; the
    store keeps the mutations made before the throw. */
module Orchestrator {
  import opened Js
  import opened OrderedMap
  import opened Store

  /** `degreeThreshold`: above this many neighbours in one direction, the
      neighbours are not prefetched. */
  const DegreeThreshold: int := 100

  /** The `context` object of an `addNodeCont` message; absent fields are `undefined`. */
  datatype NodeContext = NodeContext(stage: int, id: Value, ty: Value, keyspace: Value, anchor: Value, addressId: Value)

  /** The `context` of an `excourseLoadDegree` message; stage 0 is the
      context without a stage. Its `backCall` is always an `addNodeCont`. */
  datatype DegreeContext = DegreeContext(stage: int, id: Value, ty: Value, keyspace: Value, backCall: NodeContext)

  datatype Message =
    | AddNodeCont(node: NodeContext, result: Value)
    | LoadDegree(degree: DegreeContext, result: Value)

  /** The REST calls the workflow issues (src/rest.js). */
  datatype Request =
    | NodeRequest(keyspace: Value, ty: Value, id: Value)
    | ClusterForAddress(keyspace: Value, id: Value)
    | NeighborsRequest(keyspace: Value, id: Value, ty: Value, isOutgoing: bool, pagesize: int)
    | TagsRequest(keyspace: Value, id: Value, ty: Value)

  /** Where `mapResult` delivers a fetch result: the message it is sent with, and its context. */
  datatype Reply = NodeReply(nodeContext: NodeContext) | DegreeReply(degreeContext: DegreeContext)

  datatype Action =
      /** The handler returned without a follow-up. */
    | Idle
      /** `this.call(msg, data)`. */
    | Send(msg: Message)
      /** `this.mapResult(request, msg, context)`. */
    | Fetch(request: Request, reply: Reply)
      /** Stage 5: `graph.add(o, anchor)`, after an optional tag fetch. */
    | Show(entity: Value, anchor: Value, tags: Option<(Request, Value)>)

  datatype Step = Next(store: Store, action: Action) | Threw(store: Store)

  // -------------------------------------------------------------- addNode

  /** The `addNode` handler: mark the id as being added (`graph.adding` is a
      JavaScript `Set`, so ids compare without conversion) and start at stage 1. */
  function AddNode(adding: set<Value>, id: Value, ty: Value, keyspace: Value, anchor: Value): (r: (set<Value>, Message))
    ensures id in r.0 && adding <= r.0 && r.0 - adding <= {id}
    ensures r.1.AddNodeCont? && r.1.node.stage == 1 && r.1.result == Null
    ensures r.1.node.id == id && r.1.node.ty == ty && r.1.node.keyspace == keyspace && r.1.node.anchor == anchor
  {
    (adding + {id}, AddNodeCont(NodeContext(1, id, ty, keyspace, anchor, Undefined), Null))
  }

  /** The `addNodeCont` handler: the first stage whose guard holds, or nothing. */
  function HandleAddNodeCont(s: Store, adding: set<Value>, ctx: NodeContext, result: Value): Step {
    if ctx.stage == 1 && Truthy(ctx.ty) && Truthy(ctx.id) then Stage1(s, ctx)
    else if ctx.stage == 2 && Truthy(result) then Stage2(s, adding, ctx, result)
    else if ctx.stage == 3 && Truthy(ctx.addressId) then Stage3(s, adding, ctx, result)
    else if ctx.stage == 4 && Truthy(ctx.id) && Truthy(ctx.ty) then Stage4(s, ctx)
    else if ctx.stage == 5 && Truthy(ctx.id) && Truthy(ctx.ty) then Stage5(s, ctx)
    else Next(s, Idle)
  }

  /** Whether the store holds the entity `(keyspace, type, id)`. */
  predicate Holds(s: Store, keyspace: Value, ty: Value, id: Value) {
    || (ty == Str("address") && Prefix(keyspace, id) in s.addresses.m)
    || (ty == Str("cluster") && Prefix(keyspace, id) in s.clusters.m)
  }

  /** Stage 1 (lines 458-466): fetch the node unless the store has it; a
      stored node goes to stage 2 as if it had been fetched. Either way the
      stage-2 context keeps only the keyspace and the anchor. */
  function Stage1(s: Store, ctx: NodeContext): (r: Step)
    ensures r.Next? && r.store == s
    ensures r.action.Fetch? <==> !Holds(s, ctx.keyspace, ctx.ty, ctx.id)
    ensures r.action.Fetch? ==> r.action.request == NodeRequest(ctx.keyspace, ctx.ty, ctx.id)
    ensures r.action.Fetch? || r.action.Send?
    ensures r.action.Send? ==>
      && r.action.msg.AddNodeCont?
      && r.action.msg.result.Ref?
      && r.action.msg.result.key == Prefix(ctx.keyspace, ctx.id)
      && (r.action.msg.result.kind == AddressKind <==> ctx.ty == Str("address"))
    ensures var next := NodeContext(2, Undefined, Undefined, ctx.keyspace, ctx.anchor, Undefined);
      (r.action.Fetch? ==> r.action.reply == NodeReply(next)) && (r.action.Send? ==> r.action.msg.node == next)
  {
    var next := NodeContext(2, Undefined, Undefined, ctx.keyspace, ctx.anchor, Undefined);
    var a := Get(s, ctx.keyspace, ctx.ty, ctx.id);
    if !Truthy(a) then Next(s, Fetch(NodeRequest(ctx.keyspace, ctx.ty, ctx.id), NodeReply(next)))
    else Next(s, Send(AddNodeCont(next, a)))
  }

  /** `v[0]` for a readable value: an array's first element, a string's
      first character, an object's property `0`. */
  function First(s: Store, v: Value): Value {
    match v
    case Arr(items) => if items == [] then Undefined else items[0]
    case Str(chars) => if chars == "" then Undefined else Str([chars[0]])
    case _ => Field(s, v, "0")
  }

  /** Whether the anchor asks for the incoming edge of line 470. */
  predicate IncomingAnchor(s: Store, anchor: Value) {
    Truthy(anchor) && StrictEq(Field(s, anchor, "isOutgoing"), Bool(false))
  }

  /** Lines 470-473: for an incoming anchor, the edge from the new node to
      the anchor's node, without statistics; `None` is a throw. */
  function AnchorLink(s: Store, o: Value, anchor: Value): (r: Option<Store>)
    ensures !IncomingAnchor(s, anchor) ==> r == Some(s)
    ensures r.Some? ==> r.value.addresses == s.addresses && r.value.clusters == s.clusters
    ensures r.Some? && IncomingAnchor(s, anchor) ==>
      var e := EdgeAt(s, Prefix(Field(s, o, "keyspace"), Field(s, o, "id")), ToStr(First(s, Field(s, anchor, "nodeId"))));
      var e' := EdgeAt(r.value, Prefix(Field(s, o, "keyspace"), Field(s, o, "id")), ToStr(First(s, Field(s, anchor, "nodeId"))));
      && e'.Some?
      && (e.Some? && e.value.Stats? ==> e' == e)
      && (!(e.Some? && e.value.Stats?) ==> e' == Some(NoStats))
    ensures IncomingAnchor(s, anchor) ==>
      (r.None? <==> !Readable(Field(s, anchor, "nodeId"))
                    || LinkOutgoing(s, Field(s, o, "id"), First(s, Field(s, anchor, "nodeId")), Field(s, o, "keyspace"), Undefined).None?)
  {
    if !IncomingAnchor(s, anchor) then Some(s)
    else
      var ids := Field(s, anchor, "nodeId");
      if !Readable(ids) then None
      else LinkOutgoing(s, Field(s, o, "id"), First(s, ids), Field(s, o, "keyspace"), Undefined)
  }

  /** Stage 2 (lines 467-481): merge the result into the store and go on
      with the merged entity: nothing more when its id is no longer being
      added, the cluster lookup for an address without a cluster, and
      stage 4 for everything else. */
  function Stage2(s: Store, adding: set<Value>, ctx: NodeContext, result: Value): (r: Step)
    ensures Add(s, result).Rejected? ==> r == Threw(s)
    ensures Add(s, result).Raised? ==> r == Threw(Add(s, result).store)
    ensures r.Next? ==>
      && Add(s, result).Added?
      && AnchorLink(Add(s, result).store, Add(s, result).entity, ctx.anchor) == Some(r.store)
    ensures r.Next? ==>
      var o := Add(s, result).entity;
      var id := Field(r.store, o, "id");
      && (id !in adding <==> r.action.Idle?)
      && (r.action.Fetch? <==>
            id in adding && Field(r.store, o, "type") == Str("address") && !Truthy(Field(r.store, o, "cluster")))
      && (r.action.Fetch? ==>
            r.action == Fetch(ClusterForAddress(ctx.keyspace, id), NodeReply(NodeContext(3, Undefined, Undefined, ctx.keyspace, ctx.anchor, id))))
      && (r.action.Send? ==>
            r.action.msg == AddNodeCont(NodeContext(4, id, Field(r.store, o, "type"), ctx.keyspace, ctx.anchor, Undefined), Undefined))
    ensures Add(s, result).Added? ==>
      (r.Threw? <==> AnchorLink(Add(s, result).store, Add(s, result).entity, ctx.anchor).None?)
    ensures r.Next? ==> r.action.Idle? || r.action.Fetch? || r.action.Send?
  {
    match Add(s, result)
    case Rejected => Threw(s)
    case Raised(s1) => Threw(s1)
    case Added(s1, _, o) =>
      match AnchorLink(s1, o, ctx.anchor)
      case None => Threw(s1)
      case Some(s2) =>
        var id := Field(s2, o, "id");
        if id !in adding then Next(s2, Idle)
        else if Field(s2, o, "type") == Str("address") && !Truthy(Field(s2, o, "cluster")) then
          Next(s2, Fetch(ClusterForAddress(ctx.keyspace, id), NodeReply(NodeContext(3, Undefined, Undefined, ctx.keyspace, ctx.anchor, id))))
        else Next(s2, Send(AddNodeCont(NodeContext(4, id, Field(s2, o, "type"), ctx.keyspace, ctx.anchor, Undefined), Undefined)))
  }

  /** Lines 485-494: the cluster payload for an address: a copy of the
      result, with a mock-up cluster named after the address when the result
      names none, and the address as its only `forAddresses` entry. */
  function ClusterPayloadFor(s: Store, result: Value, addressId: Value): (p: Entity)
    ensures Prop(p, "forAddresses") == Arr([addressId])
    ensures Truthy(Field(s, result, "cluster")) ==> p == Props(s, result)["forAddresses" := Arr([addressId])]
    ensures !Truthy(Field(s, result, "cluster")) ==>
      && Prop(p, "cluster") == Str("mockup" + ToStr(addressId))
      && Prop(p, "mockup") == Bool(true)
      && forall k :: k != "cluster" && k != "mockup" && k != "forAddresses" ==> Prop(p, k) == Field(s, result, k)
  {
    var copy := Props(s, result);
    var named := if Truthy(Prop(copy, "cluster")) then copy
                 else copy["cluster" := Str("mockup" + ToStr(addressId))]["mockup" := Bool(true)];
    named["forAddresses" := Arr([addressId])]
  }

  /** Stage 3 (lines 482-495): add the address's cluster, or a mock-up of
      it, linked to the address, and go on to stage 4 for the address. A
      payload that `add` rejects (no keyspace) is skipped. */
  function Stage3(s: Store, adding: set<Value>, ctx: NodeContext, result: Value): (r: Step)
    ensures ctx.addressId !in adding ==> r == Next(s, Idle)
    ensures ctx.addressId in adding ==>
      var added := Add(s, Obj(ClusterPayloadFor(s, result, ctx.addressId)));
      && (added.Raised? <==> r.Threw?)
      && (added.Raised? ==> r.store == added.store)
      && (added.Rejected? ==> r.store == s)
      && (added.Added? ==> r.store == added.store)
      && (r.Next? ==> r.action == Send(AddNodeCont(NodeContext(4, ctx.addressId, Str("address"), ctx.keyspace, ctx.anchor, Undefined), Undefined)))
  {
    if ctx.addressId !in adding then Next(s, Idle)
    else
      var next := Send(AddNodeCont(NodeContext(4, ctx.addressId, Str("address"), ctx.keyspace, ctx.anchor, Undefined), Undefined));
      match Add(s, Obj(ClusterPayloadFor(s, result, ctx.addressId)))
      case Raised(s1) => Threw(s1)
      case Rejected => Next(s, next)
      case Added(s1, _, _) => Next(s1, next)
  }

  /** Stage 4 (lines 496-507): prefetch the degree of the node, if it is a
      cluster, or of its cluster, if it is an address with a real cluster;
      otherwise resume at stage 5 at once. The `backCall` is the context
      itself at stage 5. */
  function Stage4(s: Store, ctx: NodeContext): (r: Step)
    ensures r.store == s
    ensures ctx.ty != Str("cluster") && ctx.ty != Str("address") ==> r == Next(s, Idle)
    ensures r.Threw? <==> (ctx.ty == Str("cluster") || ctx.ty == Str("address")) && !Holds(s, ctx.keyspace, ctx.ty, ctx.id)
    ensures r.Next? && ctx.ty == Str("cluster") ==>
      r.action == Send(LoadDegree(DegreeContext(0, Field(s, Get(s, ctx.keyspace, ctx.ty, ctx.id), "id"), Str("cluster"), ctx.keyspace, ctx.(stage := 5)), Undefined))
    ensures r.Next? && ctx.ty == Str("address") ==>
      var cl := Field(s, Ref(AddressKind, Prefix(ctx.keyspace, ctx.id)), "cluster");
      && (Truthy(cl) && !Truthy(Field(s, cl, "mockup")) ==>
            r.action == Send(LoadDegree(DegreeContext(0, Field(s, cl, "id"), Str("cluster"), ctx.keyspace, ctx.(stage := 5)), Undefined)))
      && (!(Truthy(cl) && !Truthy(Field(s, cl, "mockup"))) ==> r.action == Send(AddNodeCont(ctx.(stage := 5), Undefined)))
  {
    var backCall := ctx.(stage := 5);
    var o := Get(s, ctx.keyspace, ctx.ty, ctx.id);
    if ctx.ty == Str("cluster") then
      if !Readable(o) then Threw(s)
      else Next(s, Send(LoadDegree(DegreeContext(0, Field(s, o, "id"), Str("cluster"), ctx.keyspace, backCall), Undefined)))
    else if ctx.ty == Str("address") then
      if !Readable(o) then Threw(s)
      else
        var cl := Field(s, o, "cluster");
        if Truthy(cl) && !Truthy(Field(s, cl, "mockup")) then
          Next(s, Send(LoadDegree(DegreeContext(0, Field(s, cl, "id"), Str("cluster"), ctx.keyspace, backCall), Undefined)))
        else Next(s, Send(AddNodeCont(backCall, Undefined)))
    else Next(s, Idle)
  }

  /** The context of the stage-5 tag fetch (line 512), key spelling included. */
  function TagsContext(s: Store, o: Value): Value {
    Obj(map["id" := Field(s, o, "id"), "type" := Field(s, o, "type"), "keypspace" := Field(s, o, "keyspace")])
  }

  /** Stage 5 (lines 508-516): hand the node to the graph, fetching its tags
      first when it has none. */
  function Stage5(s: Store, ctx: NodeContext): (r: Step)
    ensures r.store == s
    ensures r.Threw? <==> !Holds(s, ctx.keyspace, ctx.ty, ctx.id)
    ensures r.Next? ==> r.action.Show? && r.action.anchor == ctx.anchor
    ensures r.Next? ==> r.action.entity.Ref? && r.action.entity.key == Prefix(ctx.keyspace, ctx.id)
    ensures r.Next? ==>
      var o := r.action.entity;
      (r.action.tags.Some? <==> !Truthy(Field(s, o, "tags")))
      && (r.action.tags.Some? ==>
            r.action.tags.value == (TagsRequest(ctx.keyspace, Field(s, o, "id"), Field(s, o, "type")), TagsContext(s, o)))
  {
    var o := Get(s, ctx.keyspace, ctx.ty, ctx.id);
    if !Readable(o) then Threw(s)
    else
      var tags := if !Truthy(Field(s, o, "tags"))
        then Some((TagsRequest(ctx.keyspace, Field(s, o, "id"), Field(s, o, "type")), TagsContext(s, o)))
        else None;
      Next(s, Show(o, ctx.anchor, tags))
  }

  /** The entity the `resultTags` handler looks up for a tag-fetch context (line 561). */
  function TagsTarget(s: Store, tagsContext: Value): Value {
    Get(s, Field(s, tagsContext, "keyspace"), Field(s, tagsContext, "type"), Field(s, tagsContext, "id"))
  }

  // ---------------------------------------------------- excourseLoadDegree

  /** The `excourseLoadDegree` handler. */
  function HandleLoadDegree(s: Store, ctx: DegreeContext, result: Value): Step {
    if ctx.stage == 0 then DegreeStart(s, ctx)
    else if ctx.stage == 2 then DegreeIncoming(s, ctx, result)
    else if ctx.stage == 3 then DegreeOutgoing(s, ctx, result)
    else Next(s, Idle)
  }

  /** Start (lines 520-527): fetch the incoming neighbours unless there are
      at least `DegreeThreshold` of them. */
  function DegreeStart(s: Store, ctx: DegreeContext): (r: Step)
    ensures r.store == s
    ensures r.Threw? <==> !Holds(s, ctx.keyspace, ctx.ty, ctx.id)
    ensures r.Next? ==>
      var o := Get(s, ctx.keyspace, ctx.ty, ctx.id);
      && (AtLeast(Field(s, o, "inDegree"), DegreeThreshold) ==> r.action == Send(LoadDegree(ctx.(stage := 2), Undefined)))
      && (!AtLeast(Field(s, o, "inDegree"), DegreeThreshold) ==>
            r.action == Fetch(NeighborsRequest(ctx.keyspace, Field(s, o, "id"), Field(s, o, "type"), false, DegreeThreshold),
                              DegreeReply(ctx.(stage := 2))))
  {
    var o := Get(s, ctx.keyspace, ctx.ty, ctx.id);
    if !Readable(o) then Threw(s)
    else if AtLeast(Field(s, o, "inDegree"), DegreeThreshold) then Next(s, Send(LoadDegree(ctx.(stage := 2), Undefined)))
    else Next(s, Fetch(NeighborsRequest(ctx.keyspace, Field(s, o, "id"), Field(s, o, "type"), false, DegreeThreshold),
                       DegreeReply(ctx.(stage := 2))))
  }

  /** The size of the node's own edge table (`o.outgoing.size()`); `None`
      when `outgoing` is not a table. */
  function OutgoingSize(s: Store, o: Value): Option<nat> {
    var t := Field(s, o, "outgoing");
    if t.TableRef? && t.table in s.outgoingLinks.m then Some(Size(s.outgoingLinks.m[t.table])) else None
  }

  /** Whether the outgoing neighbours need no fetch (line 540). */
  predicate OutgoingKnown(s: Store, o: Value) {
    var out := Field(s, o, "outDegree");
    AtLeast(out, DegreeThreshold) || (OutgoingSize(s, o).Some? && StrictEq(out, Num(OutgoingSize(s, o).value)))
  }

  /** Stage 2 (lines 528-545): record the fetched incoming edges, then
      resume the node workflow if the outgoing neighbours are many or all
      known, else fetch them. */
  function DegreeIncoming(s: Store, ctx: DegreeContext, result: Value): (r: Step)
    ensures var o := Get(s, ctx.keyspace, ctx.ty, ctx.id);
      && LinkNeighbors(s, o, result, true).Thrown? ==> r == Threw(LinkNeighbors(s, o, result, true).store)
    ensures r.Next? ==>
      var o := Get(s, ctx.keyspace, ctx.ty, ctx.id);
      && LinkNeighbors(s, o, result, true) == Done(r.store)
      && Holds(s, ctx.keyspace, ctx.ty, ctx.id)
      && (OutgoingKnown(r.store, o) <==> r.action.Send?)
      && (r.action.Send? ==> r.action.msg == AddNodeCont(ctx.backCall, Undefined))
      && (r.action.Fetch? ==>
            r.action == Fetch(NeighborsRequest(ctx.keyspace, Field(s, o, "id"), Field(s, o, "type"), true, DegreeThreshold),
                              DegreeReply(ctx.(stage := 3))))
    ensures r.Next? ==> r.action.Send? || r.action.Fetch?
    ensures var o := Get(s, ctx.keyspace, ctx.ty, ctx.id);
      var linked := LinkNeighbors(s, o, result, true);
      linked.Done? ==>
        (r.Threw? <==> !Holds(s, ctx.keyspace, ctx.ty, ctx.id)
                       || (!AtLeast(Field(linked.store, o, "outDegree"), DegreeThreshold) && OutgoingSize(linked.store, o).None?))
  {
    var o := Get(s, ctx.keyspace, ctx.ty, ctx.id);
    match LinkNeighbors(s, o, result, true)
    case Thrown(s1) => Threw(s1)
    case Done(s1) =>
      if !Readable(o) then Threw(s1)
      else
        var out := Field(s1, o, "outDegree");
        if AtLeast(out, DegreeThreshold) then Next(s1, Send(AddNodeCont(ctx.backCall, Undefined)))
        else match OutgoingSize(s1, o)
          case None => Threw(s1)
          case Some(n) =>
            if StrictEq(out, Num(n)) then Next(s1, Send(AddNodeCont(ctx.backCall, Undefined)))
            else Next(s1, Fetch(NeighborsRequest(ctx.keyspace, Field(s1, o, "id"), Field(s1, o, "type"), true, DegreeThreshold),
                                DegreeReply(ctx.(stage := 3))))
  }

  /** Stage 3 (lines 546-557): record the fetched outgoing edges and resume
      the node workflow. */
  function DegreeOutgoing(s: Store, ctx: DegreeContext, result: Value): (r: Step)
    ensures var o := Get(s, ctx.keyspace, ctx.ty, ctx.id);
      && (r.Threw? <==> LinkNeighbors(s, o, result, false).Thrown?)
      && r.store == LinkNeighbors(s, o, result, false).store
    ensures r.Next? ==> r.action == Send(AddNodeCont(ctx.backCall, Undefined))
  {
    var o := Get(s, ctx.keyspace, ctx.ty, ctx.id);
    match LinkNeighbors(s, o, result, false)
    case Thrown(s1) => Threw(s1)
    case Done(s1) => Next(s1, Send(AddNodeCont(ctx.backCall, Undefined)))
  }

  // -------------------------------------------------------------- progress

  /** One handler invocation for a message. */
  function Handle(s: Store, adding: set<Value>, m: Message): Step {
    match m
    case AddNodeCont(ctx, result) => HandleAddNodeCont(s, adding, ctx, result)
    case LoadDegree(ctx, result) => HandleLoadDegree(s, ctx, result)
  }

  /** The message a fetch result is delivered with. */
  function Delivered(reply: Reply, result: Value): Message {
    match reply
    case NodeReply(ctx) => AddNodeCont(ctx, result)
    case DegreeReply(ctx) => LoadDegree(ctx, result)
  }

  /** The messages the workflow sends: a degree prefetch always resumes at stage 5. */
  predicate InWorkflow(m: Message) {
    m.LoadDegree? ==> m.degree.backCall.stage == 5
  }

  /** How far a message is along the workflow: node stages 1-5 at 10-50,
      the degree excursion between stages 4 and 5; 0 for a message no
      handler acts on. */
  function Rank(m: Message): (n: nat)
    ensures n <= 50
  {
    match m
    case AddNodeCont(ctx, _) => if 1 <= ctx.stage <= 5 then 10 * ctx.stage else 0
    case LoadDegree(ctx, _) => if ctx.stage == 0 || ctx.stage == 2 || ctx.stage == 3 then 41 + ctx.stage else 0
  }

  /** Every continuation a handler sends, or asks a fetch to deliver, is
      further along than the message handled, whatever the store, the
      `adding` set and the fetch result. With the rank bounded by 50, a
      workflow started by `addNode` ends after at most 50 handler steps. */
  lemma Progress(s: Store, adding: set<Value>, m: Message, result: Value)
    requires InWorkflow(m)
    ensures var r := Handle(s, adding, m);
      && (r.Next? && r.action.Send? ==> InWorkflow(r.action.msg) && Rank(r.action.msg) > Rank(m))
      && (r.Next? && r.action.Fetch? ==>
            InWorkflow(Delivered(r.action.reply, result)) && Rank(Delivered(r.action.reply, result)) > Rank(m))
  {
    match m
    case AddNodeCont(ctx, res) =>
      if ctx.stage == 1 && Truthy(ctx.ty) && Truthy(ctx.id) {
        assert Handle(s, adding, m) == Stage1(s, ctx);
      } else if ctx.stage == 2 && Truthy(res) {
        assert Handle(s, adding, m) == Stage2(s, adding, ctx, res);
      } else if ctx.stage == 3 && Truthy(ctx.addressId) {
        assert Handle(s, adding, m) == Stage3(s, adding, ctx, res);
      } else if ctx.stage == 4 && Truthy(ctx.id) && Truthy(ctx.ty) {
        assert Handle(s, adding, m) == Stage4(s, ctx);
      }
    case LoadDegree(ctx, res) =>
      if ctx.stage == 0 {
        assert Handle(s, adding, m) == DegreeStart(s, ctx);
      } else if ctx.stage == 2 {
        assert Handle(s, adding, m) == DegreeIncoming(s, ctx, res);
      }
  }

  /** The `resultTags` lookup for a stage-5 tag fetch: its context spells
      the keyspace key `keypspace`, so the lookup reads `keyspace` as
      `undefined` and searches the key `undefined|<id>` rather than the
      node's own key. */
  lemma TagsLookupKey(s: Store, o: Value)
    ensures TagsTarget(s, TagsContext(s, o)) == Get(s, Undefined, Field(s, o, "type"), Field(s, o, "id"))
    ensures TagsTarget(s, TagsContext(s, o)).Ref? ==>
      TagsTarget(s, TagsContext(s, o)).key == "undefined|" + ToStr(Field(s, o, "id"))
  {
    assert Field(s, TagsContext(s, o), "keyspace") == Undefined;
  }

  // --------------------------------------------------------- stage effects

  /** The anchor link of line 472 fails exactly when the anchor's `nodeId`
      cannot be read or the new node's id is neither a string nor a number. */
  lemma AnchorLinkSucceeds(s: Store, o: Value, anchor: Value)
    ensures AnchorLink(s, o, anchor).Some? <==>
      !IncomingAnchor(s, anchor) || (Readable(Field(s, anchor, "nodeId")) && IsStringOrNumber(Field(s, o, "id")))
  {
  }

  /** Stage 2 goes on whenever the result is added and its anchor link
      succeeds; for an incoming anchor the edge to the anchor's node is then
      recorded. */
  lemma Stage2Advances(s: Store, adding: set<Value>, ctx: NodeContext, result: Value)
    requires Add(s, result).Added?
    requires var s1, o := Add(s, result).store, Add(s, result).entity;
      !IncomingAnchor(s1, ctx.anchor) || (Readable(Field(s1, ctx.anchor, "nodeId")) && IsStringOrNumber(Field(s1, o, "id")))
    ensures var r := Stage2(s, adding, ctx, result);
      var s1, o := Add(s, result).store, Add(s, result).entity;
      && r.Next?
      && r.store.addresses == s1.addresses && r.store.clusters == s1.clusters
      && (IncomingAnchor(s1, ctx.anchor) ==>
            EdgeAt(r.store, Prefix(Field(s1, o, "keyspace"), Field(s1, o, "id")), ToStr(First(s1, Field(s1, ctx.anchor, "nodeId")))).Some?)
  {
    AnchorLinkSucceeds(Add(s, result).store, Add(s, result).entity, ctx.anchor);
  }

  /** Degree stage 2 resumes the node workflow at its `backCall` when the
      node is stored, its incoming edges are recorded and its outgoing
      neighbours are many or all known. */
  lemma DegreeIncomingResumes(s: Store, ctx: DegreeContext, result: Value)
    requires Holds(s, ctx.keyspace, ctx.ty, ctx.id)
    requires LinkNeighbors(s, Get(s, ctx.keyspace, ctx.ty, ctx.id), result, true).Done?
    requires OutgoingKnown(LinkNeighbors(s, Get(s, ctx.keyspace, ctx.ty, ctx.id), result, true).store, Get(s, ctx.keyspace, ctx.ty, ctx.id))
    ensures DegreeIncoming(s, ctx, result) ==
      Next(LinkNeighbors(s, Get(s, ctx.keyspace, ctx.ty, ctx.id), result, true).store, Send(AddNodeCont(ctx.backCall, Undefined)))
  {
  }

  /** Otherwise, with the node's edge table in place, it fetches the
      outgoing neighbours and continues at degree stage 3. */
  lemma DegreeIncomingFetches(s: Store, ctx: DegreeContext, result: Value)
    requires Holds(s, ctx.keyspace, ctx.ty, ctx.id)
    requires var o := Get(s, ctx.keyspace, ctx.ty, ctx.id);
      var linked := LinkNeighbors(s, o, result, true);
      linked.Done? && !OutgoingKnown(linked.store, o) && OutgoingSize(linked.store, o).Some?
    ensures var o := Get(s, ctx.keyspace, ctx.ty, ctx.id);
      DegreeIncoming(s, ctx, result) ==
        Next(LinkNeighbors(s, o, result, true).store,
             Fetch(NeighborsRequest(ctx.keyspace, Field(s, o, "id"), Field(s, o, "type"), true, DegreeThreshold), DegreeReply(ctx.(stage := 3))))
  {
  }

  // ----------------------------------------------------------- neighbours

  /** The edge a same-type neighbour records: `neighbour -> node` for
      incoming neighbours (in the neighbour's keyspace), `node -> neighbour`
      for outgoing ones (in the node's). */
  function EdgeKey(s: Store, o: Value, n: Value, incoming: bool): (string, string) {
    if incoming then (Prefix(Field(s, n, "keyspace"), Field(s, n, "id")), ToStr(Field(s, o, "id")))
    else (Prefix(Field(s, o, "keyspace"), Field(s, o, "id")), ToStr(Field(s, n, "id")))
  }

  /** The source id of that edge. */
  function EdgeSource(s: Store, o: Value, n: Value, incoming: bool): Value {
    if incoming then Field(s, n, "id") else Field(s, o, "id")
  }

  predicate SameType(s: Store, o: Value, n: Value) {
    StrictEq(Field(s, n, "nodeType"), Field(s, o, "type"))
  }

  /** A neighbour the loop gets past: readable, with a readable node, and a
      usable source id when its edge is recorded. */
  predicate NeighborOk(s: Store, o: Value, n: Value, incoming: bool) {
    Readable(n) && Readable(o) && (SameType(s, o, n) ==> IsStringOrNumber(EdgeSource(s, o, n, incoming)))
  }

  /** `linkOutgoing` for one same-type neighbour, passing the neighbour as the data. */
  function LinkOne(s: Store, o: Value, n: Value, incoming: bool): (r: Option<Store>)
    ensures r.None? <==> !IsStringOrNumber(EdgeSource(s, o, n, incoming))
    ensures r.Some? ==> r.value.addresses == s.addresses && r.value.clusters == s.clusters
    ensures r.Some? ==> EdgeAt(r.value, EdgeKey(s, o, n, incoming).0, EdgeKey(s, o, n, incoming).1).Some?
    ensures r.Some? ==> forall tk, t :: (tk, t) != EdgeKey(s, o, n, incoming) ==> EdgeAt(r.value, tk, t) == EdgeAt(s, tk, t)
  {
    if incoming then LinkOutgoing(s, Field(s, n, "id"), Field(s, o, "id"), Field(s, n, "keyspace"), n)
    else LinkOutgoing(s, Field(s, o, "id"), Field(s, n, "id"), Field(s, o, "keyspace"), n)
  }

  /** Lines 531-537 and 549-555: `result.neighbors.forEach(...)` when the
      result has neighbours; a truthy `neighbors` that is not an array throws. */
  function LinkNeighbors(s: Store, o: Value, result: Value, incoming: bool): (r: Outcome)
    ensures r.store.addresses == s.addresses && r.store.clusters == s.clusters
  {
    if !Truthy(result) || !Truthy(Field(s, result, "neighbors")) then Done(s)
    else
      var ns := Field(s, result, "neighbors");
      if !ns.Arr? then Thrown(s) else LinkEach(s, o, ns.items, incoming)
  }

  /** The loop body over the neighbours: same-type neighbours get their
      edge, others are skipped, and the first unreadable neighbour (or an
      unreadable node) throws. */
  function LinkEach(s: Store, o: Value, ns: seq<Value>, incoming: bool): (r: Outcome)
    ensures r.store.addresses == s.addresses && r.store.clusters == s.clusters
    decreases |ns|
  {
    if ns == [] then Done(s)
    else
      var n := ns[0];
      if !Readable(n) || !Readable(o) then Thrown(s)
      else if !SameType(s, o, n) then LinkEach(s, o, ns[1..], incoming)
      else match LinkOne(s, o, n, incoming)
        case None => Thrown(s)
        case Some(s1) => LinkEach(s1, o, ns[1..], incoming)
  }

  /** Linking edges changes no entity, so every property read is the same before and after. */
  lemma SameEntities(s: Store, t: Store, o: Value, n: Value, incoming: bool)
    requires s.addresses == t.addresses && s.clusters == t.clusters
    ensures SameType(s, o, n) == SameType(t, o, n)
    ensures NeighborOk(s, o, n, incoming) == NeighborOk(t, o, n, incoming)
    ensures EdgeKey(s, o, n, incoming) == EdgeKey(t, o, n, incoming)
  {
    PropsFrame(s, t, o);
    PropsFrame(s, t, n);
  }

  lemma PropsFrame(s: Store, t: Store, v: Value)
    requires s.addresses == t.addresses && s.clusters == t.clusters
    ensures Props(s, v) == Props(t, v)
  {
    if v.Ref? {
      assert EntityMap(s, v.kind) == EntityMap(t, v.kind);
    }
  }

  lemma AllOkFrame(s: Store, t: Store, o: Value, ns: seq<Value>, incoming: bool)
    requires s.addresses == t.addresses && s.clusters == t.clusters
    ensures AllOk(s, o, ns, incoming) <==> AllOk(t, o, ns, incoming)
  {
    forall i | 0 <= i < |ns| ensures NeighborOk(s, o, ns[i], incoming) == NeighborOk(t, o, ns[i], incoming) {
      SameEntities(s, t, o, ns[i], incoming);
    }
  }

  /** Every neighbour of the list is one the loop gets past. */
  predicate AllOk(s: Store, o: Value, ns: seq<Value>, incoming: bool) {
    forall i :: 0 <= i < |ns| ==> NeighborOk(s, o, ns[i], incoming)
  }

  lemma AllOkCons(s: Store, o: Value, ns: seq<Value>, incoming: bool)
    requires ns != []
    ensures AllOk(s, o, ns, incoming) <==> NeighborOk(s, o, ns[0], incoming) && AllOk(s, o, ns[1..], incoming)
  {
    if NeighborOk(s, o, ns[0], incoming) && AllOk(s, o, ns[1..], incoming) {
      forall i | 0 <= i < |ns| ensures NeighborOk(s, o, ns[i], incoming) {
        if i > 0 { assert ns[i] == ns[1..][i - 1]; }
      }
    }
  }

  /** The loop runs to the end exactly when every neighbour is one it gets past. */
  lemma {:induction false} LinkEachCompletes(s: Store, o: Value, ns: seq<Value>, incoming: bool)
    ensures LinkEach(s, o, ns, incoming).Done? <==> AllOk(s, o, ns, incoming)
    decreases |ns|
  {
    if ns != [] {
      var n := ns[0];
      AllOkCons(s, o, ns, incoming);
      if Readable(n) && Readable(o) {
        if !SameType(s, o, n) {
          LinkEachCompletes(s, o, ns[1..], incoming);
        } else if LinkOne(s, o, n, incoming).Some? {
          var s1 := LinkOne(s, o, n, incoming).value;
          assert LinkEach(s, o, ns, incoming) == LinkEach(s1, o, ns[1..], incoming);
          LinkEachCompletes(s1, o, ns[1..], incoming);
          AllOkFrame(s, s1, o, ns[1..], incoming);
        }
      }
    }
  }

  /** No edge is removed: an edge present before is present after. */
  lemma {:induction false} LinkEachKeeps(s: Store, o: Value, ns: seq<Value>, incoming: bool, tk: string, t: string)
    requires EdgeAt(s, tk, t).Some?
    ensures EdgeAt(LinkEach(s, o, ns, incoming).store, tk, t).Some?
    decreases |ns|
  {
    if ns != [] && Readable(ns[0]) && Readable(o) {
      if !SameType(s, o, ns[0]) {
        LinkEachKeeps(s, o, ns[1..], incoming, tk, t);
      } else if LinkOne(s, o, ns[0], incoming).Some? {
        LinkEachKeeps(LinkOne(s, o, ns[0], incoming).value, o, ns[1..], incoming, tk, t);
      }
    }
  }

  /** After a completed loop, every same-type neighbour has its edge. */
  lemma {:induction false} LinkEachLinks(s: Store, o: Value, ns: seq<Value>, incoming: bool, i: nat)
    requires LinkEach(s, o, ns, incoming).Done?
    requires i < |ns| && SameType(s, o, ns[i])
    ensures var k := EdgeKey(s, o, ns[i], incoming); EdgeAt(LinkEach(s, o, ns, incoming).store, k.0, k.1).Some?
    decreases |ns|
  {
    var n := ns[0];
    if !SameType(s, o, n) {
      assert ns[1..][i - 1] == ns[i];
      LinkEachLinks(s, o, ns[1..], incoming, i - 1);
    } else {
      var s1 := LinkOne(s, o, n, incoming).value;
      SameEntities(s, s1, o, ns[i], incoming);
      if i == 0 {
        var k := EdgeKey(s, o, n, incoming);
        LinkEachKeeps(s1, o, ns[1..], incoming, k.0, k.1);
      } else {
        assert ns[1..][i - 1] == ns[i];
        LinkEachLinks(s1, o, ns[1..], incoming, i - 1);
      }
    }
  }

  /** Every edge that changes is the edge of a same-type neighbour, whether
      or not the loop completes. */
  lemma {:induction false} LinkEachOnly(s: Store, o: Value, ns: seq<Value>, incoming: bool, tk: string, t: string) returns (i: nat)
    requires EdgeAt(LinkEach(s, o, ns, incoming).store, tk, t) != EdgeAt(s, tk, t)
    ensures i < |ns| && SameType(s, o, ns[i]) && EdgeKey(s, o, ns[i], incoming) == (tk, t)
    decreases |ns|
  {
    LinkEachHead(s, o, ns, incoming);
    var n := ns[0];
    if !SameType(s, o, n) {
      var j := LinkEachOnly(s, o, ns[1..], incoming, tk, t);
      i := j + 1;
      LaterNeighbor(s, s, o, ns, incoming, j);
    } else {
      var s1 := LinkOne(s, o, n, incoming).value;
      if EdgeAt(s1, tk, t) != EdgeAt(s, tk, t) {
        LinkOneOnly(s, o, n, incoming, tk, t);
        i := 0;
      } else {
        var j := LinkEachOnly(s1, o, ns[1..], incoming, tk, t);
        i := j + 1;
        LaterNeighbor(s, s1, o, ns, incoming, j);
      }
    }
  }

  /** Neighbour `j` of the rest is neighbour `j + 1` of the whole list,
      read the same in a store with the same entities. */
  lemma LaterNeighbor(s: Store, s1: Store, o: Value, ns: seq<Value>, incoming: bool, j: nat)
    requires s.addresses == s1.addresses && s.clusters == s1.clusters
    requires j + 1 < |ns|
    ensures SameType(s, o, ns[j + 1]) == SameType(s1, o, ns[1..][j])
    ensures EdgeKey(s, o, ns[j + 1], incoming) == EdgeKey(s1, o, ns[1..][j], incoming)
  {
    assert ns[1..][j] == ns[j + 1];
    SameEntities(s, s1, o, ns[j + 1], incoming);
  }

  /** The one edge a single link changes is its own. */
  lemma LinkOneOnly(s: Store, o: Value, n: Value, incoming: bool, tk: string, t: string)
    requires LinkOne(s, o, n, incoming).Some?
    requires EdgeAt(LinkOne(s, o, n, incoming).value, tk, t) != EdgeAt(s, tk, t)
    ensures EdgeKey(s, o, n, incoming) == (tk, t)
  {
  }

  /** A run that changed the store went past its first neighbour, as the
      next call over the rest. */
  lemma LinkEachHead(s: Store, o: Value, ns: seq<Value>, incoming: bool)
    requires LinkEach(s, o, ns, incoming).store != s
    ensures ns != [] && Readable(ns[0]) && Readable(o)
    ensures !SameType(s, o, ns[0]) ==> LinkEach(s, o, ns, incoming) == LinkEach(s, o, ns[1..], incoming)
    ensures SameType(s, o, ns[0]) ==>
      && LinkOne(s, o, ns[0], incoming).Some?
      && LinkEach(s, o, ns, incoming) == LinkEach(LinkOne(s, o, ns[0], incoming).value, o, ns[1..], incoming)
  {
  }
}

=== FILE: rest.dfy ===
/** The REST client's pure parts (src/rest.js): building endpoint URLs from a
    base URL, a keyspace and a request, the `.csv` variant of a URL, and the
    shaping of decoded responses (keyspace stamping, tag normalisation).

    Responses are decoded JSON, so they are trees without sharing: a
    property write on a nested object is modelled by rebuilding the path to
    it. A write that throws (on `undefined`, `null` or, the module being
    strict code, on a primitive) makes the whole response fail: `None`. */
module Rest {
  import opened Js

  // ------------------------------------------------------------ JSON access

  /** An object that carries `x` under `name`, and whose other properties are those of `before`. */
  ghost predicate HasProp(v: Value, before: Value, name: string, x: Value) {
    && v.Obj? && before.Obj?
    && name in v.props && v.props[name] == x
    && forall k :: k != name ==> Prop(v.props, k) == Prop(before.props, k)
  }

  // ------------------------------------------------------------------ URLs

  /** `keyspaceUrl(keyspace)` (lines 65-67). */
  function KeyspaceUrl(base: string, keyspace: Value): string {
    base + (if Truthy(keyspace) then "/" + ToStr(keyspace) else "")
  }

  /** The request URL of `remoteJson` and `csv` (lines 35 and 56): the
      keyspace URL and the path, with one `/` between them when the path
      has none. */
  function Resolve(base: string, keyspace: Value, path: string): (u: string)
    ensures StartsWith(path, "/") ==> u == KeyspaceUrl(base, keyspace) + path
    ensures !StartsWith(path, "/") ==> u == KeyspaceUrl(base, keyspace) + "/" + path
  {
    KeyspaceUrl(base, keyspace) + (if StartsWith(path, "/") then "" else "/") + path
  }

  /** The part of a URL before its first `?`. */
  function PathPart(u: string): (p: string)
    ensures '?' !in p
  {
    match IndexOf(u, '?')
    case None => u
    case Some(i) => u[..i]
  }

  /** The part after the first `?`, if there is one. */
  function QueryPart(u: string): Option<string> {
    match IndexOf(u, '?')
    case None => None
    case Some(i) => Some(u[i + 1..])
  }

  /** A URL is its path, then its query after a `?`. */
  lemma PathAndQuery(u: string)
    ensures QueryPart(u).None? ==> u == PathPart(u)
    ensures QueryPart(u).Some? ==> u == PathPart(u) + "?" + QueryPart(u).value
  {
    match IndexOf(u, '?')
    case None =>
    case Some(i) => assert u == u[..i] + [u[i]] + u[i + 1..];
  }

  /** The parts of `p + "?" + q` when `p` has no `?`. */
  lemma PartsOf(p: string, q: string)
    requires '?' !in p
    ensures PathPart(p + "?" + q) == p && QueryPart(p + "?" + q) == Some(q)
  {
    var u := p + "?" + q;
    var i := IndexOf(u, '?');
    assert u[|p|] == '?';
    assert u[..|p|] == p;
    assert u[|p| + 1..] == q;
  }

  lemma PartsOfPlain(p: string)
    requires '?' !in p
    ensures PathPart(p) == p && QueryPart(p) == None
  {
  }

  /** `url.replace('?', '.csv?')` when the URL has a `?`, else `url + '.csv'`. */
  function CsvOf(j: string): (u: string)
    ensures PathPart(u) == PathPart(j) + ".csv"
    ensures QueryPart(u) == QueryPart(j)
  {
    match IndexOf(j, '?')
    case None =>
      CsvAppended(j);
      j + ".csv"
    case Some(i) =>
      CsvInserted(j, i);
      j[..i] + ".csv?" + j[i + 1..]
  }

  lemma CsvAppended(j: string)
    requires IndexOf(j, '?').None?
    ensures PathPart(j + ".csv") == PathPart(j) + ".csv" && QueryPart(j + ".csv") == QueryPart(j)
  {
    assert '?' !in ".csv";
    PartsOfPlain(j + ".csv");
  }

  lemma CsvInserted(j: string, i: nat)
    requires IndexOf(j, '?') == Some(i)
    ensures PathPart(j[..i] + ".csv?" + j[i + 1..]) == PathPart(j) + ".csv"
    ensures QueryPart(j[..i] + ".csv?" + j[i + 1..]) == QueryPart(j)
  {
    assert '?' !in ".csv";
    assert j[..i] + ".csv?" + j[i + 1..] == j[..i] + ".csv" + "?" + j[i + 1..];
    PartsOf(j[..i] + ".csv", j[i + 1..]);
  }

  /** `csv(keyspace, path)` (lines 55-61): the request URL with `.csv`
      inserted before the first `?`, or appended when there is none; the
      query is untouched. */
  function CsvUrl(base: string, keyspace: Value, path: string): (u: string)
    ensures PathPart(u) == PathPart(Resolve(base, keyspace, path)) + ".csv"
    ensures QueryPart(u) == QueryPart(Resolve(base, keyspace, path))
  {
    CsvOf(Resolve(base, keyspace, path))
  }

  /** A path without a leading `/` requests the same URL as the path with one. */
  lemma OneSlash(base: string, keyspace: Value, path: string)
    requires !StartsWith(path, "/")
    ensures Resolve(base, keyspace, path) == Resolve(base, keyspace, "/" + path)
  {
    assert StartsWith("/" + path, "/");
  }

  // ---------------------------------------------------------------- calls

  /** What a call does with the decoded response after stamping it. */
  datatype Post =
    | AsIs
      /** `.then(normalizeNodeTags(keyspace))`. */
    | WithNodeTags
      /** `.then(tags => tags.map(tag => normalizeTag(tag.currency.toLowerCase())(tag)))`. */
    | WithOwnCurrencyTags
      /** `.then(addKeyspace)` of `searchNeighbors`. */
    | WithSearchPaths

  /** A request: `this.json(keyspace, path, field)` with its post-processing, or `this.csv(keyspace, path)`. */
  datatype Call = Json(keyspace: Value, path: string, field: Value, post: Post) | Csv(keyspace: Value, path: string)

  /** The URL a call fetches. */
  function Url(base: string, c: Call): string {
    match c
    case Json(ks, path, _, _) => Resolve(base, ks, path)
    case Csv(ks, path) => CsvUrl(base, ks, path)
  }

  /** `node(keyspace, {type, id})` (lines 82-85). */
  function NodeCall(keyspace: Value, ty: Value, id: Value): (c: Call)
    ensures c.Json? && c.keyspace == keyspace && c.post == WithNodeTags && c.field == Undefined
  {
    Json(keyspace, "/" + ToStr(ty) + "_with_tags/" + ToStr(id), Undefined, WithNodeTags)
  }

  /** `clusterForAddress(keyspace, id)` (lines 86-90). */
  function ClusterForAddressCall(keyspace: Value, id: Value): (c: Call)
    ensures c.Json? && c.keyspace == keyspace && c.post == WithNodeTags && c.field == Undefined
  {
    Json(keyspace, "/address/" + ToStr(id) + "/cluster_with_tags", Undefined, WithNodeTags)
  }

  /** The `page=` segment: empty without a next page. */
  function PageSeg(nextPage: Value): string {
    if Truthy(nextPage) then "page=" + ToStr(nextPage) else ""
  }

  /** The `pagesize=` segment, present only with a page size. */
  function SizeSeg(pagesize: Value): seq<string> {
    if Truthy(pagesize) then ["pagesize=" + ToStr(pagesize)] else []
  }

  /** `(nextPage ? 'page=' + nextPage : '') + (pagesize ? '&pagesize=' + pagesize : '')`. */
  function PageSegments(nextPage: Value, pagesize: Value): string {
    PageSeg(nextPage) + (if Truthy(pagesize) then "&" + SizeSeg(pagesize)[0] else "")
  }

  /** `/<type>/<id>/<what>` from two converted values. */
  function ResourcePath(ty: Value, id: Value, what: string): string {
    "/" + ToStr(ty) + "/" + ToStr(id) + "/" + what
  }

  /** `transactions(keyspace, request, csv)` (lines 91-99) for a request with
      `params`, `nextPage` and `pagesize`; `None` is the throw of indexing
      missing `params`. The listed field is `txs` for a block, else `transactions`. */
  function TransactionsCall(keyspace: Value, params: Value, nextPage: Value, pagesize: Value, csv: Value): (r: Option<Call>)
    ensures r.None? <==> !Readable(params)
    ensures r.Some? ==> r.value.keyspace == keyspace
    ensures r.Some? ==> var base := ResourcePath(Index(params, 1).value, Index(params, 0).value, "transactions");
      && (Truthy(csv) <==> r.value.Csv?)
      && (r.value.Csv? ==> r.value.path == base)
      && (r.value.Json? ==> r.value.path == base + "?" + PageSegments(nextPage, pagesize))
      && (r.value.Json? ==>
            && r.value.post == AsIs
            && (r.value.field == Str("txs") <==> Index(params, 1).value == Str("block"))
            && (r.value.field != Str("txs") ==> r.value.field == Str("transactions")))
  {
    match (Index(params, 1), Index(params, 0))
    case (Some(ty), Some(id)) =>
      var url := ResourcePath(ty, id, "transactions");
      if Truthy(csv) then Some(Csv(keyspace, url))
      else Some(Json(keyspace, url + "?" + PageSegments(nextPage, pagesize),
                     if StrictEq(ty, Str("block")) then Str("txs") else Str("transactions"), AsIs))
    case _ => None
  }

  /** `addresses(keyspace, request, csv)` (lines 100-107). */
  function AddressesCall(keyspace: Value, params: Value, nextPage: Value, pagesize: Value, csv: Value): (c: Call)
    ensures c.keyspace == keyspace
    ensures Truthy(csv) <==> c.Csv?
    ensures c.Csv? ==> c.path == ResourcePath(Str("cluster"), params, "addresses")
    ensures c.Json? ==> c.path == ResourcePath(Str("cluster"), params, "addresses") + "?" + PageSegments(nextPage, pagesize)
    ensures c.Json? ==> c.field == Str("addresses") && c.post == AsIs
  {
    var url := ResourcePath(Str("cluster"), params, "addresses");
    if Truthy(csv) then Csv(keyspace, url)
    else Json(keyspace, url + "?" + PageSegments(nextPage, pagesize), Str("addresses"), AsIs)
  }

  /** `tags(keyspace, {id, type}, csv)` (lines 108-113). */
  function TagsCall(keyspace: Value, id: Value, ty: Value, csv: Value): (c: Call)
    ensures c.keyspace == keyspace && c.path == ResourcePath(ty, id, "tags")
    ensures Truthy(csv) <==> c.Csv?
    ensures c.Json? ==> c.field == Undefined && c.post == WithOwnCurrencyTags
  {
    var url := ResourcePath(ty, id, "tags");
    if Truthy(csv) then Csv(keyspace, url) else Json(keyspace, url, Undefined, WithOwnCurrencyTags)
  }

  /** The `direction=` segment. */
  function DirectionSeg(isOutgoing: Value): string {
    "direction=" + if Truthy(isOutgoing) then "out" else "in"
  }

  /** `neighbors(keyspace, id, type, isOutgoing, pagesize, nextPage, csv)`
      (lines 130-138); the csv variant has no paging. */
  function NeighborsCall(keyspace: Value, id: Value, ty: Value, isOutgoing: Value, pagesize: Value, nextPage: Value, csv: Value): (c: Call)
    ensures c.keyspace == keyspace
    ensures Truthy(csv) <==> c.Csv?
    ensures c.Csv? ==> c.path == ResourcePath(ty, id, "neighbors") + "?" + DirectionSeg(isOutgoing)
    ensures c.Json? ==> c.field == Str("neighbors") && c.post == AsIs
  {
    var url := ResourcePath(ty, id, "neighbors") + "?" + DirectionSeg(isOutgoing);
    if Truthy(csv) then Csv(keyspace, url)
    else Json(keyspace, url + "&" + PageSegments(nextPage, pagesize), Str("neighbors"), AsIs)
  }

  /** The search criterion of `searchNeighbors` (lines 146-151): a category
      wins over addresses; `None` is the throw of `join` on addresses that
      are not an array. */
  function SearchCriterion(category: Value, addresses: Value): (r: Option<string>)
    ensures Truthy(category) ==> r == Some("category=" + ToStr(category))
    ensures !Truthy(category) && !Truthy(addresses) ==> r == Some("")
    ensures !Truthy(category) && Truthy(addresses) ==> (r.Some? <==> addresses.Arr?)
    ensures !Truthy(category) && addresses.Arr? ==> r == Some("addresses=" + JoinItems(addresses.items))
  {
    if Truthy(category) then Some("category=" + ToStr(category))
    else if Truthy(addresses) then
      if addresses.Arr? then Some("addresses=" + JoinItems(addresses.items)) else None
    else Some("")
  }

  /** The query of a neighbour search. */
  function SearchQuery(isOutgoing: Value, crit: string, depth: Value, breadth: Value): string {
    DirectionSeg(isOutgoing) + "&" + crit + "&depth=" + ToStr(depth) + "&breadth=" + ToStr(breadth)
  }

  /** `searchNeighbors({id, type, isOutgoing, depth, breadth, params})`
      (lines 142-164): the keyspace is `id[2]`, the path id is `id[0]`;
      `None` is the throw of reading from a missing `id` or `params`, or of
      joining addresses that are not an array. */
  function SearchNeighborsCall(id: Value, ty: Value, isOutgoing: Value, depth: Value, breadth: Value, params: Value): (r: Option<Call>)
    ensures r.Some? <==>
      && Readable(id) && Readable(params)
      && SearchCriterion(Read(params, "category").value, Read(params, "addresses").value).Some?
    ensures r.Some? ==>
      && r.value.Json? && r.value.keyspace == Index(id, 2).value
      && r.value.post == WithSearchPaths && r.value.field == Undefined
      && r.value.path == ResourcePath(ty, Index(id, 0).value, "search") + "?"
           + SearchQuery(isOutgoing, SearchCriterion(Read(params, "category").value, Read(params, "addresses").value).value, depth, breadth)
  {
    match (Index(id, 2), Index(id, 0), Read(params, "category"), Read(params, "addresses"))
    case (Some(keyspace), Some(pathId), Some(category), Some(addresses)) =>
      (match SearchCriterion(category, addresses)
       case None => None
       case Some(crit) =>
         Some(Json(keyspace, ResourcePath(ty, pathId, "search") + "?" + SearchQuery(isOutgoing, crit, depth, breadth),
                   Undefined, WithSearchPaths)))
    case _ => None
  }

  // ------------------------------------------------------- query segments

  /** The `&`-separated segments of a call's query. */
  function Segments(path: string): seq<string> {
    match QueryPart(path)
    case None => []
    case Some(q) => Split(q, "&")
  }

  /** A converted value with no `?` and no `&` in it. */
  predicate NoSeparators(v: Value) {
    '?' !in ToStr(v) && '&' !in ToStr(v)
  }

  lemma ResourcePathPlain(ty: Value, id: Value, what: string)
    requires NoSeparators(ty) && NoSeparators(id) && '?' !in what
    ensures '?' !in ResourcePath(ty, id, what)
  {
  }

  lemma NoAmpersand(nextPage: Value, pagesize: Value, isOutgoing: Value)
    requires NoSeparators(nextPage)
    ensures '&' !in PageSeg(nextPage) && '&' !in DirectionSeg(isOutgoing)
  {
  }

  /** The segments of a paged query: the page (possibly empty), then the
      page size when there is one. */
  lemma PageSplit(nextPage: Value, pagesize: Value)
    requires NoSeparators(nextPage) && NoSeparators(pagesize)
    ensures Split(PageSegments(nextPage, pagesize), "&") == [PageSeg(nextPage)] + SizeSeg(pagesize)
  {
    NoAmpersand(nextPage, pagesize, Bool(true));
    if Truthy(pagesize) {
      PageSplitSized(nextPage, pagesize);
    } else {
      assert PageSegments(nextPage, pagesize) == PageSeg(nextPage);
      SplitCharNone(PageSeg(nextPage), '&');
    }
  }

  lemma PageSplitSized(nextPage: Value, pagesize: Value)
    requires NoSeparators(pagesize) && Truthy(pagesize) && '&' !in PageSeg(nextPage)
    ensures Split(PageSegments(nextPage, pagesize), "&") == [PageSeg(nextPage), SizeSeg(pagesize)[0]]
  {
    var size := SizeSeg(pagesize)[0];
    SizedShape(nextPage, pagesize);
    SplitCharNone(size, '&');
    SplitCharAt(PageSeg(nextPage), '&', size);
  }

  lemma SizedShape(nextPage: Value, pagesize: Value)
    requires NoSeparators(pagesize) && Truthy(pagesize)
    ensures '&' !in SizeSeg(pagesize)[0]
    ensures PageSegments(nextPage, pagesize) == PageSeg(nextPage) + ['&'] + SizeSeg(pagesize)[0]
  {
  }

  lemma NeighborsShape(keyspace: Value, id: Value, ty: Value, isOutgoing: Value, pagesize: Value, nextPage: Value)
    ensures NeighborsCall(keyspace, id, ty, isOutgoing, pagesize, nextPage, Bool(false)).path
      == ResourcePath(ty, id, "neighbors") + "?" + (DirectionSeg(isOutgoing) + ['&'] + PageSegments(nextPage, pagesize))
  {
  }

  /** A neighbours request asks for the direction it is given, for a page
      exactly when `nextPage` is set (an empty segment otherwise), and for a
      page size exactly when `pagesize` is set. */
  lemma {:induction false} NeighborsQuery(keyspace: Value, id: Value, ty: Value, isOutgoing: Value, pagesize: Value, nextPage: Value)
    requires NoSeparators(id) && NoSeparators(ty) && NoSeparators(nextPage) && NoSeparators(pagesize)
    ensures Segments(NeighborsCall(keyspace, id, ty, isOutgoing, pagesize, nextPage, Bool(false)).path)
      == [DirectionSeg(isOutgoing), PageSeg(nextPage)] + SizeSeg(pagesize)
  {
    NeighborsShape(keyspace, id, ty, isOutgoing, pagesize, nextPage);
    ResourcePathPlain(ty, id, "neighbors");
    NoAmpersand(nextPage, pagesize, isOutgoing);
    PageSplit(nextPage, pagesize);
    QuerySegments(ResourcePath(ty, id, "neighbors"), DirectionSeg(isOutgoing), PageSegments(nextPage, pagesize), PageSeg(nextPage), SizeSeg(pagesize));
  }

  /** The segments of `p?a&rest`, for a plain path and a first segment without `&`. */
  lemma QuerySegments(p: string, a: string, rest: string, x: string, t: seq<string>)
    requires '?' !in p && '&' !in a
    requires Split(rest, "&") == [x] + t
    ensures Segments(p + "?" + (a + ['&'] + rest)) == [a, x] + t
  {
    PartsOf(p, a + ['&'] + rest);
    SplitCharAt(a, '&', rest);
    assert [a] + ([x] + t) == [a, x] + t;
  }

  /** `direction=out` is asked for exactly for outgoing neighbours, `direction=in` exactly for incoming ones. */
  lemma NeighborsDirection(keyspace: Value, id: Value, ty: Value, isOutgoing: Value, pagesize: Value, nextPage: Value)
    requires NoSeparators(id) && NoSeparators(ty) && NoSeparators(nextPage) && NoSeparators(pagesize)
    ensures var s := Segments(NeighborsCall(keyspace, id, ty, isOutgoing, pagesize, nextPage, Bool(false)).path);
      && ("direction=out" in s <==> Truthy(isOutgoing))
      && ("direction=in" in s <==> !Truthy(isOutgoing))
  {
    NeighborsQuery(keyspace, id, ty, isOutgoing, pagesize, nextPage);
    PagingSegments(nextPage, pagesize);
    DirectionSegs(isOutgoing);
    var tail := [PageSeg(nextPage)] + SizeSeg(pagesize);
    var s := [DirectionSeg(isOutgoing)] + tail;
    assert [DirectionSeg(isOutgoing), PageSeg(nextPage)] + SizeSeg(pagesize) == s;
    assert "direction=out" in s <==> DirectionSeg(isOutgoing) == "direction=out" || "direction=out" in tail;
    assert "direction=in" in s <==> DirectionSeg(isOutgoing) == "direction=in" || "direction=in" in tail;
  }

  lemma DirectionSegs(isOutgoing: Value)
    ensures DirectionSeg(isOutgoing) == "direction=out" <==> Truthy(isOutgoing)
    ensures DirectionSeg(isOutgoing) == "direction=in" <==> !Truthy(isOutgoing)
  {
    assert "direction=out" != "direction=in" by {
      assert |"direction=out"| != |"direction=in"|;
    }
  }

  /** The paging segments start with `p` or are empty, so none is a direction. */
  lemma PagingSegments(nextPage: Value, pagesize: Value)
    ensures "direction=out" !in [PageSeg(nextPage)] + SizeSeg(pagesize)
    ensures "direction=in" !in [PageSeg(nextPage)] + SizeSeg(pagesize)
  {
    assert PageSeg(nextPage) == "" || PageSeg(nextPage)[0] == 'p';
    assert SizeSeg(pagesize) == [] || SizeSeg(pagesize)[0][0] == 'p';
  }

  /** A neighbour search asks, in this order, for its direction, its
      criterion (empty when there is none), its depth and its breadth. */
  lemma SearchQuerySegments(id: Value, ty: Value, isOutgoing: Value, depth: Value, breadth: Value, params: Value)
    requires SearchNeighborsCall(id, ty, isOutgoing, depth, breadth, params).Some?
    requires NoSeparators(Index(id, 0).value) && NoSeparators(ty) && NoSeparators(depth) && NoSeparators(breadth)
    requires var crit := SearchCriterion(Read(params, "category").value, Read(params, "addresses").value).value;
      '?' !in crit && '&' !in crit
    ensures Segments(SearchNeighborsCall(id, ty, isOutgoing, depth, breadth, params).value.path) ==
      [DirectionSeg(isOutgoing), SearchCriterion(Read(params, "category").value, Read(params, "addresses").value).value,
       "depth=" + ToStr(depth), "breadth=" + ToStr(breadth)]
  {
    var crit := SearchCriterion(Read(params, "category").value, Read(params, "addresses").value).value;
    var p := ResourcePath(ty, Index(id, 0).value, "search");
    ResourcePathPlain(ty, Index(id, 0).value, "search");
    SearchQueryShape(isOutgoing, crit, depth, breadth);
    FourSegments(p, DirectionSeg(isOutgoing), crit, "depth=" + ToStr(depth), "breadth=" + ToStr(breadth));
  }

  lemma SearchQueryShape(isOutgoing: Value, crit: string, depth: Value, breadth: Value)
    requires NoSeparators(depth) && NoSeparators(breadth)
    ensures SearchQuery(isOutgoing, crit, depth, breadth) ==
      DirectionSeg(isOutgoing) + ['&'] + crit + ['&'] + ("depth=" + ToStr(depth)) + ['&'] + ("breadth=" + ToStr(breadth))
    ensures '&' !in DirectionSeg(isOutgoing) && '&' !in "depth=" + ToStr(depth) && '&' !in "breadth=" + ToStr(breadth)
  {
  }

  /** The segments of `p?a&b&c&d` for a plain path and segments without `&`. */
  lemma FourSegments(p: string, a: string, b: string, c: string, d: string)
    requires '?' !in p && '&' !in a && '&' !in b && '&' !in c && '&' !in d
    ensures Segments(p + "?" + (a + ['&'] + b + ['&'] + c + ['&'] + d)) == [a, b, c, d]
  {
    var q := a + ['&'] + b + ['&'] + c + ['&'] + d;
    PartsOf(p, q);
    SplitFour(a, b, c, d);
  }

  /** `a&b&c&d` splits into its four parts. */
  lemma SplitFour(a: string, b: string, c: string, d: string)
    requires '&' !in a && '&' !in b && '&' !in c && '&' !in d
    ensures Split(a + ['&'] + b + ['&'] + c + ['&'] + d, "&") == [a, b, c, d]
  {
    var t1 := c + ['&'] + d;
    var t2 := b + ['&'] + t1;
    assert a + ['&'] + b + ['&'] + c + ['&'] + d == a + ['&'] + t2;
    SplitCharNone(d, '&');
    SplitCharAt(c, '&', d);
    SplitCharAt(b, '&', t1);
    SplitCharAt(a, '&', t2);
  }

  /** A transactions request's page and page size. */
  lemma {:induction false} TransactionsQuery(keyspace: Value, params: Value, nextPage: Value, pagesize: Value)
    requires Readable(params) && NoSeparators(Index(params, 0).value) && NoSeparators(Index(params, 1).value)
    requires NoSeparators(nextPage) && NoSeparators(pagesize)
    ensures Segments(TransactionsCall(keyspace, params, nextPage, pagesize, Bool(false)).value.path)
      == [PageSeg(nextPage)] + SizeSeg(pagesize)
  {
    var c := TransactionsCall(keyspace, params, nextPage, pagesize, Bool(false)).value;
    var p := ResourcePath(Index(params, 1).value, Index(params, 0).value, "transactions");
    assert c.path == p + "?" + PageSegments(nextPage, pagesize);
    ResourcePathPlain(Index(params, 1).value, Index(params, 0).value, "transactions");
    PartsOf(p, PageSegments(nextPage, pagesize));
    PageSplit(nextPage, pagesize);
  }

  // --------------------------------------------------------------- stamping

  /** `item.keyspace = keyspace` for every item (line 43). */
  function StampItems(items: seq<Value>, keyspace: Value): (r: Option<seq<Value>>)
    ensures r.Some? <==> forall i :: 0 <= i < |items| ==> IsObjectLike(items[i])
    ensures r.Some? ==> |r.value| == |items|
    ensures r.Some? ==> forall i :: 0 <= i < |items| && items[i].Obj? ==> HasProp(r.value[i], items[i], "keyspace", keyspace)
    ensures r.Some? ==> forall i :: 0 <= i < |items| && !items[i].Obj? ==> r.value[i] == items[i]
    ensures r.Some? ==> forall i :: 0 <= i < |items| ==> SetProp(items[i], "keyspace", keyspace) == Some(r.value[i])
  {
    if items == [] then Some([])
    else match (SetProp(items[0], "keyspace", keyspace), StampItems(items[1..], keyspace))
      case (Some(x), Some(rest)) =>
        assert forall i :: 1 <= i < |items| ==> items[i] == items[1..][i - 1];
        Some([x] + rest)
      case _ =>
        assert forall i :: 1 <= i < |items| ==> items[i] == items[1..][i - 1];
        None
  }

  /** The `then` of `remoteJson` (lines 37-48): with a field, every element
      of `result[field]` is stamped when that is an array; without one, a
      result that is not an array is stamped. Nothing else changes. */
  function Stamp(result: Value, keyspace: Value, field: Value): (r: Option<Value>)
    ensures Truthy(field) && Readable(result) && !Read(result, ToStr(field)).value.Arr? ==> r == Some(result)
    ensures !Truthy(field) && result.Arr? ==> r == Some(result)
    ensures !Truthy(field) && result.Obj? ==> r.Some? && HasProp(r.value, result, "keyspace", keyspace)
    ensures r.Some? && Truthy(field) && Readable(result) && Read(result, ToStr(field)).value.Arr? ==>
      && result.Obj?
      && StampItems(Read(result, ToStr(field)).value.items, keyspace).Some?
      && r.value == Obj(result.props[ToStr(field) := Arr(StampItems(Read(result, ToStr(field)).value.items, keyspace).value)])
    ensures Truthy(field) && Readable(result) && Read(result, ToStr(field)).value.Arr? ==>
      (r.Some? <==> StampItems(Read(result, ToStr(field)).value.items, keyspace).Some?)
    ensures Truthy(field) && !Readable(result) ==> r.None?
  {
    if Truthy(field) then
      match Read(result, ToStr(field))
      case None => None
      case Some(list) =>
        if !list.Arr? then Some(result)
        else match StampItems(list.items, keyspace)
          case None => None
          case Some(items) => Some(Obj(result.props[ToStr(field) := Arr(items)]))
    else if result.Arr? then Some(result)
    else SetProp(result, "keyspace", keyspace)
  }

  /** Stamping twice is stamping once. */
  lemma {:induction false} StampItemsTwice(items: seq<Value>, keyspace: Value)
    requires StampItems(items, keyspace).Some?
    ensures StampItems(StampItems(items, keyspace).value, keyspace) == StampItems(items, keyspace)
  {
    if items != [] {
      StampItemsTwice(items[1..], keyspace);
      var x := SetProp(items[0], "keyspace", keyspace).value;
      assert SetProp(x, "keyspace", keyspace) == Some(x) by {
        if x.Obj? { assert x.props["keyspace" := keyspace] == x.props; }
      }
      var r := StampItems(items, keyspace).value;
      assert r[0] == x && r[1..] == StampItems(items[1..], keyspace).value;
    }
  }

  /** A response whose `field` is an array of objects comes back with every
      element stamped, in order, and every other property as it was. */
  lemma StampStampsEveryItem(result: Value, keyspace: Value, field: Value)
    requires Truthy(field) && result.Obj? && Prop(result.props, ToStr(field)).Arr?
    requires var items := Prop(result.props, ToStr(field)).items;
      forall i :: 0 <= i < |items| ==> items[i].Obj?
    ensures Stamp(result, keyspace, field).Some?
    ensures var r := Stamp(result, keyspace, field).value;
      var items := Prop(result.props, ToStr(field)).items;
      && r.Obj?
      && Prop(r.props, ToStr(field)).Arr?
      && |Prop(r.props, ToStr(field)).items| == |items|
      && (forall i :: 0 <= i < |items| ==> HasProp(Prop(r.props, ToStr(field)).items[i], items[i], "keyspace", keyspace))
      && (forall k :: k != ToStr(field) ==> Prop(r.props, k) == Prop(result.props, k))
  {
  }

  // ------------------------------------------------------------------- tags

  /** `normalizeTag(keyspace)(tag)` (lines 16-20): the tag's `currency` is
      the keyspace upper-cased and its `keyspace` the keyspace; `None` is the
      throw of `toUpperCase` on a keyspace that is not a string, or of the
      write on a tag that is not an object. */
  function NormalizeTag(keyspace: Value, tag: Value): (r: Option<Value>)
    ensures r.Some? <==> keyspace.Str? && IsObjectLike(tag)
    ensures r.Some? && tag.Obj? ==>
      && r.value.Obj?
      && Prop(r.value.props, "currency") == Str(ToUpper(keyspace.s))
      && Prop(r.value.props, "keyspace") == keyspace
      && forall k :: k != "currency" && k != "keyspace" ==> Prop(r.value.props, k) == Prop(tag.props, k)
    ensures r.Some? && !tag.Obj? ==> r.value == tag
  {
    if !keyspace.Str? then None
    else match SetProp(tag, "currency", Str(ToUpper(keyspace.s)))
      case None => None
      case Some(t) => SetProp(t, "keyspace", keyspace)
  }

  /** `tags.forEach(normalizeTag(keyspace))`. */
  function NormalizeTags(keyspace: Value, tags: seq<Value>): (r: Option<seq<Value>>)
    ensures tags == [] ==> r == Some([])
    ensures tags != [] ==> (r.Some? <==> keyspace.Str? && forall i :: 0 <= i < |tags| ==> IsObjectLike(tags[i]))
    ensures r.Some? ==> |r.value| == |tags|
    ensures r.Some? ==> forall i :: 0 <= i < |tags| ==> NormalizeTag(keyspace, tags[i]) == Some(r.value[i])
  {
    if tags == [] then Some([])
    else match (NormalizeTag(keyspace, tags[0]), NormalizeTags(keyspace, tags[1..]))
      case (Some(x), Some(rest)) =>
        assert forall i :: 1 <= i < |tags| ==> tags[i] == tags[1..][i - 1];
        Some([x] + rest)
      case _ =>
        assert forall i :: 1 <= i < |tags| ==> tags[i] == tags[1..][i - 1];
        None
  }

  /** `normalizeNodeTags(keyspace)(node)` (lines 22-26): a node whose `tags`
      is not an array is returned as it is; otherwise every tag is normalised. */
  function NormalizeNodeTags(keyspace: Value, node: Value): (r: Option<Value>)
    ensures r.None? ==> !Readable(node) || (node.Obj? && Prop(node.props, "tags").Arr?)
    ensures Readable(node) && !(node.Obj? && Prop(node.props, "tags").Arr?) ==> r == Some(node)
    ensures r.Some? && node.Obj? && Prop(node.props, "tags").Arr? ==>
      && r.value.Obj?
      && NormalizeTags(keyspace, Prop(node.props, "tags").items).Some?
      && r.value.props == node.props["tags" := Arr(NormalizeTags(keyspace, Prop(node.props, "tags").items).value)]
    ensures node.Obj? && Prop(node.props, "tags").Arr? ==>
      (r.Some? <==> NormalizeTags(keyspace, Prop(node.props, "tags").items).Some?)
  {
    match Read(node, "tags")
    case None => None
    case Some(tags) =>
      if !Truthy(tags) || !tags.Arr? then Some(node)
      else match NormalizeTags(keyspace, tags.items)
        case None => None
        case Some(ts) => Some(Obj(node.props["tags" := Arr(ts)]))
  }

  /** A node with an array of object tags comes back, for a string keyspace,
      with each tag carrying that currency and keyspace in place, and with
      its other properties as they were. */
  lemma NormalizeNodeTagsEffect(keyspace: Value, node: Value)
    requires keyspace.Str? && node.Obj? && Prop(node.props, "tags").Arr?
    requires var tags := Prop(node.props, "tags").items;
      forall i :: 0 <= i < |tags| ==> tags[i].Obj?
    ensures NormalizeNodeTags(keyspace, node).Some?
    ensures var r := NormalizeNodeTags(keyspace, node).value;
      var tags := Prop(node.props, "tags").items;
      && r.Obj?
      && (forall k :: k != "tags" ==> Prop(r.props, k) == Prop(node.props, k))
      && Prop(r.props, "tags").Arr? && |Prop(r.props, "tags").items| == |tags|
      && forall i :: 0 <= i < |tags| ==>
           var t := Prop(r.props, "tags").items[i];
           && t.Obj?
           && Prop(t.props, "currency") == Str(ToUpper(keyspace.s))
           && Prop(t.props, "keyspace") == keyspace
           && forall k :: k != "currency" && k != "keyspace" ==> Prop(t.props, k) == Prop(tags[i].props, k)
  {
  }

  /** One tag of the `tags` response (line 112): normalised with its own
      currency, lower-cased. */
  function OwnCurrencyTag(tag: Value): (r: Option<Value>)
    ensures r.Some? && tag.Obj? ==>
      var c := Prop(tag.props, "currency");
      && c.Str?
      && r.value.Obj?
      && Prop(r.value.props, "currency") == Str(ToUpper(c.s))
      && Prop(r.value.props, "keyspace") == Str(ToLower(c.s))
    ensures r.Some? <==> tag.Obj? && Prop(tag.props, "currency").Str?
    ensures r.Some? ==> forall k :: k != "currency" && k != "keyspace" ==> Prop(r.value.props, k) == Prop(tag.props, k)
  {
    match Read(tag, "currency")
    case None => None
    case Some(c) =>
      if !c.Str? then None
      else
        UpperOfLower(c.s);
        NormalizeTag(Str(ToLower(c.s)), tag)
  }

  /** `tags.map(...)` over the `tags` response; `None` is a throw. */
  function OwnCurrencyTags(tags: Value): (r: Option<Value>)
    ensures r.Some? ==> tags.Arr? && r.value.Arr? && |r.value.items| == |tags.items|
    ensures r.Some? ==> forall i :: 0 <= i < |tags.items| ==> OwnCurrencyTag(tags.items[i]) == Some(r.value.items[i])
    ensures r.Some? <==> tags.Arr? && forall i :: 0 <= i < |tags.items| ==> OwnCurrencyTag(tags.items[i]).Some?
  {
    if !tags.Arr? then None
    else match OwnCurrencyTagList(tags.items)
      case None => None
      case Some(ts) => Some(Arr(ts))
  }

  function OwnCurrencyTagList(tags: seq<Value>): (r: Option<seq<Value>>)
    ensures r.Some? <==> forall i :: 0 <= i < |tags| ==> OwnCurrencyTag(tags[i]).Some?
    ensures r.Some? ==> |r.value| == |tags|
    ensures r.Some? ==> forall i :: 0 <= i < |tags| ==> OwnCurrencyTag(tags[i]) == Some(r.value[i])
  {
    if tags == [] then Some([])
    else match (OwnCurrencyTag(tags[0]), OwnCurrencyTagList(tags[1..]))
      case (Some(x), Some(rest)) =>
        assert forall i :: 1 <= i < |tags| ==> tags[i] == tags[1..][i - 1];
        Some([x] + rest)
      case _ =>
        assert forall i :: 1 <= i < |tags| ==> tags[i] == tags[1..][i - 1];
        None
  }

  /** A `tags` response of objects with string currencies succeeds, each
      tag normalised with its own currency. */
  lemma OwnCurrencyTagsEffect(tags: seq<Value>)
    requires forall i :: 0 <= i < |tags| ==> tags[i].Obj? && Prop(tags[i].props, "currency").Str?
    ensures OwnCurrencyTags(Arr(tags)).Some?
    ensures var r := OwnCurrencyTags(Arr(tags)).value.items;
      forall i :: 0 <= i < |tags| ==>
        var c := Prop(tags[i].props, "currency").s;
        && r[i].Obj?
        && Prop(r[i].props, "currency") == Str(ToUpper(c))
        && Prop(r[i].props, "keyspace") == Str(ToLower(c))
  {
  }

  /** Normalising a tag with its own currency a second time changes nothing. */
  lemma OwnCurrencyTagTwice(tag: Value)
    requires OwnCurrencyTag(tag).Some?
    ensures OwnCurrencyTag(OwnCurrencyTag(tag).value) == OwnCurrencyTag(tag)
  {
    var c := Read(tag, "currency").value.s;
    var t := OwnCurrencyTag(tag).value;
    LowerOfUpper(c);
    if t.Obj? {
      assert Prop(t.props, "currency") == Str(ToUpper(c));
      var t2 := NormalizeTag(Str(ToLower(ToUpper(c))), t).value;
      assert t2.props == t.props;
    }
  }

  // ------------------------------------------------------ search results

  /** A search-result path whose `node` (when an object) and whose matching
      addresses (those that are objects) carry the keyspace. */
  ghost predicate PathStamped(keyspace: Value, path: Value) {
    && path.Obj?
    && (Prop(path.props, "node").Obj? ==> Prop(Prop(path.props, "node").props, "keyspace") == keyspace)
    && Prop(path.props, "matchingAddresses").Arr?
    && forall i :: 0 <= i < |Prop(path.props, "matchingAddresses").items| ==>
         var a := Prop(path.props, "matchingAddresses").items[i];
         a.Obj? ==> Prop(a.props, "keyspace") == keyspace
  }

  /** The paths below `v`, at every depth, are stamped. */
  ghost predicate Stamped(keyspace: Value, v: Value)
    decreases v
  {
    v.Obj? && Prop(v.props, "paths").Arr? ==>
      forall i :: 0 <= i < |Prop(v.props, "paths").items| ==>
        PathStamped(keyspace, Prop(v.props, "paths").items[i]) && Stamped(keyspace, Prop(v.props, "paths").items[i])
  }

  /** `addKeyspace(node)` of `searchNeighbors` (lines 154-162): every path
      below the node gets the keyspace on its `node` and on each of its
      `matchingAddresses`, recursively; the node's own properties other than
      `paths` are untouched. */
  function AddKeyspace(keyspace: Value, node: Value): (r: Option<Value>)
    ensures r.None? ==> node.Obj? || !Readable(node)
    ensures r.Some? ==> Stamped(keyspace, r.value)
    ensures r.Some? && node.Obj? ==> r.value.Obj? && forall k :: k != "paths" ==> Prop(r.value.props, k) == Prop(node.props, k)
    ensures r.Some? && !node.Obj? ==> r.value == node
    ensures node.Obj? && !Truthy(Prop(node.props, "paths")) ==> r == Some(node)
    ensures node.Obj? && Truthy(Prop(node.props, "paths")) ==>
      var paths := Prop(node.props, "paths");
      && (r.Some? <==> paths.Arr? && StampPaths(keyspace, paths.items).Some?)
      && (r.Some? ==> Prop(r.value.props, "paths") == Arr(StampPaths(keyspace, paths.items).value))
    decreases node, 2
  {
    if !Readable(node) then None
    else if !node.Obj? then Some(node)
    else WithPaths(keyspace, node, Prop(node.props, "paths"))
  }

  /** The rest of `addKeyspace(target)` once `target.paths` is known to be `paths`. */
  function WithPaths(keyspace: Value, target: Value, paths: Value): (r: Option<Value>)
    requires target.Obj? && Prop(target.props, "paths") == paths
    ensures r.Some? ==> Stamped(keyspace, r.value)
    ensures r.Some? ==> r.value.Obj? && forall k :: k != "paths" ==> Prop(r.value.props, k) == Prop(target.props, k)
    ensures !Truthy(paths) ==> r == Some(target)
    ensures Truthy(paths) ==> (r.Some? <==> paths.Arr? && StampPaths(keyspace, paths.items).Some?)
    ensures r.Some? && Truthy(paths) ==> Prop(r.value.props, "paths") == Arr(StampPaths(keyspace, paths.items).value)
    decreases paths, 1
  {
    if !Truthy(paths) then Some(target)
    else if !paths.Arr? then None
    else match StampPaths(keyspace, paths.items)
      case None => None
      case Some(ps) =>
        var r := Obj(target.props["paths" := Arr(ps)]);
        assert Prop(r.props, "paths").items == ps;
        Some(r)
  }

  /** `paths.forEach(...)`. */
  function StampPaths(keyspace: Value, paths: seq<Value>): (r: Option<seq<Value>>)
    ensures r.Some? ==> |r.value| == |paths|
    ensures r.Some? ==> forall i :: 0 <= i < |paths| ==> PathStamped(keyspace, r.value[i]) && Stamped(keyspace, r.value[i])
    ensures r.Some? <==> forall i :: 0 <= i < |paths| ==> StampPath(keyspace, paths[i]).Some?
    ensures r.Some? ==> forall i :: 0 <= i < |paths| ==> StampPath(keyspace, paths[i]) == Some(r.value[i])
    decreases paths, 0
  {
    if paths == [] then Some([])
    else match (StampPath(keyspace, paths[0]), StampPaths(keyspace, paths[1..]))
      case (Some(p), Some(rest)) => Some([p] + rest)
      case _ => None
  }

  /** One path: its node, its matching addresses, then its own paths.
      Reading `node` of a path that is not an object gives `undefined` (or
      throws), and the write to it throws. */
  function StampPath(keyspace: Value, path: Value): (r: Option<Value>)
    ensures r.Some? ==> PathStamped(keyspace, r.value) && Stamped(keyspace, r.value)
    ensures r.Some? <==>
      && path.Obj?
      && IsObjectLike(Prop(path.props, "node"))
      && Prop(path.props, "matchingAddresses").Arr?
      && StampItems(Prop(path.props, "matchingAddresses").items, keyspace).Some?
      && (Truthy(Prop(path.props, "paths")) ==>
            Prop(path.props, "paths").Arr? && StampPaths(keyspace, Prop(path.props, "paths").items).Some?)
    ensures r.Some? ==>
      && r.value.Obj?
      && (forall k :: k != "node" && k != "matchingAddresses" && k != "paths" ==> Prop(r.value.props, k) == Prop(path.props, k))
      && SetProp(Prop(path.props, "node"), "keyspace", keyspace) == Some(Prop(r.value.props, "node"))
      && Prop(r.value.props, "matchingAddresses") == Arr(StampItems(Prop(path.props, "matchingAddresses").items, keyspace).value)
      && (!Truthy(Prop(path.props, "paths")) ==> Prop(r.value.props, "paths") == Prop(path.props, "paths"))
      && (Truthy(Prop(path.props, "paths")) ==>
            Prop(r.value.props, "paths") == Arr(StampPaths(keyspace, Prop(path.props, "paths").items).value))
    decreases path, 3
  {
    if !path.Obj? then None
    else match (SetProp(Prop(path.props, "node"), "keyspace", keyspace), Prop(path.props, "matchingAddresses"))
      case (Some(n), Arr(addresses)) =>
        (match StampItems(addresses, keyspace)
         case None => None
         case Some(stamped) =>
           var p := Obj(path.props["node" := n]["matchingAddresses" := Arr(stamped)]);
           assert PathStamped(keyspace, p);
           if "paths" in path.props then WithPaths(keyspace, p, path.props["paths"]) else Some(p))
      case _ => None
  }

  /** `addKeyspace` keeps every path of the node, in order: path i of the
      result is path i of the input with only its `node`, its
      `matchingAddresses` and its own `paths` rewritten, the first two
      stamped with the keyspace. */
  lemma AddKeyspaceKeepsPaths(keyspace: Value, node: Value)
    requires node.Obj? && Truthy(Prop(node.props, "paths"))
    requires AddKeyspace(keyspace, node).Some?
    ensures var ps := Prop(node.props, "paths");
      var qs := Prop(AddKeyspace(keyspace, node).value.props, "paths");
      && ps.Arr? && qs.Arr? && |qs.items| == |ps.items|
      && forall i :: 0 <= i < |ps.items| ==>
           var p, q := ps.items[i], qs.items[i];
           && p.Obj? && q.Obj?
           && (forall k :: k != "node" && k != "matchingAddresses" && k != "paths" ==> Prop(q.props, k) == Prop(p.props, k))
           && (Prop(p.props, "node").Obj? ==> HasProp(Prop(q.props, "node"), Prop(p.props, "node"), "keyspace", keyspace))
           && Prop(q.props, "matchingAddresses").Arr?
           && |Prop(q.props, "matchingAddresses").items| == |Prop(p.props, "matchingAddresses").items|
  {
  }
}

=== FILE: routing.dfy ===
/** Hash-fragment routing (src/model.js:84-104): the `#!keyspace/type/id`
    part of the location names the node to show; `historyPushState`
    (src/model.js:57-69) writes such fragments. */
module Routing {
  import opened Js

  /** `allowedUrlTypes`. */
  const AllowedUrlTypes: seq<string> := ["address", "cluster", "transaction", "block", "label"]

  /** What `fromURL` returns: `undefined`, or the `{keyspace, id, type}` object. */
  datatype Route = NoRoute | Route(keyspace: Value, id: Value, ty: Value)

  /** `{id: '', type: '', keyspace: ''}`: no node, go to the start page. */
  const Home: Route := Route(Str(""), Str(""), Str(""))

  /** `parts[i]`: the piece, or `undefined` past the end. */
  function Piece(parts: seq<string>, i: nat): Value {
    if i < |parts| then Str(parts[i]) else Undefined
  }

  /** `fromURL(url, keyspaces)`: the text between the first and the second
      `#!`, split at `/`. A leading `label` segment names a label (no
      keyspace); otherwise the first segment must be a supported keyspace,
      and in both cases the type must be allowed. */
  function FromUrl(url: string, keyspaces: seq<string>): (r: Route)
    ensures Piece(Split(url, "#!"), 1) !in {Undefined, Str("")} <==> r != Home
    ensures r.Route? && r != Home ==>
      && r.ty.Str? && r.ty.s in AllowedUrlTypes
      && (r.keyspace == Null || (r.keyspace.Str? && r.keyspace.s in keyspaces))
      && (r.keyspace == Null ==> r.ty == Str("label"))
  {
    var hash := Piece(Split(url, "#!"), 1);
    if !Truthy(hash) then Home else FromSegments(Split(hash.s, "/"), keyspaces)
  }

  /** The part of `fromURL` after the fragment is split at `/`. */
  function FromSegments(split: seq<string>, keyspaces: seq<string>): (r: Route)
    requires |split| >= 1
    ensures r.Route? ==>
      && r.ty.Str? && r.ty.s in AllowedUrlTypes
      && (r.keyspace == Null || (r.keyspace.Str? && r.keyspace.s in keyspaces))
      && (r.keyspace == Null ==> r.ty == Str("label"))
    ensures split[0] == "label" ==> r == Route(Null, Piece(split, 1), Str("label"))
    ensures split[0] != "label" ==>
      (r.Route? <==> split[0] in keyspaces && Piece(split, 1).Str? && Piece(split, 1).s in AllowedUrlTypes)
    ensures r.Route? && split[0] != "label" ==> r == Route(Str(split[0]), Piece(split, 2), Piece(split, 1))
  {
    if split[0] == "label" then Route(Null, Piece(split, 1), Str("label"))
    else if split[0] !in keyspaces then NoRoute
    else
      var ty := Piece(split, 1);
      if !ty.Str? || ty.s !in AllowedUrlTypes then NoRoute
      else Route(Str(split[0]), Piece(split, 2), ty)
  }

  /** The fragment `historyPushState(keyspace, type, id)` puts in the
      location, or `/` when the type or the id is empty. */
  function UrlFor(keyspace: Value, ty: string, id: string): (u: string)
    ensures ty != "" && id != "" ==> StartsWith(u, "#!")
  {
    if ty == "" || id == "" then "/"
    else "#!" + (if Truthy(keyspace) then ToStr(keyspace) + "/" else "") + ty + "/" + id
  }

  // ------------------------------------------------------------ round trip

  /** `#!` cannot occur where there is no `#`. */
  lemma NoHashNoBang(s: string)
    requires '#' !in s
    ensures NoOccurrence(s, "#!")
  {
    forall j | 0 <= j <= |s| ensures !OccursAt(s, "#!", j) {
      if j + 2 <= |s| {
        assert s[j..j + 2][0] == s[j];
      }
    }
  }

  /** The fragment after the first `#!` of `base + "#!" + rest`. */
  lemma HashOf(base: string, rest: string)
    requires '#' !in base && '#' !in rest
    ensures Piece(Split(base + "#!" + rest, "#!"), 1) == Str(rest)
  {
    var s := base + "#!" + rest;
    forall j | 0 <= j < |base| ensures !OccursAt(s, "#!", j) {
      assert s[j] == base[j];
      if j + 2 <= |s| {
        assert s[j..j + 2][0] == s[j];
      }
    }
    SplitAt(base, "#!", rest);
    NoHashNoBang(rest);
    SplitNoSep(rest, "#!");
  }

  /** Loading a location that `historyPushState` wrote for a node of a
      supported keyspace and an allowed type shows that node again. */
  lemma {:induction false} NodeUrlRoundTrip(base: string, keyspace: string, ty: string, id: string, keyspaces: seq<string>)
    requires '#' !in base && '#' !in keyspace && '#' !in ty && '#' !in id
    requires '/' !in keyspace && '/' !in ty && '/' !in id
    requires keyspace != "" && ty != "" && id != ""
    requires keyspace in keyspaces && keyspace != "label"
    requires ty in AllowedUrlTypes
    ensures FromUrl(base + UrlFor(Str(keyspace), ty, id), keyspaces) == Route(Str(keyspace), Str(id), Str(ty))
  {
    var rest := keyspace + ['/'] + (ty + ['/'] + id);
    var url := base + UrlFor(Str(keyspace), ty, id);
    NodeFragment(base, keyspace, ty, id);
    HashOf(base, rest);
    NodeSegments(keyspace, ty, id);
    assert url == base + "#!" + rest;
    assert Piece(Split(url, "#!"), 1) == Str(rest);
    assert FromUrl(url, keyspaces) == FromSegments([keyspace, ty, id], keyspaces);
    assert Piece([keyspace, ty, id], 1) == Str(ty) && Piece([keyspace, ty, id], 2) == Str(id);
  }

  lemma NodeFragment(base: string, keyspace: string, ty: string, id: string)
    requires '#' !in keyspace && '#' !in ty && '#' !in id
    requires keyspace != "" && ty != "" && id != ""
    ensures base + UrlFor(Str(keyspace), ty, id) == base + "#!" + (keyspace + ['/'] + (ty + ['/'] + id))
    ensures '#' !in keyspace + ['/'] + (ty + ['/'] + id)
  {
  }

  lemma NodeSegments(keyspace: string, ty: string, id: string)
    requires '/' !in keyspace && '/' !in ty && '/' !in id
    ensures Split(keyspace + ['/'] + (ty + ['/'] + id), "/") == [keyspace, ty, id]
  {
    SplitCharNone(id, '/');
    SplitCharAt(ty, '/', id);
    SplitCharAt(keyspace, '/', ty + ['/'] + id);
  }

  /** The same for a label, whose location has no keyspace. */
  lemma {:induction false} LabelUrlRoundTrip(base: string, id: string, keyspaces: seq<string>)
    requires '#' !in base && '#' !in id && '/' !in id && id != ""
    ensures FromUrl(base + UrlFor(Null, "label", id), keyspaces) == Route(Null, Str(id), Str("label"))
  {
    var rest := "label" + ['/'] + id;
    var url := base + UrlFor(Null, "label", id);
    assert url == base + "#!" + rest;
    HashOf(base, rest);
    SplitCharNone(id, '/');
    SplitCharAt("label", '/', id);
    assert Split(rest, "/") == ["label", id];
    assert FromUrl(url, keyspaces) == FromSegments(["label", id], keyspaces);
  }

  /** A location without `#!` goes to the start page. */
  lemma NoFragmentGoesHome(url: string, keyspaces: seq<string>)
    requires NoOccurrence(url, "#!")
    ensures FromUrl(url, keyspaces) == Home
  {
    SplitNoSep(url, "#!");
  }

  /** A first segment that is neither `label` nor a supported keyspace is refused. */
  lemma UnknownKeyspaceRefused(base: string, rest: string, keyspaces: seq<string>)
    requires '#' !in base && '#' !in rest && rest != ""
    requires Split(rest, "/")[0] != "label" && Split(rest, "/")[0] !in keyspaces
    ensures FromUrl(base + "#!" + rest, keyspaces) == NoRoute
  {
    HashOf(base, rest);
  }

  /** A supported keyspace followed by a type that is not allowed is refused. */
  lemma UnknownTypeRefused(base: string, rest: string, keyspaces: seq<string>)
    requires '#' !in base && '#' !in rest && rest != ""
    requires var split := Split(rest, "/");
      split[0] != "label" && split[0] in keyspaces && (|split| < 2 || split[1] !in AllowedUrlTypes)
    ensures FromUrl(base + "#!" + rest, keyspaces) == NoRoute
  {
    HashOf(base, rest);
  }

  /** Any fragment naming a supported keyspace and an allowed type gives
      the route of its first three segments, whatever follows them. */
  lemma FragmentRoute(base: string, rest: string, keyspaces: seq<string>)
    requires '#' !in base && '#' !in rest && rest != ""
    requires var split := Split(rest, "/");
      split[0] != "label" && split[0] in keyspaces && |split| >= 2 && split[1] in AllowedUrlTypes
    ensures var split := Split(rest, "/");
      FromUrl(base + "#!" + rest, keyspaces) ==
        Route(Str(split[0]), if |split| > 2 then Str(split[2]) else Undefined, Str(split[1]))
  {
    HashOf(base, rest);
  }
}

=== FILE: store.dfy ===
/** The graph store (src/store.js): a deduplicating map of address and cluster
    entities keyed by `keyspace|id`, per-source outgoing edge tables, and the
    snapshot format used to save and reload it.

    Entities are JavaScript objects, modelled as property maps. References
    between objects are store keys (`Js.Ref`, `Js.TableRef`), so an entity that
    is mutated in place is simply replaced in its map under the same key. */
module Store {
  import opened Js
  import opened OrderedMap

  type Entity = map<string, Value>

  /** An edge payload: `null` (the edge exists, no statistics) or the
      `{noTransactions, estimatedValue}` pair. */
  datatype EdgeData = NoStats | Stats(noTransactions: Value, estimatedValue: Value)

  /** One source's outgoing edges: target key -> payload. */
  type Table = OMap<EdgeData>

  datatype Store = Store(addresses: OMap<Entity>, clusters: OMap<Entity>, outgoingLinks: OMap<Table>)

  function EmptyStore(): (s: Store)
    ensures s.addresses.m == map[] && s.clusters.m == map[] && s.outgoingLinks.m == map[]
  {
    Store(Empty(), Empty(), Empty())
  }

  // ------------------------------------------------------------------ keys

  /** `keyspace + '|' + id`. */
  function Prefix(keyspace: Value, id: Value): string {
    ToStr(keyspace) + "|" + ToStr(id)
  }

  /** Within one keyspace, distinct ids (as strings) give distinct keys. */
  lemma PrefixInjective(keyspace: Value, a: Value, b: Value)
    ensures Prefix(keyspace, a) == Prefix(keyspace, b) <==> ToStr(a) == ToStr(b)
  {
    var n := |ToStr(keyspace)| + 1;
    if Prefix(keyspace, a) == Prefix(keyspace, b) {
      assert Prefix(keyspace, a)[n..] == ToStr(a);
      assert Prefix(keyspace, b)[n..] == ToStr(b);
    }
  }

  /** Unprefix: `[null, s]` when `s` has no `|`, else the parts before and after the first one. */
  function Unprefix(s: string): (r: (Value, Value))
    ensures '|' !in s ==> r == (Null, Str(s))
    ensures '|' in s ==> r.0.Str? && r.1.Str? && r.0.s + "|" + r.1.s == s && '|' !in r.0.s
  {
    var pos := IndexOf(s, '|');
    if pos.None? then (Null, Str(s))
    else
      var r := (Str(s[..pos.value]), Str(s[pos.value + 1..]));
      assert s == s[..pos.value] + [s[pos.value]] + s[pos.value + 1..];
      r
  }

  // --------------------------------------------------------------- objects

  function EntityMap(s: Store, kind: Kind): OMap<Entity> {
    if kind == AddressKind then s.addresses else s.clusters
  }

  function WithEntity(s: Store, kind: Kind, key: string, e: Entity): (r: Store)
    ensures EntityMap(r, kind) == Put(EntityMap(s, kind), key, e)
    ensures kind == AddressKind ==> r.clusters == s.clusters
    ensures kind == ClusterKind ==> r.addresses == s.addresses
    ensures r.outgoingLinks == s.outgoingLinks
  {
    if kind == AddressKind then s.(addresses := Put(s.addresses, key, e))
    else s.(clusters := Put(s.clusters, key, e))
  }

  /** The own properties of the object a value denotes (`{...v}`). */
  function Props(s: Store, v: Value): Entity {
    match v
    case Obj(m) => m
    case Ref(kind, key) => if key in EntityMap(s, kind).m then EntityMap(s, kind).m[key] else map[]
    case _ => map[]
  }

  /** `v[name]` for a readable value: objects and store entities have
      properties, every other value reads as `undefined`. */
  function Field(s: Store, v: Value, name: string): Value {
    Prop(Props(s, v), name)
  }

  /** `v[name] = x` on a store entity. */
  function SetField(s: Store, kind: Kind, key: string, name: string, x: Value): Store {
    if key in EntityMap(s, kind).m then WithEntity(s, kind, key, EntityMap(s, kind).m[key][name := x]) else s
  }

  // ------------------------------------------------------------ edge tables

  /** The payload of edge `tableKey -> target`, if the edge is recorded. */
  function EdgeAt(s: Store, tableKey: string, target: string): Option<EdgeData> {
    if tableKey in s.outgoingLinks.m && target in s.outgoingLinks.m[tableKey].m
    then Some(s.outgoingLinks.m[tableKey].m[target]) else None
  }

  /** `initOutgoing(id, keyspace)` (src/store.js:128-138): the table under
      `keyspace|id`, created empty when missing; `None` is the throw for an id
      that is neither a string nor a number. The table key carries no entity
      type, so an address and a cluster with the same id share a table. */
  function InitOutgoing(s: Store, id: Value, keyspace: Value): (r: Option<(Store, string)>)
    ensures r.None? <==> !IsStringOrNumber(id)
    ensures r.Some? ==> r.value.1 == Prefix(keyspace, id)
    ensures r.Some? ==> r.value.1 in r.value.0.outgoingLinks.m
    ensures r.Some? && r.value.1 in s.outgoingLinks.m ==> r.value.0 == s
    ensures r.Some? && r.value.1 !in s.outgoingLinks.m ==>
      && r.value.0.outgoingLinks.m[r.value.1].m == map[]
      && r.value.0.outgoingLinks.keys == s.outgoingLinks.keys + [r.value.1]
    ensures r.Some? ==> r.value.0.addresses == s.addresses && r.value.0.clusters == s.clusters
    ensures r.Some? ==> forall k :: k in s.outgoingLinks.m ==>
      k in r.value.0.outgoingLinks.m && r.value.0.outgoingLinks.m[k] == s.outgoingLinks.m[k]
    ensures r.Some? ==> r.value.0.outgoingLinks.m.Keys == s.outgoingLinks.m.Keys + {r.value.1}
  {
    if !IsStringOrNumber(id) then None
    else
      var k := Prefix(keyspace, id);
      if k in s.outgoingLinks.m then Some((s, k))
      else Some((s.(outgoingLinks := Put(s.outgoingLinks, k, Empty())), k))
  }

  /** `linkOutgoing(source, target, keyspace, data)` (src/store.js:139-151).
      `None` is the throw of `initOutgoing` for a bad source id. */
  function LinkOutgoing(s: Store, source: Value, target: Value, keyspace: Value, data: Value): (r: Option<Store>)
    ensures r.None? <==> !IsStringOrNumber(source)
    ensures r.Some? ==> r.value.addresses == s.addresses && r.value.clusters == s.clusters
    ensures r.Some? ==>
      var e := EdgeAt(s, Prefix(keyspace, source), ToStr(target));
      var e' := EdgeAt(r.value, Prefix(keyspace, source), ToStr(target));
      var nt := Field(s, data, "noTransactions");
      var ev := Field(s, data, "estimatedValue");
      && (!(e.Some? && e.value.Stats?) && (!Truthy(data) || !Truthy(nt) || !Truthy(ev)) ==> e' == Some(NoStats))
      && (e.Some? && e.value.Stats? && !Truthy(data) ==> e' == e)
      && (Truthy(data) && ((e.Some? && e.value.Stats?) || (Truthy(nt) && Truthy(ev))) ==> e' == Some(Stats(nt, ev)))
    ensures r.Some? ==> forall tk, t :: (tk != Prefix(keyspace, source) || t != ToStr(target)) ==>
      EdgeAt(r.value, tk, t) == EdgeAt(s, tk, t)
  {
    match InitOutgoing(s, source, keyspace)
    case None => None
    case Some((s1, tk)) =>
      InitKeepsEdges(s, source, keyspace);
      var t := ToStr(target);
      var e := EdgeAt(s1, tk, t);
      var nt := Field(s1, data, "noTransactions");
      var ev := Field(s1, data, "estimatedValue");
      if !(e.Some? && e.value.Stats?) && (!Truthy(data) || !Truthy(nt) || !Truthy(ev)) then Some(SetEdge(s1, tk, t, NoStats))
      else if !Truthy(data) then Some(s1)
      else Some(SetEdge(s1, tk, t, Stats(nt, ev)))
  }

  /** Creating a table records no edge. */
  lemma InitKeepsEdges(s: Store, id: Value, keyspace: Value)
    requires InitOutgoing(s, id, keyspace).Some?
    ensures forall tk, t :: EdgeAt(InitOutgoing(s, id, keyspace).value.0, tk, t) == EdgeAt(s, tk, t)
  {
  }

  /** `outgoing.set(target, e)` on the table under `tk`. */
  function SetEdge(s: Store, tk: string, t: string, e: EdgeData): (r: Store)
    requires tk in s.outgoingLinks.m
    ensures EdgeAt(r, tk, t) == Some(e)
    ensures forall tk', t' :: (tk' != tk || t' != t) ==> EdgeAt(r, tk', t') == EdgeAt(s, tk', t')
    ensures r.addresses == s.addresses && r.clusters == s.clusters
    ensures r.outgoingLinks.m.Keys == s.outgoingLinks.m.Keys
  {
    s.(outgoingLinks := Put(s.outgoingLinks, tk, Put(s.outgoingLinks.m[tk], t, e)))
  }

  // ------------------------------------------------------------------ add

  /** What `add` did with its argument. */
  datatype AddOutcome =
      /** An error was logged and `undefined` returned; nothing changed. */
    | Rejected
      /** The entity was merged; `arg` is the argument after `add` wrote to it. */
    | Added(store: Store, arg: Value, entity: Value)
      /** An exception escaped; `store` holds the mutations made before it. */
    | Raised(store: Store)

  /** The type and id `add` reads off a payload (src/store.js:31-40):
      an `address` field or `type === 'address'` wins over a `cluster` field
      or `type === 'cluster'`; the id is that field, or else `id`. */
  function Classify(p: Entity): Option<(Kind, Value)> {
    if AddressLike(p) then
      Some((AddressKind, if Truthy(Prop(p, "address")) then Prop(p, "address") else Prop(p, "id")))
    else if ClusterLike(p) then
      Some((ClusterKind, if Truthy(Prop(p, "cluster")) then Prop(p, "cluster") else Prop(p, "id")))
    else None
  }

  predicate AddressLike(p: Entity) {
    Truthy(Prop(p, "address")) || Prop(p, "type") == Str("address")
  }

  predicate ClusterLike(p: Entity) {
    Truthy(Prop(p, "cluster")) || Prop(p, "type") == Str("cluster")
  }

  /** `store.add(object)` as `Add(s, x)` (src/store.js:26-99). A store entity passed back in
      (`Ref`) is its own argument, so the `toCluster` write lands on it. */
  function Add(s: Store, x: Value): (r: AddOutcome)
    ensures x.Undefined? || x.Null? ==> r.Raised? && r.store == s
  {
    match x
    case Undefined => Raised(s)
    case Null => Raised(s)
    case Obj(p) => AddObject(s, p, x)
    case Ref(_, _) => AddObject(s, Props(s, x), x)
    case _ => Rejected
  }

  function AddObject(s: Store, p: Entity, self: Value): (r: AddOutcome) {
    match Classify(p)
    case None => Rejected
    case Some((kind, id)) =>
      var ks := Prop(p, "keyspace");
      if !Truthy(ks) then Rejected
      else if kind == AddressKind then AddAddress(s, p, self, ks, id)
      else AddCluster(s, p, self, ks, id)
  }

  /** The fresh address object, before the payload is merged in (src/store.js:49-53). */
  function NewAddress(id: Value, table: string): Entity {
    map["id" := id, "type" := Str("address"), "outgoing" := TableRef(table)]
  }

  /** The fresh cluster object of the cluster path (src/store.js:77-81). */
  function NewCluster(id: Value, table: string): Entity {
    map["addresses" := Members(Empty()), "id" := id, "type" := Str("cluster"), "outgoing" := TableRef(table)]
  }

  function Fresh(kind: Kind, id: Value, table: string): Entity {
    if kind == AddressKind then NewAddress(id, table) else NewCluster(id, table)
  }

  /** Lines 47-55 and 75-83: the entity under `key`, created with its edge
      table when missing; `None` is the throw of `initOutgoing`. */
  function Ensure(s: Store, kind: Kind, key: string, ks: Value, id: Value): (r: Option<Store>)
    requires key == Prefix(ks, id)
    ensures r.None? <==> key !in EntityMap(s, kind).m && !IsStringOrNumber(id)
    ensures r.Some? && key in EntityMap(s, kind).m ==> r.value == s
    ensures r.Some? && key !in EntityMap(s, kind).m ==>
      && EntityMap(r.value, kind) == Put(EntityMap(s, kind), key, Fresh(kind, id, key))
      && (kind == AddressKind ==> r.value.clusters == s.clusters)
      && (kind == ClusterKind ==> r.value.addresses == s.addresses)
      && (forall tk, t :: EdgeAt(r.value, tk, t) == EdgeAt(s, tk, t))
      && r.value.outgoingLinks.m.Keys == s.outgoingLinks.m.Keys + {key}
  {
    if key in EntityMap(s, kind).m then Some(s)
    else match InitOutgoing(s, id, ks)
      case None => None
      case Some((s1, tk)) =>
        InitKeepsEdges(s, id, ks);
        Some(WithEntity(s1, kind, key, Fresh(kind, id, tk)))
  }

  /** Whether line 60 writes `toCluster` onto the argument. */
  predicate WritesToCluster(p: Entity) {
    IsStringOrNumber(Prop(p, "cluster"))
  }

  /** The argument's `toCluster` after line 60. */
  function ToCluster(p: Entity): Value {
    if WritesToCluster(p) then Prop(p, "cluster") else Prop(p, "toCluster")
  }

  /** The entity under `key` before `add` merges into it: the stored one, or a fresh one. */
  function Before(s: Store, kind: Kind, key: string, id: Value): Entity {
    if key in EntityMap(s, kind).m then EntityMap(s, kind).m[key] else Fresh(kind, id, key)
  }

  /** The property `add` drops from a merged entity: `address` from an
      address (line 59), `cluster` from a cluster (line 87). */
  function Dropped(kind: Kind): string {
    if kind == AddressKind then "address" else "cluster"
  }

  /** Lines 47-59 and 75-87: the entity under `key`, created when missing,
      with the payload merged into it (last write wins) and one property
      dropped. */
  function Merge(s: Store, kind: Kind, p: Entity, ks: Value, id: Value): (r: Option<Store>)
    ensures r.None? <==> Prefix(ks, id) !in EntityMap(s, kind).m && !IsStringOrNumber(id)
    ensures r.Some? ==>
      EntityMap(r.value, kind).m == EntityMap(s, kind).m[Prefix(ks, id) := (Before(s, kind, Prefix(ks, id), id) + p) - {Dropped(kind)}]
    ensures r.Some? ==> EntityMap(r.value, kind).keys == Put(EntityMap(s, kind), Prefix(ks, id), map[]).keys
    ensures r.Some? && kind == AddressKind ==> r.value.clusters == s.clusters
    ensures r.Some? && kind == ClusterKind ==> r.value.addresses == s.addresses
  {
    var key := Prefix(ks, id);
    match Ensure(s, kind, key, ks, id)
    case None => None
    case Some(s1) => Some(WithEntity(s1, kind, key, (EntityMap(s1, kind).m[key] + p) - {Dropped(kind)}))
  }

  function MergeAddress(s: Store, p: Entity, ks: Value, id: Value): (r: Option<Store>) {
    Merge(s, AddressKind, p, ks, id)
  }

  function MergeCluster(s: Store, p: Entity, ks: Value, id: Value): (r: Option<Store>) {
    Merge(s, ClusterKind, p, ks, id)
  }

  /** Neither merge touches an edge table. */
  lemma MergeKeepsEdges(s: Store, p: Entity, ks: Value, id: Value, tk: string, t: string)
    ensures MergeAddress(s, p, ks, id).Some? ==> EdgeAt(MergeAddress(s, p, ks, id).value, tk, t) == EdgeAt(s, tk, t)
    ensures MergeCluster(s, p, ks, id).Some? ==> EdgeAt(MergeCluster(s, p, ks, id).value, tk, t) == EdgeAt(s, tk, t)
  {
  }

  /** The argument after line 60: a store entity passed in is itself the
      argument; a plain object gains `toCluster` when its `cluster` is a
      string or a number. */
  function ArgAfter(p: Entity, self: Value): Value {
    if self.Ref? then self
    else if WritesToCluster(p) then Obj(p["toCluster" := Prop(p, "cluster")])
    else Obj(p)
  }

  /** The store after line 60: the merge, plus the `toCluster` write when
      the argument is itself a store entity. */
  function AddressStage(s: Store, p: Entity, self: Value, ks: Value, id: Value): (r: Option<Store>)
    ensures r.Some? ==> Prefix(ks, id) in r.value.addresses.m
    ensures r.Some? && !self.Ref? ==> r == MergeAddress(s, p, ks, id)
  {
    match MergeAddress(s, p, ks, id)
    case None => None
    case Some(s2) =>
      if WritesToCluster(p) && self.Ref? then Some(SetField(s2, self.kind, self.key, "toCluster", Prop(p, "cluster")))
      else Some(s2)
  }

  /** The address path (src/store.js:46-73). */
  function AddAddress(s: Store, p: Entity, self: Value, ks: Value, id: Value): (r: AddOutcome)
    ensures !r.Rejected?
    ensures r.Added? ==> r.entity == Ref(AddressKind, Prefix(ks, id)) && Prefix(ks, id) in r.store.addresses.m
    ensures r.Added? ==> AddressStage(s, p, self, ks, id).Some?
    ensures r.Added? && !Truthy(ToCluster(p)) ==> r.store == AddressStage(s, p, self, ks, id).value
    ensures r.Added? && Truthy(ToCluster(p)) ==>
      r == JoinCluster(AddressStage(s, p, self, ks, id).value, ArgAfter(p, self), Prefix(ks, id), ks, id,
        ToCluster(p), Prefix(ks, id) !in s.addresses.m)
  {
    var key := Prefix(ks, id);
    match AddressStage(s, p, self, ks, id)
    case None => Raised(s)
    case Some(s3) =>
      var tc := ToCluster(p);
      if !Truthy(tc) then Added(s3, ArgAfter(p, self), Ref(AddressKind, key))
      else JoinCluster(s3, ArgAfter(p, self), key, ks, id, tc, key !in s.addresses.m)
  }

  /** Lines 61-72: link the address under `key` to the cluster `toCluster`,
      creating that cluster when it is missing. While the address is new, the
      local `empty` IS that address, so the spread at line 65 copies all of
      its properties (its id and type included) into the new cluster; and the
      new cluster's table is the address's (`initOutgoing(id)` at line 66). */
  function JoinCluster(s: Store, arg: Value, key: string, ks: Value, id: Value, tc: Value, created: bool): (r: AddOutcome)
    requires key in s.addresses.m
    ensures !r.Rejected?
    ensures r.Added? ==> r.entity == Ref(AddressKind, key) && key in r.store.addresses.m
    ensures r.Added? ==> EnsureCluster(s, key, ks, id, tc, created).Some?
    ensures r.Added? ==> LinkMember(EnsureCluster(s, key, ks, id, tc, created).value, Prefix(ks, tc),
        ToStr(Prop(s.addresses.m[key], "id")), key).Some?
    ensures r.Added? ==>
      r.store == LinkMember(EnsureCluster(s, key, ks, id, tc, created).value, Prefix(ks, tc),
        ToStr(Prop(s.addresses.m[key], "id")), key).value
  {
    var ckey := Prefix(ks, tc);
    match EnsureCluster(s, key, ks, id, tc, created)
    case None => Raised(s)
    case Some(s1) =>
      match LinkMember(s1, ckey, ToStr(Prop(s.addresses.m[key], "id")), key)
      case None => Raised(s1)
      case Some(s2) => Added(s2, arg, Ref(AddressKind, key))
  }

  /** Lines 63-69: the cluster `toCluster`, created when missing. */
  function EnsureCluster(s: Store, key: string, ks: Value, id: Value, tc: Value, created: bool): (r: Option<Store>)
    requires key in s.addresses.m
    ensures r.Some? ==> Prefix(ks, tc) in r.value.clusters.m && r.value.addresses == s.addresses
    ensures r.Some? ==> r.value.clusters.keys == Put(s.clusters, Prefix(ks, tc), map[]).keys
    ensures r.Some? ==> r.value.clusters.m.Keys == s.clusters.m.Keys + {Prefix(ks, tc)}
    ensures r.Some? ==> forall k :: k in s.clusters.m ==> r.value.clusters.m[k] == s.clusters.m[k]
    ensures r.Some? && Prefix(ks, tc) !in s.clusters.m ==>
      r.value.clusters.m[Prefix(ks, tc)] == NewClusterFor(s.addresses.m[key], tc, Prefix(ks, id), created)
    ensures r.Some? ==> forall tk, t :: EdgeAt(r.value, tk, t) == EdgeAt(s, tk, t)
  {
    var ckey := Prefix(ks, tc);
    if ckey in s.clusters.m then Some(s)
    else
      match InitOutgoing(s, id, ks)
      case None => None
      case Some((s', tk)) =>
        InitKeepsEdges(s, id, ks);
        Some(s'.(clusters := Put(s'.clusters, ckey, NewClusterFor(s.addresses.m[key], tc, tk, created))))
  }

  /** The cluster object of line 65, given its table: `empty` is the new
      address while the address is new, and `{}` otherwise. */
  function NewClusterFor(a: Entity, tc: Value, table: string, created: bool): Entity {
    var spread := if created then a else map[];
    (map["addresses" := Members(Empty()), "id" := tc, "type" := Str("cluster")] + spread)["outgoing" := TableRef(table)]
  }

  /** `memberKey -> addressKey` is an entry of the cluster's `addresses` map. */
  predicate MemberOf(s: Store, clusterKey: string, memberKey: string, addressKey: string) {
    && clusterKey in s.clusters.m
    && var mem := Prop(s.clusters.m[clusterKey], "addresses");
    && mem.Members?
    && memberKey in mem.members.m
    && mem.members.m[memberKey] == addressKey
  }

  /** The membership relation after one `LinkMember`: the new entry, plus
      every old entry it does not overwrite. */
  lemma LinkMemberEffect(s: Store, ckey: string, memberKey: string, akey: string, ck: string, mk: string, ak: string)
    requires ckey in s.clusters.m && akey in s.addresses.m
    requires LinkMember(s, ckey, memberKey, akey).Some?
    ensures MemberOf(LinkMember(s, ckey, memberKey, akey).value, ck, mk, ak) <==>
      (ck == ckey && mk == memberKey && ak == akey) || (MemberOf(s, ck, mk, ak) && (ck != ckey || mk != memberKey))
  {
  }

  /** The cluster path (src/store.js:74-97). */
  function AddCluster(s: Store, p: Entity, self: Value, ks: Value, id: Value): (r: AddOutcome)
    ensures !r.Rejected?
    ensures r.Added? ==> r.entity == Ref(ClusterKind, Prefix(ks, id)) && Prefix(ks, id) in r.store.clusters.m
    ensures r.Added? ==> MergeCluster(s, p, ks, id).Some?
    ensures r.Added? && !Truthy(Prop(p, "forAddresses")) ==> r.store == MergeCluster(s, p, ks, id).value
    ensures r.Added? && Truthy(Prop(p, "forAddresses")) ==>
      && Prop(p, "forAddresses").Arr?
      && LinkForAddresses(MergeCluster(s, p, ks, id).value, Prefix(ks, id), ks, Prop(p, "forAddresses").items)
           == Done(r.store)
  {
    var key := Prefix(ks, id);
    match MergeCluster(s, p, ks, id)
    case None => Raised(s)
    case Some(s2) =>
      var arg := if self.Ref? then self else Obj(p);
      var fa := Prop(p, "forAddresses");
      if !Truthy(fa) then Added(s2, arg, Ref(ClusterKind, key))
      else if !fa.Arr? then Raised(s2)
      else match LinkForAddresses(s2, key, ks, fa.items)
        case Done(s3) => Added(s3, arg, Ref(ClusterKind, key))
        case Thrown(s3) => Raised(s3)
  }

  /** `linked(x)`: if the address `ks|x` exists it points at the cluster and
      the cluster maps `x` to it. */
  predicate Linked(s: Store, ckey: string, ks: Value, x: Value) {
    Prefix(ks, x) in s.addresses.m ==>
      && Prop(s.addresses.m[Prefix(ks, x)], "cluster") == Ref(ClusterKind, ckey)
      && MemberOf(s, ckey, ToStr(x), Prefix(ks, x))
  }

  /** One step of the `forAddresses` loop links `y` and undoes no earlier link. */
  lemma LinkStepLinks(s: Store, ckey: string, ks: Value, y: Value, x: Value)
    requires ckey in s.clusters.m
    requires Linked(s, ckey, ks, x) || x == y
    ensures LinkStep(s, ckey, ks, y).Some? ==> Linked(LinkStep(s, ckey, ks, y).value, ckey, ks, x)
  {
    var ak := Prefix(ks, y);
    if ak in s.addresses.m && LinkStep(s, ckey, ks, y).Some? {
      var s' := LinkStep(s, ckey, ks, y).value;
      PrefixInjective(ks, y, x);
      LinkMemberEffect(s, ckey, ToStr(y), ak, ckey, ToStr(x), Prefix(ks, x));
    }
  }

  /** After the `forAddresses` loop every listed address, and every address
      linked before it, is linked both ways with the cluster. */
  lemma {:induction false} LinkAllLinked(s: Store, ckey: string, ks: Value, xs: seq<Value>, x: Value)
    requires ckey in s.clusters.m
    requires Linked(s, ckey, ks, x) || x in xs
    ensures LinkForAddresses(s, ckey, ks, xs).Done? ==> Linked(LinkForAddresses(s, ckey, ks, xs).store, ckey, ks, x)
    decreases |xs|
  {
    if xs != [] {
      var step := LinkStep(s, ckey, ks, xs[0]);
      if step.Some? {
        if Linked(s, ckey, ks, x) || x == xs[0] {
          LinkStepLinks(s, ckey, ks, xs[0], x);
        } else {
          assert x in xs[1..];
        }
        LinkAllLinked(step.value, ckey, ks, xs[1..], x);
      }
    }
  }

  /** Member linking changes no field of the cluster but `addresses`. */
  lemma {:induction false} LinkKeepsClusterFields(s: Store, ckey: string, ks: Value, xs: seq<Value>, k: string)
    requires ckey in s.clusters.m && k != "addresses"
    ensures Prop(LinkForAddresses(s, ckey, ks, xs).store.clusters.m[ckey], k) == Prop(s.clusters.m[ckey], k)
    decreases |xs|
  {
    if xs != [] {
      var step := LinkStep(s, ckey, ks, xs[0]);
      if step.Some? {
        LinkKeepsClusterFields(step.value, ckey, ks, xs[1..], k);
      }
    }
  }

  /** The member map of a cluster object lists `memberKey -> addressKey`. */
  predicate Lists(c: Entity, memberKey: string, addressKey: string) {
    var mem := Prop(c, "addresses");
    && mem.Members?
    && memberKey in mem.members.m
    && mem.members.m[memberKey] == addressKey
  }

  /** Some listed id names a stored address (its key among `stored`), and
      `memberKey -> addressKey` is the entry linking it. */
  predicate Listed(stored: set<string>, ks: Value, xs: seq<Value>, memberKey: string, addressKey: string) {
    exists x :: x in xs && Prefix(ks, x) in stored && memberKey == ToStr(x) && addressKey == Prefix(ks, x)
  }

  /** Some listed id of a stored address has `memberKey` as its string form,
      so the loop writes the entry `memberKey`. */
  predicate Rewritten(stored: set<string>, ks: Value, xs: seq<Value>, memberKey: string) {
    exists x :: x in xs && Prefix(ks, x) in stored && memberKey == ToStr(x)
  }

  /** The membership relation after a `forAddresses` loop that ran to the
      end: the entries for the listed ids of stored addresses, and every
      earlier entry the loop did not write over. Ids the store has no
      address for add nothing. */
  lemma {:induction false} LinkMembers(s: Store, ckey: string, ks: Value, xs: seq<Value>, c: string, mk: string, ak: string)
    requires ckey in s.clusters.m
    requires LinkForAddresses(s, ckey, ks, xs).Done?
    ensures MemberOf(LinkForAddresses(s, ckey, ks, xs).store, c, mk, ak) <==>
      || (c == ckey && Listed(s.addresses.m.Keys, ks, xs, mk, ak))
      || (MemberOf(s, c, mk, ak) && !(c == ckey && Rewritten(s.addresses.m.Keys, ks, xs, mk)))
    decreases |xs|
  {
    if xs != [] {
      var keys := s.addresses.m.Keys;
      var x0, rest := xs[0], xs[1..];
      assert xs == [x0] + rest;
      var s' := LinkStep(s, ckey, ks, x0).value;
      assert LinkForAddresses(s, ckey, ks, xs) == LinkForAddresses(s', ckey, ks, rest);
      LinkMembers(s', ckey, ks, rest, c, mk, ak);
      ListedCons(keys, ks, x0, rest, mk, ak);
      StepMembers(s, ckey, ks, x0, c, mk, ak);
      if mk == ToStr(x0) && Rewritten(keys, ks, rest, mk) {
        ListedRewritten(keys, ks, rest, x0, mk, ak);
      }
    }
  }

  /** One step of the loop on the membership relation, and the addresses it
      keeps. */
  lemma StepMembers(s: Store, ckey: string, ks: Value, x0: Value, c: string, mk: string, ak: string)
    requires ckey in s.clusters.m && LinkStep(s, ckey, ks, x0).Some?
    ensures LinkStep(s, ckey, ks, x0).value.addresses.m.Keys == s.addresses.m.Keys
    ensures LinkStep(s, ckey, ks, x0).value.clusters.m.Keys == s.clusters.m.Keys
    ensures Prefix(ks, x0) !in s.addresses.m ==> (MemberOf(LinkStep(s, ckey, ks, x0).value, c, mk, ak) <==> MemberOf(s, c, mk, ak))
    ensures Prefix(ks, x0) in s.addresses.m ==>
      (MemberOf(LinkStep(s, ckey, ks, x0).value, c, mk, ak) <==>
        (c == ckey && mk == ToStr(x0) && ak == Prefix(ks, x0)) || (MemberOf(s, c, mk, ak) && (c != ckey || mk != ToStr(x0))))
  {
    if Prefix(ks, x0) in s.addresses.m {
      LinkMemberEffect(s, ckey, ToStr(x0), Prefix(ks, x0), c, mk, ak);
    }
  }

  /** Ids with the same string form name the same address, so an entry the
      rest of the list writes for `ToStr(x0)` is the one `x0` writes. */
  lemma ListedRewritten(keys: set<string>, ks: Value, rest: seq<Value>, x0: Value, mk: string, ak: string)
    requires mk == ToStr(x0) && Rewritten(keys, ks, rest, mk)
    ensures Listed(keys, ks, rest, mk, ak) <==> ak == Prefix(ks, x0)
  {
    var y :| y in rest && Prefix(ks, y) in keys && mk == ToStr(y);
    assert Prefix(ks, y) == Prefix(ks, x0);
  }

  /** `Listed` over a list with one more id in front. */
  lemma ListedCons(keys: set<string>, ks: Value, x0: Value, rest: seq<Value>, mk: string, ak: string)
    ensures Listed(keys, ks, [x0] + rest, mk, ak) <==>
      Listed(keys, ks, rest, mk, ak) || (Prefix(ks, x0) in keys && mk == ToStr(x0) && ak == Prefix(ks, x0))
    ensures Rewritten(keys, ks, [x0] + rest, mk) <==>
      Rewritten(keys, ks, rest, mk) || (Prefix(ks, x0) in keys && mk == ToStr(x0))
  {
    InCons(x0, rest);
  }

  /** Membership in a list with one more element in front. */
  lemma InCons(x0: Value, rest: seq<Value>)
    ensures forall x :: x in [x0] + rest <==> x == x0 || x in rest
  {
  }

  /** The loop runs to the end when the cluster's `addresses` is a map, and
      also when no listed id names a stored address. */
  lemma {:induction false} LinkDone(s: Store, ckey: string, ks: Value, xs: seq<Value>)
    requires ckey in s.clusters.m
    requires Prop(s.clusters.m[ckey], "addresses").Members? || forall x :: x in xs ==> Prefix(ks, x) !in s.addresses.m
    ensures LinkForAddresses(s, ckey, ks, xs).Done?
    ensures Prop(s.clusters.m[ckey], "addresses").Members? ==>
      Prop(LinkForAddresses(s, ckey, ks, xs).store.clusters.m[ckey], "addresses").Members?
    decreases |xs|
  {
    if xs != [] {
      var x0, rest := xs[0], xs[1..];
      assert xs == [x0] + rest;
      InCons(x0, rest);
      var s' := LinkStep(s, ckey, ks, x0).value;
      assert LinkForAddresses(s, ckey, ks, xs) == LinkForAddresses(s', ckey, ks, rest);
      LinkDone(s', ckey, ks, rest);
    }
  }

  /** A loop that linked a stored address ran on a cluster whose
      `addresses` is a map; one that found none changed nothing. */
  lemma {:induction false} LinkNeedsMap(s: Store, ckey: string, ks: Value, xs: seq<Value>)
    requires ckey in s.clusters.m
    ensures LinkForAddresses(s, ckey, ks, xs).Done? && (exists x :: x in xs && Prefix(ks, x) in s.addresses.m) ==>
      Prop(s.clusters.m[ckey], "addresses").Members?
    ensures (forall x :: x in xs ==> Prefix(ks, x) !in s.addresses.m) ==> LinkForAddresses(s, ckey, ks, xs) == Done(s)
    decreases |xs|
  {
    if xs != [] {
      var x0, rest := xs[0], xs[1..];
      assert xs == [x0] + rest;
      InCons(x0, rest);
      match LinkStep(s, ckey, ks, x0)
      case None =>
      case Some(s') =>
        assert LinkForAddresses(s, ckey, ks, xs) == LinkForAddresses(s', ckey, ks, rest);
        LinkNeedsMap(s', ckey, ks, rest);
    }
  }

  /** A run of statements that may throw part-way. */
  datatype Outcome = Done(store: Store) | Thrown(store: Store)

  /** Lines 88-96: link every listed address already in the store. */
  function LinkForAddresses(s: Store, ckey: string, ks: Value, xs: seq<Value>): (r: Outcome)
    requires ckey in s.clusters.m
    ensures ckey in r.store.clusters.m
    ensures r.store.addresses.keys == s.addresses.keys && r.store.clusters.keys == s.clusters.keys
    ensures r.store.addresses.m.Keys == s.addresses.m.Keys && r.store.clusters.m.Keys == s.clusters.m.Keys
    ensures r.store.outgoingLinks == s.outgoingLinks
    ensures forall k :: k in s.addresses.m && (forall i :: 0 <= i < |xs| ==> Prefix(ks, xs[i]) != k) ==>
      r.store.addresses.m[k] == s.addresses.m[k]
    ensures forall k :: k in s.clusters.m && k != ckey ==> r.store.clusters.m[k] == s.clusters.m[k]
    decreases |xs|
  {
    if xs == [] then Done(s)
    else match LinkStep(s, ckey, ks, xs[0])
      case None => Thrown(s)
      case Some(s') =>
        var r := LinkForAddresses(s', ckey, ks, xs[1..]);
        assert forall i :: 1 <= i < |xs| ==> xs[1..][i - 1] == xs[i];
        r
  }

  /** Lines 90-95 for one listed id: nothing when the address is not in the
      store, else the two-way link. */
  function LinkStep(s: Store, ckey: string, ks: Value, x: Value): (r: Option<Store>)
    requires ckey in s.clusters.m
    ensures r.Some? ==> r.value.addresses.keys == s.addresses.keys && r.value.clusters.keys == s.clusters.keys
    ensures r.Some? ==> r.value.addresses.m.Keys == s.addresses.m.Keys && r.value.clusters.m.Keys == s.clusters.m.Keys
    ensures r.Some? ==> r.value.outgoingLinks == s.outgoingLinks
    ensures r.Some? ==> forall k :: k in s.addresses.m && k != Prefix(ks, x) ==> r.value.addresses.m[k] == s.addresses.m[k]
    ensures r.Some? ==> forall k :: k in s.clusters.m && k != ckey ==> r.value.clusters.m[k] == s.clusters.m[k]
    ensures r.Some? ==> forall k :: k != "addresses" ==> Prop(r.value.clusters.m[ckey], k) == Prop(s.clusters.m[ckey], k)
    ensures Prefix(ks, x) !in s.addresses.m ==> r == Some(s)
    ensures Prefix(ks, x) in s.addresses.m && r.Some? ==> MemberOf(r.value, ckey, ToStr(x), Prefix(ks, x))
  {
    var ak := Prefix(ks, x);
    if ak !in s.addresses.m then Some(s)
    else LinkMember(s, ckey, ToStr(x), ak)
  }

  /** `c.addresses.set(memberKey, a); a.cluster = c` (lines 69-70 and 93-94);
      `None` is the TypeError for an `addresses` that is not a map. */
  function LinkMember(s: Store, ckey: string, memberKey: string, akey: string): (r: Option<Store>)
    requires ckey in s.clusters.m && akey in s.addresses.m
    ensures r.Some? ==> MemberOf(r.value, ckey, memberKey, akey)
    ensures r.Some? ==> r.value.addresses.m == s.addresses.m[akey := s.addresses.m[akey]["cluster" := Ref(ClusterKind, ckey)]]
    ensures r.Some? ==> r.value.addresses.keys == s.addresses.keys && r.value.clusters.keys == s.clusters.keys
    ensures r.Some? ==> r.value.addresses.m.Keys == s.addresses.m.Keys && r.value.clusters.m.Keys == s.clusters.m.Keys
    ensures r.Some? ==> r.value.outgoingLinks == s.outgoingLinks
    ensures r.Some? ==> forall k :: k in s.clusters.m && k != ckey ==> r.value.clusters.m[k] == s.clusters.m[k]
    ensures r.None? <==> !Prop(s.clusters.m[ckey], "addresses").Members?
    ensures r.Some? ==> forall k :: k != "addresses" ==> Prop(r.value.clusters.m[ckey], k) == Prop(s.clusters.m[ckey], k)
  {
    var c := s.clusters.m[ckey];
    var mem := Prop(c, "addresses");
    if !mem.Members? then None
    else
      var s1 := s.(clusters := Put(s.clusters, ckey, c["addresses" := Members(Put(mem.members, memberKey, akey))]));
      Some(s1.(addresses := Put(s1.addresses, akey, s1.addresses.m[akey]["cluster" := Ref(ClusterKind, ckey)])))
  }

  // ----------------------------------------------------------- get / find

  /** `store.get(keyspace, type, key)` (src/store.js:100-112): the entity, or
      `undefined` for a missing key or an unknown type. */
  function Get(s: Store, keyspace: Value, ty: Value, key: Value): (r: Value)
    ensures r.Ref? || r.Undefined?
    ensures r.Ref? ==> r.key == Prefix(keyspace, key) && r.key in EntityMap(s, r.kind).m
    ensures r.Ref? ==> (r.kind == AddressKind <==> ty == Str("address"))
    ensures r.Ref? ==> (r.kind == ClusterKind <==> ty == Str("cluster"))
    ensures r.Undefined? ==>
      || (ty != Str("address") && ty != Str("cluster"))
      || (ty == Str("address") && Prefix(keyspace, key) !in s.addresses.m)
      || (ty == Str("cluster") && Prefix(keyspace, key) !in s.clusters.m)
  {
    var kind := if ty == Str("address") then Some(AddressKind)
                else if ty == Str("cluster") then Some(ClusterKind) else None;
    if kind.None? then Undefined
    else if Prefix(keyspace, key) in EntityMap(s, kind.value).m then Ref(kind.value, Prefix(keyspace, key))
    else Undefined
  }

  /** The id of the entity at position `i` of an entity map matches `key`. */
  predicate MatchAt(o: OMap<Entity>, key: Value, i: nat)
    requires i < |o.keys|
  {
    assert o.keys[i] in o.m by { assert o.keys[i] in (set k | k in o.keys); }
    LooseEq(Prop(o.m[o.keys[i]], "id"), key)
  }

  /** Position `i` holds the first entity whose id matches `key`. */
  predicate FirstMatchAt(o: OMap<Entity>, key: Value, i: nat) {
    i < |o.keys| && MatchAt(o, key, i) && forall j :: 0 <= j < i ==> !MatchAt(o, key, j)
  }

  /** The first position, from `from` on, whose entity's id is loosely equal to `key`. */
  function FirstMatch(o: OMap<Entity>, key: Value, from: nat): (r: Option<nat>)
    ensures r.Some? ==> from <= r.value < |o.keys| && MatchAt(o, key, r.value)
    ensures r.Some? ==> forall i :: from <= i < r.value ==> !MatchAt(o, key, i)
    ensures r.None? ==> forall i :: from <= i < |o.keys| ==> !MatchAt(o, key, i)
    decreases |o.keys| - from
  {
    if from >= |o.keys| then None
    else if MatchAt(o, key, from) then Some(from)
    else FirstMatch(o, key, from + 1)
  }

  /** `store.find(key, type)` (src/store.js:113-127): the first entity, in
      insertion order, whose id is loosely equal to `key`, looking at addresses
      before clusters when no type is given; `null` when there is none. */
  function Find(s: Store, key: Value, ty: Value): (r: Value)
    ensures r.Ref? || r.Null?
    ensures r.Ref? ==> exists i: nat :: FirstMatchAt(EntityMap(s, r.kind), key, i) && EntityMap(s, r.kind).keys[i] == r.key
    ensures r.Ref? && r.kind == ClusterKind ==> ty != Str("address")
    ensures r.Ref? && r.kind == ClusterKind && ty != Str("cluster") ==>
      forall i :: 0 <= i < |s.addresses.keys| ==> !MatchAt(s.addresses, key, i)
    ensures r.Ref? && r.kind == AddressKind ==> ty != Str("cluster")
    ensures r.Null? && ty != Str("cluster") ==> forall i :: 0 <= i < |s.addresses.keys| ==> !MatchAt(s.addresses, key, i)
    ensures r.Null? && ty != Str("address") ==> forall i :: 0 <= i < |s.clusters.keys| ==> !MatchAt(s.clusters, key, i)
  {
    var inAddresses := if ty != Str("cluster") then FirstMatch(s.addresses, key, 0) else None;
    var inClusters := if ty != Str("address") then FirstMatch(s.clusters, key, 0) else None;
    if inAddresses.Some? then
      assert FirstMatchAt(EntityMap(s, AddressKind), key, inAddresses.value);
      Ref(AddressKind, s.addresses.keys[inAddresses.value])
    else if inClusters.Some? then
      assert FirstMatchAt(EntityMap(s, ClusterKind), key, inClusters.value);
      Ref(ClusterKind, s.clusters.keys[inClusters.value])
    else Null
  }

  // --------------------------------------------------- serialize/deserialize

  /** The value of `store.serialize()`: addresses, clusters, and every table
      as `[prefixedSourceId, [{key: target, value: payload}]]`. */
  datatype Snapshot = Snapshot(addresses: seq<Entity>, clusters: seq<Entity>, links: seq<(string, seq<(string, Value)>)>)

  /** An edge payload as stored in a snapshot. */
  function EdgeValue(e: EdgeData): Value {
    match e
    case NoStats => Null
    case Stats(nt, ev) => Obj(map["noTransactions" := nt, "estimatedValue" := ev])
  }

  /** Lines 155-157: the address with its cluster collapsed to the cluster's
      id and its table dropped; `None` is the TypeError for a missing cluster. */
  function SerializeAddress(s: Store, a: Entity): Option<Entity> {
    var cl := Prop(a, "cluster");
    if !Readable(cl) then None
    else Some((a - {"outgoing"})["cluster" := Field(s, cl, "id")])
  }

  /** Lines 162-164: the cluster with its members collapsed to their ids.
      An array answers `keys()` with an iterator, an object without own
      properties; any other value has no `keys` method (`None`). */
  function SerializeCluster(c: Entity): Option<Entity> {
    var mem := Prop(c, "addresses");
    if mem.Members? then Some((c - {"outgoing"})["addresses" := Arr(KeyValues(mem.members.keys))])
    else if mem.Arr? then Some((c - {"outgoing"})["addresses" := Obj(map[])])
    else None
  }

  function KeyValues(keys: seq<string>): (r: seq<Value>)
    ensures |r| == |keys| && forall i :: 0 <= i < |keys| ==> r[i] == Str(keys[i])
  {
    if keys == [] then [] else [Str(keys[0])] + KeyValues(keys[1..])
  }

  function SerializeAddresses(s: Store, keys: seq<string>): (r: Option<seq<Entity>>)
    requires forall k :: k in keys ==> k in s.addresses.m
    ensures r.Some? <==> forall i :: 0 <= i < |keys| ==> SerializeAddress(s, s.addresses.m[keys[i]]).Some?
    ensures r.Some? ==> |r.value| == |keys|
    ensures r.Some? ==> forall i :: 0 <= i < |keys| ==> r.value[i] == SerializeAddress(s, s.addresses.m[keys[i]]).value
  {
    if keys == [] then Some([])
    else match (SerializeAddress(s, s.addresses.m[keys[0]]), SerializeAddresses(s, keys[1..]))
      case (Some(x), Some(xs)) => Some([x] + xs)
      case _ => None
  }

  function SerializeClusters(s: Store, keys: seq<string>): (r: Option<seq<Entity>>)
    requires forall k :: k in keys ==> k in s.clusters.m
    ensures r.Some? <==> forall i :: 0 <= i < |keys| ==> SerializeCluster(s.clusters.m[keys[i]]).Some?
    ensures r.Some? ==> |r.value| == |keys|
    ensures r.Some? ==> forall i :: 0 <= i < |keys| ==> r.value[i] == SerializeCluster(s.clusters.m[keys[i]]).value
  {
    if keys == [] then Some([])
    else match (SerializeCluster(s.clusters.m[keys[0]]), SerializeClusters(s, keys[1..]))
      case (Some(x), Some(xs)) => Some([x] + xs)
      case _ => None
  }

  function Entries(t: Table, keys: seq<string>): (r: seq<(string, Value)>)
    requires forall k :: k in keys ==> k in t.m
    ensures |r| == |keys|
    ensures forall i :: 0 <= i < |keys| ==> r[i] == (keys[i], EdgeValue(t.m[keys[i]]))
  {
    if keys == [] then [] else [(keys[0], EdgeValue(t.m[keys[0]]))] + Entries(t, keys[1..])
  }

  function SerializeLinks(s: Store, keys: seq<string>): (r: seq<(string, seq<(string, Value)>)>)
    requires forall k :: k in keys ==> k in s.outgoingLinks.m
    ensures |r| == |keys|
    ensures forall i :: 0 <= i < |keys| ==> r[i] == (keys[i], Entries(s.outgoingLinks.m[keys[i]], s.outgoingLinks.m[keys[i]].keys))
  {
    if keys == [] then []
    else
      var t := s.outgoingLinks.m[keys[0]];
      InKeys(t);
      [(keys[0], Entries(t, t.keys))] + SerializeLinks(s, keys[1..])
  }

  /** `store.serialize()` (src/store.js:152-172); `None` is the TypeError
      raised for an address without a cluster. */
  function Serialize(s: Store): (r: Option<Snapshot>)
    ensures r.Some? <==>
      && (forall i :: 0 <= i < |s.addresses.keys| ==> Readable(Prop(s.addresses.m[s.addresses.keys[i]], "cluster")))
      && (forall i :: 0 <= i < |s.clusters.keys| ==>
            var mem := Prop(s.clusters.m[s.clusters.keys[i]], "addresses"); mem.Members? || mem.Arr?)
    ensures r.Some? ==>
      && |r.value.addresses| == |s.addresses.keys|
      && forall i :: 0 <= i < |s.addresses.keys| ==>
           var a := s.addresses.m[s.addresses.keys[i]];
           r.value.addresses[i] == (a - {"outgoing"})["cluster" := Field(s, Prop(a, "cluster"), "id")]
    ensures r.Some? ==>
      && |r.value.clusters| == |s.clusters.keys|
      && forall i :: 0 <= i < |s.clusters.keys| ==> r.value.clusters[i] == SerializeCluster(s.clusters.m[s.clusters.keys[i]]).value
    ensures r.Some? ==>
      && |r.value.links| == |s.outgoingLinks.keys|
      && forall i :: 0 <= i < |s.outgoingLinks.keys| ==>
           var tk := s.outgoingLinks.keys[i];
           r.value.links[i] == (tk, Entries(s.outgoingLinks.m[tk], s.outgoingLinks.m[tk].keys))
  {
    InKeys(s.addresses);
    InKeys(s.clusters);
    InKeys(s.outgoingLinks);
    match (SerializeAddresses(s, s.addresses.keys), SerializeClusters(s, s.clusters.keys))
    case (Some(addrs), Some(cs)) => Some(Snapshot(addrs, cs, SerializeLinks(s, s.outgoingLinks.keys)))
    case _ => None
  }

  /** Lines 174-178: the payload a serialized cluster is re-added with. */
  function ClusterPayload(c: Entity): Entity {
    c["forAddresses" := Prop(c, "addresses")] - {"addresses"}
  }

  /** Re-adds objects in order; an `add` that is rejected is skipped. */
  function AddAll(s: Store, objects: seq<Entity>, asCluster: bool): Outcome
    decreases |objects|
  {
    if objects == [] then Done(s)
    else
      var p := if asCluster then ClusterPayload(objects[0]) else objects[0];
      match Add(s, Obj(p))
      case Rejected => AddAll(s, objects[1..], asCluster)
      case Added(s', _, _) => AddAll(s', objects[1..], asCluster)
      case Raised(s') => Thrown(s')
  }

  /** The keyspace and source id of a snapshot table (lines 183-191): the
      0.4.0 format stored bare ids, resolved with `find`. */
  function TableSource(s: Store, version: Value, id: string): Option<(Value, Value)> {
    if version == Str("0.4.0") then
      var found := Find(s, Str(id), Undefined);
      if found.Null? then None else Some((Field(s, found, "keyspace"), Str(id)))
    else Some(Unprefix(id))
  }

  function ReplayEntries(s: Store, source: Value, keyspace: Value, entries: seq<(string, Value)>): Outcome
    decreases |entries|
  {
    if entries == [] then Done(s)
    else match LinkOutgoing(s, source, Str(entries[0].0), keyspace, entries[0].1)
      case None => Thrown(s)
      case Some(s') => ReplayEntries(s', source, keyspace, entries[1..])
  }

  function ReplayLinks(s: Store, version: Value, links: seq<(string, seq<(string, Value)>)>): Outcome
    decreases |links|
  {
    if links == [] then Done(s)
    else match TableSource(s, version, links[0].0)
      case None => ReplayLinks(s, version, links[1..])
      case Some((ks, id)) =>
        match ReplayEntries(s, id, ks, links[0].1)
        case Thrown(s') => Thrown(s')
        case Done(s') => ReplayLinks(s', version, links[1..])
  }

  /** `store.deserialize(version, snapshot)` (src/store.js:173-196): clusters
      first, then addresses, then every edge through `linkOutgoing`. */
  function Deserialize(s: Store, version: Value, snap: Snapshot): Outcome {
    match AddAll(s, snap.clusters, true)
    case Thrown(s1) => Thrown(s1)
    case Done(s1) =>
      match AddAll(s1, snap.addresses, false)
      case Thrown(s2) => Thrown(s2)
      case Done(s2) => ReplayLinks(s2, version, snap.links)
  }
}

=== FILE: store_props.dfy ===
/** Properties of the graph store's single operations: key prefixing,
    payload classification, the per-field merge of `add`, the membership it
    creates, and the edge-table upsert. */
module StoreProps {
  import opened Js
  import opened OrderedMap
  import opened Store

  // ------------------------------------------------------------ prefixing

  /** The first `|` of `a + "|" + b` is the one after `a` when `a` has none. */
  lemma {:induction false} IndexOfSep(a: string, b: string)
    requires '|' !in a
    ensures IndexOf(a + "|" + b, '|') == Some(|a|)
  {
    var s := a + "|" + b;
    if a == [] {
      assert s[0] == '|';
    } else {
      assert s[1..] == a[1..] + "|" + b;
      assert a[0] == s[0];
      IndexOfSep(a[1..], b);
    }
  }

  /** `unprefix(prefix(k, id))` gives back the keyspace and the id (as
      strings) whenever the keyspace has no `|`; the id may contain one. */
  lemma UnprefixPrefix(keyspace: Value, id: Value)
    requires '|' !in ToStr(keyspace)
    ensures Unprefix(Prefix(keyspace, id)) == (Str(ToStr(keyspace)), Str(ToStr(id)))
  {
    var s := Prefix(keyspace, id);
    IndexOfSep(ToStr(keyspace), ToStr(id));
    assert s[..|ToStr(keyspace)|] == ToStr(keyspace);
    assert s[|ToStr(keyspace)| + 1..] == ToStr(id);
  }

  // --------------------------------------------------------- classification

  /** The `type` name `get` takes for an entity kind. */
  function KindName(k: Kind): Value {
    if k == AddressKind then Str("address") else Str("cluster")
  }

  /** `add` rejects exactly the payloads that are neither address- nor
      cluster-like and those without a keyspace; an address-like payload
      always goes down the address path, even when it is also cluster-like. */
  lemma AddClassification(s: Store, p: Entity)
    ensures Add(s, Obj(p)).Rejected? <==> (!AddressLike(p) && !ClusterLike(p)) || !Truthy(Prop(p, "keyspace"))
    ensures Add(s, Obj(p)).Added? ==> Add(s, Obj(p)).entity.Ref?
    ensures Add(s, Obj(p)).Added? ==> (Add(s, Obj(p)).entity.kind == AddressKind <==> AddressLike(p))
    ensures Add(s, Obj(p)).Added? && Add(s, Obj(p)).entity.kind == ClusterKind ==> ClusterLike(p)
  {
  }

  /** After a successful `add`, `get` with the payload's keyspace, type and id
      returns the entity `add` returned. */
  lemma AddThenGet(s: Store, p: Entity)
    requires Add(s, Obj(p)).Added?
    ensures Classify(p).Some?
    ensures Get(Add(s, Obj(p)).store, Prop(p, "keyspace"), KindName(Classify(p).value.0), Classify(p).value.1)
      == Add(s, Obj(p)).entity
  {
  }

  // ----------------------------------------------------------------- merge

  /** The store key `add` files a classified payload under. */
  function KeyOf(p: Entity): string
    requires Classify(p).Some?
  {
    Prefix(Prop(p, "keyspace"), Classify(p).value.1)
  }

  /** The key of the cluster an address payload names. */
  function ClusterKeyOf(p: Entity): string {
    Prefix(Prop(p, "keyspace"), ToCluster(p))
  }

  /** The stored (or fresh) entity with the payload merged in and the
      classifying field dropped: what `add` builds before any linking. */
  function Merged(s: Store, kind: Kind, p: Entity): Entity
    requires Classify(p).Some?
  {
    (Before(s, kind, KeyOf(p), Classify(p).value.1) + p) - {Dropped(kind)}
  }

  /** An address-like payload with a keyspace takes the address path. */
  lemma AddIsAddAddress(s: Store, p: Entity)
    requires AddressLike(p) && (Truthy(Prop(p, "keyspace")) || Add(s, Obj(p)).Added?)
    ensures Add(s, Obj(p)) == AddAddress(s, p, Obj(p), Prop(p, "keyspace"), Classify(p).value.1)
  {
  }

  /** An added payload that is not address-like took the cluster path. */
  lemma AddIsAddCluster(s: Store, p: Entity)
    requires !AddressLike(p) && Add(s, Obj(p)).Added?
    ensures Classify(p).Some?
    ensures Add(s, Obj(p)) == AddCluster(s, p, Obj(p), Prop(p, "keyspace"), Classify(p).value.1)
  {
  }

  /** The address the address path leaves behind: the merged address, with
      `cluster` replaced by the named cluster when the payload names one. */
  lemma AddressPathEntity(s: Store, p: Entity, ks: Value, id: Value)
    requires AddAddress(s, p, Obj(p), ks, id).Added?
    ensures AddressStage(s, p, Obj(p), ks, id).Some?
    ensures AddAddress(s, p, Obj(p), ks, id).store.addresses.m[Prefix(ks, id)] ==
      var m := (Before(s, AddressKind, Prefix(ks, id), id) + p) - {"address"};
      if Truthy(ToCluster(p)) then m["cluster" := Ref(ClusterKind, Prefix(ks, ToCluster(p)))] else m
  {
    var key := Prefix(ks, id);
    var r := AddAddress(s, p, Obj(p), ks, id);
    var s3 := AddressStage(s, p, Obj(p), ks, id).value;
    assert s3.addresses.m[key] == (Before(s, AddressKind, key, id) + p) - {"address"} by {
      assert EntityMap(s3, AddressKind) == s3.addresses;
    }
    if Truthy(ToCluster(p)) {
      var s4 := EnsureCluster(s3, key, ks, id, ToCluster(p), key !in s.addresses.m).value;
      var s5 := LinkMember(s4, Prefix(ks, ToCluster(p)), ToStr(Prop(s3.addresses.m[key], "id")), key).value;
      assert r.store == s5;
      assert s5.addresses.m[key] == s4.addresses.m[key]["cluster" := Ref(ClusterKind, Prefix(ks, ToCluster(p)))];
    }
  }

  /** The address `add` leaves behind: the merged address, with `cluster`
      replaced by the named cluster when the payload names one. */
  lemma AddressEntity(s: Store, p: Entity)
    requires AddressLike(p) && Add(s, Obj(p)).Added?
    ensures Add(s, Obj(p)).entity == Ref(AddressKind, KeyOf(p))
    ensures Add(s, Obj(p)).store.addresses.m[KeyOf(p)] ==
      if Truthy(ToCluster(p)) then Merged(s, AddressKind, p)["cluster" := Ref(ClusterKind, ClusterKeyOf(p))]
      else Merged(s, AddressKind, p)
  {
    AddIsAddAddress(s, p);
    AddressPathEntity(s, p, Prop(p, "keyspace"), Classify(p).value.1);
  }

  /** Every field but `addresses` of the cluster `add` leaves behind is the
      merged cluster's: the member linking touches only `addresses`. */
  lemma ClusterEntity(s: Store, p: Entity)
    requires !AddressLike(p) && Add(s, Obj(p)).Added?
    ensures Classify(p).Some? && Add(s, Obj(p)).entity == Ref(ClusterKind, KeyOf(p))
    ensures forall k :: k != "addresses" ==>
      Prop(Add(s, Obj(p)).store.clusters.m[KeyOf(p)], k) == Prop(Merged(s, ClusterKind, p), k)
  {
    var ks := Prop(p, "keyspace");
    var id := Classify(p).value.1;
    var key := KeyOf(p);
    AddIsAddCluster(s, p);
    var s2 := MergeCluster(s, p, ks, id).value;
    assert s2.clusters.m[key] == Merged(s, ClusterKind, p) by {
      assert EntityMap(s2, ClusterKind) == s2.clusters;
    }
    var fa := Prop(p, "forAddresses");
    if Truthy(fa) {
      forall k | k != "addresses"
        ensures Prop(Add(s, Obj(p)).store.clusters.m[key], k) == Prop(s2.clusters.m[key], k)
      {
        LinkKeepsClusterFields(s2, key, ks, fa.items, k);
      }
    }
  }

  /** The address path copies every payload field onto the address (last
      write wins), drops the `address` field, and keeps the fields the
      payload does not mention. */
  lemma AddressMerge(s: Store, p: Entity)
    requires AddressLike(p) && Add(s, Obj(p)).Added?
    ensures Add(s, Obj(p)).entity == Ref(AddressKind, KeyOf(p))
    ensures
      var a := Add(s, Obj(p)).store.addresses.m[KeyOf(p)];
      && "address" !in a
      && (forall k :: k in p && k != "address" && k != "cluster" ==> k in a && a[k] == p[k])
      && (KeyOf(p) in s.addresses.m ==> forall k :: k !in p && k != "address" && k != "cluster" && k in s.addresses.m[KeyOf(p)] ==>
            k in a && a[k] == s.addresses.m[KeyOf(p)][k])
  {
    AddressEntity(s, p);
    AddressFields(Before(s, AddressKind, KeyOf(p), Classify(p).value.1), p, Add(s, Obj(p)).store.addresses.m[KeyOf(p)],
      Truthy(ToCluster(p)), Ref(ClusterKind, ClusterKeyOf(p)));
  }

  /** A new address gets its own edge table and type unless the payload sets them. */
  lemma NewAddressDefaults(s: Store, p: Entity)
    requires AddressLike(p) && Add(s, Obj(p)).Added? && KeyOf(p) !in s.addresses.m
    ensures "outgoing" !in p ==> Prop(Add(s, Obj(p)).store.addresses.m[KeyOf(p)], "outgoing") == TableRef(KeyOf(p))
    ensures "type" !in p ==> Prop(Add(s, Obj(p)).store.addresses.m[KeyOf(p)], "type") == Str("address")
  {
    AddressEntity(s, p);
    assert EntityMap(s, AddressKind) == s.addresses;
    MergedDefaults(s, AddressKind, p);
    var m := Merged(s, AddressKind, p);
    ClusterSetKeeps(m, Ref(ClusterKind, ClusterKeyOf(p)));
  }

  /** Setting `cluster` leaves `outgoing` and `type` as they were. */
  lemma ClusterSetKeeps(m: Entity, c: Value)
    ensures Prop(m["cluster" := c], "outgoing") == Prop(m, "outgoing")
    ensures Prop(m["cluster" := c], "type") == Prop(m, "type")
  {
  }

  /** The merge of a payload into a fresh entity keeps the fresh entity's
      table and type unless the payload sets them. */
  lemma MergedDefaults(s: Store, kind: Kind, p: Entity)
    requires Classify(p).Some? && KeyOf(p) !in EntityMap(s, kind).m
    ensures "outgoing" !in p ==> Prop(Merged(s, kind, p), "outgoing") == TableRef(KeyOf(p))
    ensures "type" !in p ==> Prop(Merged(s, kind, p), "type") == Str(if kind == AddressKind then "address" else "cluster")
  {
  }

  /** The fields of `(b + p) - {"address"}`, with `cluster` then set to
      `cref` when `linked`. */
  lemma AddressFields(b: Entity, p: Entity, a: Entity, linked: bool, cref: Value)
    requires a == if linked then ((b + p) - {"address"})["cluster" := cref] else (b + p) - {"address"}
    ensures "address" !in a
    ensures forall k :: k in p && k != "address" && k != "cluster" ==> k in a && a[k] == p[k]
    ensures forall k :: k !in p && k != "address" && k != "cluster" && k in b ==> k in a && a[k] == b[k]
    ensures linked ==> Prop(a, "cluster") == cref
    ensures !linked && "cluster" in p ==> Prop(a, "cluster") == p["cluster"]
  {
  }

  /** The fields of a cluster that agrees with `(b + p) - {"cluster"}` on
      every field but `addresses`. */
  lemma ClusterFields(b: Entity, p: Entity, c: Entity)
    requires forall k :: k != "addresses" ==> Prop(c, k) == Prop((b + p) - {"cluster"}, k)
    ensures Prop(c, "cluster") == Undefined
    ensures forall k :: k in p && k != "cluster" && k != "addresses" ==> Prop(c, k) == p[k]
    ensures forall k :: k !in p && k != "cluster" && k != "addresses" && k in b ==> Prop(c, k) == b[k]
  {
    assert Prop(c, "cluster") == Prop((b + p) - {"cluster"}, "cluster");
  }

  /** The cluster path copies every payload field onto the cluster (last write
      wins), drops the `cluster` field, and keeps the fields the payload does
      not mention; only `addresses` is touched by the member linking. */
  lemma ClusterMerge(s: Store, p: Entity)
    requires !AddressLike(p) && Add(s, Obj(p)).Added?
    ensures Classify(p).Some? && Add(s, Obj(p)).entity == Ref(ClusterKind, KeyOf(p))
    ensures
      var c := Add(s, Obj(p)).store.clusters.m[KeyOf(p)];
      && Prop(c, "cluster") == Undefined
      && (forall k :: k in p && k != "cluster" && k != "addresses" ==> Prop(c, k) == p[k])
      && (KeyOf(p) in s.clusters.m ==> forall k :: k !in p && k != "cluster" && k != "addresses" && k in s.clusters.m[KeyOf(p)] ==>
            Prop(c, k) == s.clusters.m[KeyOf(p)][k])
  {
    ClusterEntity(s, p);
    ClusterFields(Before(s, ClusterKind, KeyOf(p), Classify(p).value.1), p, Add(s, Obj(p)).store.clusters.m[KeyOf(p)]);
  }

  /** A new cluster gets its own edge table and type unless the payload sets them. */
  lemma NewClusterDefaults(s: Store, p: Entity)
    requires !AddressLike(p) && Add(s, Obj(p)).Added? && Classify(p).Some? && KeyOf(p) !in s.clusters.m
    ensures "outgoing" !in p ==> Prop(Add(s, Obj(p)).store.clusters.m[KeyOf(p)], "outgoing") == TableRef(KeyOf(p))
    ensures "type" !in p ==> Prop(Add(s, Obj(p)).store.clusters.m[KeyOf(p)], "type") == Str("cluster")
  {
    ClusterEntity(s, p);
    assert EntityMap(s, ClusterKind) == s.clusters;
    MergedDefaults(s, ClusterKind, p);
    var c := Add(s, Obj(p)).store.clusters.m[KeyOf(p)];
    assert Prop(c, "outgoing") == Prop(Merged(s, ClusterKind, p), "outgoing");
    assert Prop(c, "type") == Prop(Merged(s, ClusterKind, p), "type");
  }

  // ------------------------------------------------------------ membership

  /** An address payload that names a cluster (a string or number `cluster`,
      or a truthy `toCluster`) ends linked both ways: the address's `cluster`
      is that cluster and the cluster maps the address's id to it. One that
      names none keeps the `cluster` it was given. */
  lemma AddressJoinsCluster(s: Store, p: Entity)
    requires AddressLike(p) && Add(s, Obj(p)).Added?
    ensures
      var r := Add(s, Obj(p));
      var a := r.store.addresses.m[KeyOf(p)];
      && (Truthy(ToCluster(p)) ==>
            && Prop(a, "cluster") == Ref(ClusterKind, ClusterKeyOf(p))
            && MemberOf(r.store, ClusterKeyOf(p), ToStr(Prop(a, "id")), KeyOf(p)))
      && (!Truthy(ToCluster(p)) && "cluster" in p ==> Prop(a, "cluster") == p["cluster"])
  {
    var ks := Prop(p, "keyspace");
    var id := Classify(p).value.1;
    var key := KeyOf(p);
    AddressEntity(s, p);
    var a := Add(s, Obj(p)).store.addresses.m[key];
    AddressFields(Before(s, AddressKind, key, id), p, a, Truthy(ToCluster(p)), Ref(ClusterKind, ClusterKeyOf(p)));
    if Truthy(ToCluster(p)) {
      var s3 := AddressStage(s, p, Obj(p), ks, id).value;
      assert s3.addresses.m[key] == Merged(s, AddressKind, p) by {
        assert EntityMap(s3, AddressKind) == s3.addresses;
      }
      assert Prop(a, "id") == Prop(s3.addresses.m[key], "id");
    }
  }

  /** A cluster payload's `forAddresses` links exactly the listed addresses
      already in the store, both ways, creates no address and leaves every
      other address as it was. */
  lemma ForAddressesLinks(s: Store, p: Entity, xs: seq<Value>)
    requires !AddressLike(p) && Prop(p, "forAddresses") == Arr(xs)
    requires Add(s, Obj(p)).Added?
    ensures Classify(p).Some?
    ensures
      var r := Add(s, Obj(p));
      var ks := Prop(p, "keyspace");
      && r.store.addresses.m.Keys == s.addresses.m.Keys
      && (forall i :: 0 <= i < |xs| ==> Linked(r.store, KeyOf(p), ks, xs[i]))
      && (forall k :: k in s.addresses.m && (forall i :: 0 <= i < |xs| ==> Prefix(ks, xs[i]) != k) ==>
            r.store.addresses.m[k] == s.addresses.m[k])
    ensures
      var r := Add(s, Obj(p));
      var ks := Prop(p, "keyspace");
      && (forall mk, ak :: MemberOf(r.store, KeyOf(p), mk, ak) ==>
            Listed(s.addresses.m.Keys, ks, xs, mk, ak) || Lists(Merged(s, ClusterKind, p), mk, ak))
      && (forall c, mk, ak :: c != KeyOf(p) ==> (MemberOf(r.store, c, mk, ak) <==> MemberOf(s, c, mk, ak)))
  {
    var ks := Prop(p, "keyspace");
    var key := KeyOf(p);
    ClusterPathFacts(s, p, xs);
    var s2 := MergeCluster(s, p, ks, Classify(p).value.1).value;
    forall i | 0 <= i < |xs|
      ensures Linked(Add(s, Obj(p)).store, key, ks, xs[i])
    {
      LinkAllLinked(s2, key, ks, xs, xs[i]);
    }
    forall c, mk, ak
      ensures MemberOf(Add(s, Obj(p)).store, c, mk, ak) <==>
        || (c == key && Listed(s.addresses.m.Keys, ks, xs, mk, ak))
        || (MemberOf(s2, c, mk, ak) && !(c == key && Rewritten(s.addresses.m.Keys, ks, xs, mk)))
      ensures c != key ==> (MemberOf(s2, c, mk, ak) <==> MemberOf(s, c, mk, ak))
    {
      LinkMembers(s2, key, ks, xs, c, mk, ak);
    }
  }

  /** The cluster path for a payload with a `forAddresses` list: the merge,
      which touches no address and no other cluster, then the loop over it. */
  lemma ClusterPathFacts(s: Store, p: Entity, xs: seq<Value>)
    requires !AddressLike(p) && Prop(p, "forAddresses") == Arr(xs)
    requires Add(s, Obj(p)).Added?
    ensures Classify(p).Some? && Classify(p).value.0 == ClusterKind && Truthy(Prop(p, "keyspace"))
    ensures
      var s2 := MergeCluster(s, p, Prop(p, "keyspace"), Classify(p).value.1);
      && s2.Some?
      && KeyOf(p) in s2.value.clusters.m
      && s2.value.clusters.m[KeyOf(p)] == Merged(s, ClusterKind, p)
      && s2.value.addresses == s.addresses
      && (forall c :: c != KeyOf(p) ==> (c in s2.value.clusters.m <==> c in s.clusters.m))
      && (forall c :: c in s.clusters.m && c != KeyOf(p) ==> s2.value.clusters.m[c] == s.clusters.m[c])
      && LinkForAddresses(s2.value, KeyOf(p), Prop(p, "keyspace"), xs) == Done(Add(s, Obj(p)).store)
  {
    AddClassification(s, p);
    AddIsAddCluster(s, p);
    var s2 := MergeCluster(s, p, Prop(p, "keyspace"), Classify(p).value.1).value;
    assert EntityMap(s2, ClusterKind) == s2.clusters;
    assert EntityMap(s, ClusterKind) == s.clusters;
  }

  /** Joining a cluster that does not exist yet with `created` set makes
      the cluster a copy of the address in every field but `addresses` and
      `outgoing`. */
  lemma JoinClusterClones(s: Store, arg: Value, key: string, ks: Value, id: Value, tc: Value)
    requires key in s.addresses.m && Prefix(ks, tc) !in s.clusters.m
    requires JoinCluster(s, arg, key, ks, id, tc, true).Added?
    ensures var c := JoinCluster(s, arg, key, ks, id, tc, true).store.clusters.m[Prefix(ks, tc)];
      forall k :: k in s.addresses.m[key] && k != "addresses" && k != "outgoing" ==> Prop(c, k) == s.addresses.m[key][k]
  {
    var s4 := EnsureCluster(s, key, ks, id, tc, true).value;
    assert s4.clusters.m[Prefix(ks, tc)] == NewClusterFor(s.addresses.m[key], tc, Prefix(ks, id), true);
  }

  /** A new address carries an `id` and a `type`. */
  lemma NewAddressHasIdAndType(s: Store, p: Entity)
    requires Classify(p).Some? && KeyOf(p) !in s.addresses.m
    ensures "id" in Merged(s, AddressKind, p) && "type" in Merged(s, AddressKind, p)
  {
  }

  /** The address path, run for a new address and a new cluster, leaves a
      cluster that agrees with the address on every field the address has
      but `addresses`, `outgoing` and `cluster`. */
  lemma AddressPathClones(s: Store, p: Entity, ks: Value, id: Value)
    requires AddAddress(s, p, Obj(p), ks, id).Added?
    ensures
      var r := AddAddress(s, p, Obj(p), ks, id);
      var a := r.store.addresses.m[Prefix(ks, id)];
      Truthy(ToCluster(p)) && Prefix(ks, id) !in s.addresses.m && Prefix(ks, ToCluster(p)) !in s.clusters.m ==>
      forall k :: k in a && k != "addresses" && k != "outgoing" && k != "cluster" ==>
        Prop(r.store.clusters.m[Prefix(ks, ToCluster(p))], k) == a[k]
  {
    AddressPathEntity(s, p, ks, id);
    if Truthy(ToCluster(p)) && Prefix(ks, id) !in s.addresses.m && Prefix(ks, ToCluster(p)) !in s.clusters.m {
    var s3 := AddressStage(s, p, Obj(p), ks, id).value;
    assert s3.clusters == s.clusters;
    JoinClusterClones(s3, ArgAfter(p, Obj(p)), Prefix(ks, id), ks, id, ToCluster(p));
    }
  }

  /** A cluster first created on the address path, together with a new
      address, is a copy of that address: the `empty` object spread into it
      IS the new address, so the cluster takes the address's id, type and
      every other field but `addresses` and `outgoing`. */
  lemma ClusterCreatedByAddressCopiesAddress(s: Store, p: Entity)
    requires AddressLike(p) && Add(s, Obj(p)).Added? && Truthy(ToCluster(p))
    requires KeyOf(p) !in s.addresses.m && ClusterKeyOf(p) !in s.clusters.m
    ensures
      var r := Add(s, Obj(p));
      var a := r.store.addresses.m[KeyOf(p)];
      var c := r.store.clusters.m[ClusterKeyOf(p)];
      && Prop(c, "id") == Prop(a, "id")
      && Prop(c, "type") == Prop(a, "type")
      && forall k :: k in a && k != "addresses" && k != "outgoing" && k != "cluster" ==> Prop(c, k) == a[k]
  {
    var ks, id := Prop(p, "keyspace"), Classify(p).value.1;
    AddIsAddAddress(s, p);
    AddressEntity(s, p);
    NewAddressHasIdAndType(s, p);
    assert KeyOf(p) == Prefix(ks, id) && ClusterKeyOf(p) == Prefix(ks, ToCluster(p));
    AddressPathClones(s, p, ks, id);
    var a := Add(s, Obj(p)).store.addresses.m[KeyOf(p)];
    var c := Add(s, Obj(p)).store.clusters.m[ClusterKeyOf(p)];
    assert "id" in a && "type" in a;
    assert Prop(c, "id") == a["id"] && Prop(c, "type") == a["type"];
  }

  // ------------------------------------------------------------ edge tables

  /** Statistics once recorded are never replaced by a stats-less entry. */
  lemma LinkNeverDowngrades(s: Store, source: Value, target: Value, keyspace: Value, data: Value)
    requires LinkOutgoing(s, source, target, keyspace, data).Some?
    requires var e := EdgeAt(s, Prefix(keyspace, source), ToStr(target)); e.Some? && e.value.Stats?
    ensures var e := EdgeAt(LinkOutgoing(s, source, target, keyspace, data).value, Prefix(keyspace, source), ToStr(target));
      e.Some? && e.value.Stats?
  {
  }

  /** Recorded statistics are overwritten by any truthy payload, even one
      whose fields are falsy: `{noTransactions: 0}` replaces `(5, 7)` with
      `(0, undefined)`. Edges are upserted, not only upgraded. */
  lemma PartialDataOverwritesStats()
    ensures
      var s0 := LinkOutgoing(EmptyStore(), Str("a"), Str("b"), Str("btc"),
        Obj(map["noTransactions" := Num(5), "estimatedValue" := Num(7)])).value;
      var s1 := LinkOutgoing(s0, Str("a"), Str("b"), Str("btc"), Obj(map["noTransactions" := Num(0)])).value;
      && EdgeAt(s0, "btc|a", "b") == Some(Stats(Num(5), Num(7)))
      && EdgeAt(s1, "btc|a", "b") == Some(Stats(Num(0), Undefined))
  {
    assert Prefix(Str("btc"), Str("a")) == "btc|a";
  }

  /** What a successful address `add` leaves for a second one: a keyspace,
      the payload's `id` on the address, and, when the payload names a
      cluster, the address's member entry under its id. */
  lemma FirstAddFacts(s: Store, p: Entity)
    requires AddressLike(p) && Add(s, Obj(p)).Added?
    ensures Truthy(Prop(p, "keyspace")) && Classify(p).Some?
    ensures var a := Add(s, Obj(p)).store.addresses.m[KeyOf(p)];
      && ("id" in p ==> Prop(a, "id") == p["id"])
      && (Truthy(ToCluster(p)) ==> MemberOf(Add(s, Obj(p)).store, ClusterKeyOf(p), ToStr(Prop(a, "id")), KeyOf(p)))
  {
    AddClassification(s, p);
    AddressMerge(s, p);
    AddressJoinsCluster(s, p);
  }

  /** Linking an address into a cluster that already lists it under the
      same member key changes no member entry. */
  lemma RejoinKeepsMembers(s1: Store, s3: Store, ckey: string, mk: string, key: string)
    requires s3.clusters == s1.clusters && key in s3.addresses.m
    requires MemberOf(s1, ckey, mk, key)
    ensures LinkMember(s3, ckey, mk, key).Some?
    ensures forall c, m, x :: MemberOf(LinkMember(s3, ckey, mk, key).value, c, m, x) <==> MemberOf(s1, c, m, x)
  {
    forall c, m, x
      ensures MemberOf(LinkMember(s3, ckey, mk, key).value, c, m, x) <==> MemberOf(s1, c, m, x)
    {
      LinkMemberEffect(s3, ckey, mk, key, c, m, x);
    }
  }

  /** Adding the same address payload a second time succeeds and leaves the
      membership relation as the first `add` left it: no member entry is
      added, moved or dropped. */
  lemma AddAgainKeepsMembers(s: Store, p: Entity)
    requires AddressLike(p) && Add(s, Obj(p)).Added?
    ensures Add(Add(s, Obj(p)).store, Obj(p)).Added?
    ensures var s1 := Add(s, Obj(p)).store;
      forall c, mk, x :: MemberOf(Add(s1, Obj(p)).store, c, mk, x) <==> MemberOf(s1, c, mk, x)
  {
    var s1 := Add(s, Obj(p)).store;
    FirstAddFacts(s, p);
    var ks, id := Prop(p, "keyspace"), Classify(p).value.1;
    var key, tc := KeyOf(p), ToCluster(p);
    assert key == Prefix(ks, id) && key in s1.addresses.m by { AddIsAddAddress(s, p); }
    AddIsAddAddress(s1, p);
    var s3 := MergeAddress(s1, p, ks, id).value;
    assert AddressStage(s1, p, Obj(p), ks, id) == Some(s3);
    if Truthy(tc) {
      var a1 := s1.addresses.m[key];
      var mk := ToStr(Prop(a1, "id"));
      assert Prefix(ks, tc) == ClusterKeyOf(p);
      assert EnsureCluster(s3, key, ks, id, tc, false) == Some(s3);
      assert Prop(s3.addresses.m[key], "id") == Prop(a1, "id") by {
        assert s3.addresses.m[key] == (a1 + p) - {"address"};
      }
      RejoinKeepsMembers(s1, s3, Prefix(ks, tc), mk, key);
    }
  }
  /** The member map of `(c + p) - {"cluster"}`: the payload's when it
      carries one, else the stored object's. */
  lemma MergedMembers(c: Entity, p: Entity)
    ensures Prop((c + p) - {"cluster"}, "addresses") == if "addresses" in p then p["addresses"] else Prop(c, "addresses")
  {
  }

  /** The second `add` of a cluster payload merges into the cluster the
      first one left, touching no address and no other cluster, and its
      loop runs to the end. */
  lemma ClusterAgainMerge(s: Store, p: Entity, xs: seq<Value>)
    requires !AddressLike(p) && Prop(p, "forAddresses") == Arr(xs)
    requires Add(s, Obj(p)).Added?
    ensures Classify(p).Some?
    ensures
      var s1 := Add(s, Obj(p)).store;
      var t2 := MergeCluster(s1, p, Prop(p, "keyspace"), Classify(p).value.1);
      && t2.Some?
      && KeyOf(p) in t2.value.clusters.m
      && t2.value.addresses == s1.addresses
      && t2.value.clusters.m[KeyOf(p)] == (s1.clusters.m[KeyOf(p)] + p) - {"cluster"}
      && (forall c :: c != KeyOf(p) ==> (c in t2.value.clusters.m <==> c in s1.clusters.m))
      && (forall c :: c in s1.clusters.m && c != KeyOf(p) ==> t2.value.clusters.m[c] == s1.clusters.m[c])
      && Add(s1, Obj(p)) == AddCluster(s1, p, Obj(p), Prop(p, "keyspace"), Classify(p).value.1)
  {
    ClusterPathFacts(s, p, xs);
    var s1 := Add(s, Obj(p)).store;
    var t2 := MergeCluster(s1, p, Prop(p, "keyspace"), Classify(p).value.1).value;
    assert EntityMap(t2, ClusterKind) == t2.clusters;
    assert EntityMap(s1, ClusterKind) == s1.clusters;
  }

  /** Adding the same cluster payload with its `forAddresses` list a second
      time succeeds and leaves the membership relation as the first `add`
      left it: the listed addresses are linked again under the same keys. */
  lemma AddClusterAgainKeepsMembers(s: Store, p: Entity, xs: seq<Value>)
    requires !AddressLike(p) && Prop(p, "forAddresses") == Arr(xs)
    requires Add(s, Obj(p)).Added?
    ensures Add(Add(s, Obj(p)).store, Obj(p)).Added?
    ensures var s1 := Add(s, Obj(p)).store;
      forall c, mk, ak :: MemberOf(Add(s1, Obj(p)).store, c, mk, ak) <==> MemberOf(s1, c, mk, ak)
  {
    ClusterPathFacts(s, p, xs);
    ClusterAgainMerge(s, p, xs);
    var ks, key := Prop(p, "keyspace"), KeyOf(p);
    var s1 := Add(s, Obj(p)).store;
    var s2 := MergeCluster(s, p, ks, Classify(p).value.1).value;
    var t2 := MergeCluster(s1, p, ks, Classify(p).value.1).value;
    var keys := s.addresses.m.Keys;
    MergedMembers(s1.clusters.m[key], p);
    MergedMembers(Before(s, ClusterKind, key, Classify(p).value.1), p);
    LinkNeedsMap(s2, key, ks, xs);
    if Prop(s2.clusters.m[key], "addresses").Members? {
      LinkDone(s2, key, ks, xs);
    }
    LinkDone(t2, key, ks, xs);
    forall c, mk, ak
      ensures MemberOf(LinkForAddresses(t2, key, ks, xs).store, c, mk, ak) <==> MemberOf(s1, c, mk, ak)
    {
      LinkMembers(t2, key, ks, xs, c, mk, ak);
      LinkMembers(s2, key, ks, xs, c, mk, ak);
      if c == key && Listed(keys, ks, xs, mk, ak) {
        var x :| x in xs && Prefix(ks, x) in keys && mk == ToStr(x) && ak == Prefix(ks, x);
      }
    }
  }
}

=== FILE: store_roundtrip.dfy ===
/** `deserialize(serialize())` into a fresh store (src/store.js:152-196).

    The round trip holds for stores whose entities are in the shape `add`
    leaves them in when every cluster is added before its addresses: each
    address names its cluster and is listed among the cluster's members,
    each member entry points back at an address of that cluster, every key
    is `keyspace|id` of its entity, and every table key has a `|`. Stores
    built otherwise can break it: a cluster created on the address path is a
    copy of its first address (its `type` is 'address'), and such a cluster
    is re-added as an address. */
module StoreRoundTrip {
  import opened Js
  import opened OrderedMap
  import opened Store
  import StoreProps

  // ------------------------------------------------------------ the shape

  /** The fields of a cluster that its re-adding relies on. */
  predicate ClusterFieldsOk(c: Entity, ck: string) {
    && !Truthy(Prop(c, "address"))
    && Prop(c, "type") == Str("cluster")
    && "cluster" !in c
    && Truthy(Prop(c, "keyspace"))
    && IsStringOrNumber(Prop(c, "id"))
    && Prefix(Prop(c, "keyspace"), Prop(c, "id")) == ck
    && Prop(c, "addresses").Members?
  }

  /** The member entry `mk -> ak` of cluster `ck` points back: `ak` is an
      address of that cluster whose id reads as `mk`. */
  predicate MemberBack(s: Store, ck: string, mk: string, ak: string) {
    && ak in s.addresses.m
    && Prop(s.addresses.m[ak], "cluster") == Ref(ClusterKind, ck)
    && ToStr(Prop(s.addresses.m[ak], "id")) == mk
  }

  predicate ClusterOk(s: Store, ck: string)
    requires ck in s.clusters.m
  {
    var c := s.clusters.m[ck];
    && ClusterFieldsOk(c, ck)
    && WellFormed(Prop(c, "addresses").members)
    && forall mk :: mk in Prop(c, "addresses").members.m ==> MemberBack(s, ck, mk, Prop(c, "addresses").members.m[mk])
  }

  /** The fields of an address that its re-adding relies on, given the id of
      its cluster. */
  predicate AddressFieldsOk(a: Entity, ak: string, ck: string, cid: Value) {
    && "address" !in a
    && Prop(a, "type") == Str("address")
    && Truthy(Prop(a, "keyspace"))
    && Prop(a, "id") != Undefined
    && IsStringOrNumber(Prop(a, "id"))
    && Prefix(Prop(a, "keyspace"), Prop(a, "id")) == ak
    && Prop(a, "cluster") == Ref(ClusterKind, ck)
    && IsStringOrNumber(cid) && Truthy(cid)
    && Prefix(Prop(a, "keyspace"), cid) == ck
  }

  predicate AddressOk(s: Store, ak: string)
    requires ak in s.addresses.m
  {
    var a := s.addresses.m[ak];
    var cl := Prop(a, "cluster");
    && cl.Ref? && cl.key in s.clusters.m
    && AddressFieldsOk(a, ak, cl.key, Prop(s.clusters.m[cl.key], "id"))
    && MemberOf(s, cl.key, ToStr(Prop(a, "id")), ak)
  }

  predicate Consistent(s: Store) {
    && WellFormed(s.addresses) && WellFormed(s.clusters) && WellFormed(s.outgoingLinks)
    && (forall ak :: ak in s.addresses.m ==> AddressOk(s, ak))
    && (forall ck :: ck in s.clusters.m ==> ClusterOk(s, ck))
    && TablesOk(s)
  }

  /** Every table key has a `|` and every table lists its targets once. */
  predicate TablesOk(s: Store) {
    && WellFormed(s.outgoingLinks)
    && forall tk :: tk in s.outgoingLinks.m ==> '|' in tk && WellFormed(s.outgoingLinks.m[tk])
  }

  /** What an edge reads as after the round trip: statistics with a falsy
      field were recorded as "no data" (src/store.js:142). */
  function Normalize(e: Option<EdgeData>): Option<EdgeData> {
    match e
    case None => None
    case Some(NoStats) => Some(NoStats)
    case Some(Stats(nt, ev)) => if Truthy(nt) && Truthy(ev) then e else Some(NoStats)
  }

  lemma TakeNext(keys: seq<string>, n: nat)
    requires n < |keys|
    ensures keys[..n + 1] == keys[..n] + [keys[n]]
  {
  }

  predicate Distinct(keys: seq<string>) {
    forall i, j :: 0 <= i < j < |keys| ==> keys[i] != keys[j]
  }

  // ------------------------------------------------------ phase 3: edges

  /** Replaying one serialized edge onto a store that lacks it records it,
      normalized. */
  lemma LinkFresh(s: Store, source: Value, ks: Value, t: string, e: EdgeData)
    requires IsStringOrNumber(source)
    requires EdgeAt(s, Prefix(ks, source), t) == None
    ensures LinkOutgoing(s, source, Str(t), ks, EdgeValue(e)).Some?
    ensures EdgeAt(LinkOutgoing(s, source, Str(t), ks, EdgeValue(e)).value, Prefix(ks, source), t) == Normalize(Some(e))
  {
    var data := EdgeValue(e);
    assert ToStr(Str(t)) == t;
    if e.Stats? {
      assert Field(s, data, "noTransactions") == e.noTransactions;
      assert Field(s, data, "estimatedValue") == e.estimatedValue;
    }
  }

  /** Replaying the entries of one table records each of them, normalized,
      and touches nothing else. */
  lemma {:induction false} ReplayTable(s: Store, pre: string, post: string, tbl: Table, keys: seq<string>) returns (s': Store)
    requires Distinct(keys) && forall k :: k in keys ==> k in tbl.m
    requires forall t :: t in keys ==> EdgeAt(s, pre + "|" + post, t) == None
    ensures ReplayEntries(s, Str(post), Str(pre), Entries(tbl, keys)) == Done(s')
    ensures s'.addresses == s.addresses && s'.clusters == s.clusters
    ensures forall tk, t ::
      EdgeAt(s', tk, t) == (if tk == pre + "|" + post && t in keys then Normalize(Some(tbl.m[t])) else EdgeAt(s, tk, t))
    decreases |keys|
  {
    if keys == [] {
      s' := s;
    } else {
      var t0 := keys[0];
      assert Prefix(Str(pre), Str(post)) == pre + "|" + post;
      LinkFresh(s, Str(post), Str(pre), t0, tbl.m[t0]);
      var s1 := LinkOutgoing(s, Str(post), Str(t0), Str(pre), EdgeValue(tbl.m[t0])).value;
      assert Entries(tbl, keys)[1..] == Entries(tbl, keys[1..]);
      assert forall t :: t in keys[1..] ==> t != t0 && t in keys by {
        forall t | t in keys[1..] ensures t != t0 && t in keys {
          var j :| 0 <= j < |keys[1..]| && keys[1..][j] == t;
          assert keys[j + 1] == t;
        }
      }
      s' := ReplayTable(s1, pre, post, tbl, keys[1..]);
    }
  }

  /** The edges of a store that has replayed the first `n` tables of `s`. */
  ghost predicate ReplayedUpTo(t: Store, s: Store, n: nat)
    requires n <= |s.outgoingLinks.keys|
  {
    forall tk, x :: EdgeAt(t, tk, x) == if tk in s.outgoingLinks.keys[..n] then Normalize(EdgeAt(s, tk, x)) else None
  }

  /** Replaying the `n`-th serialized table. */
  lemma ReplayOne(s: Store, t: Store, version: Value, n: nat) returns (t1: Store)
    requires TablesOk(s) && version != Str("0.4.0")
    requires n < |s.outgoingLinks.keys| && ReplayedUpTo(t, s, n)
    ensures
      var tk := s.outgoingLinks.keys[n];
      var tbl := s.outgoingLinks.m[tk];
      && TableSource(t, version, tk).Some?
      && var (ks, id) := TableSource(t, version, tk).value;
      && ReplayEntries(t, id, ks, Entries(tbl, tbl.keys)) == Done(t1)
    ensures t1.addresses == t.addresses && t1.clusters == t.clusters
    ensures ReplayedUpTo(t1, s, n + 1)
  {
    var tkeys := s.outgoingLinks.keys;
    var tk := tkeys[n];
    var tbl := s.outgoingLinks.m[tk];
    var (ksv, idv) := Unprefix(tk);
    var pre, post := ksv.s, idv.s;
    assert tk !in tkeys[..n];
    InKeys(tbl);
    t1 := ReplayTable(t, pre, post, tbl, tbl.keys);
    ReplayedNext(s, t, t1, n);
  }

  /** A store that adds the normalized edges of the `n`-th table to the
      first `n` has replayed the first `n + 1`. */
  lemma ReplayedNext(s: Store, t: Store, t1: Store, n: nat)
    requires TablesOk(s) && n < |s.outgoingLinks.keys| && ReplayedUpTo(t, s, n)
    requires var tk := s.outgoingLinks.keys[n]; var tbl := s.outgoingLinks.m[tk];
      forall tk', x :: EdgeAt(t1, tk', x) ==
        (if tk' == tk && x in tbl.keys then Normalize(Some(tbl.m[x])) else EdgeAt(t, tk', x))
    ensures ReplayedUpTo(t1, s, n + 1)
  {
    var tkeys := s.outgoingLinks.keys;
    var tk := tkeys[n];
    var tbl := s.outgoingLinks.m[tk];
    assert tkeys[..n + 1] == tkeys[..n] + [tk];
    assert tk !in tkeys[..n];
    forall tk', x ensures EdgeAt(t1, tk', x) == if tk' in tkeys[..n + 1] then Normalize(EdgeAt(s, tk', x)) else None {
      if tk' == tk && x !in tbl.keys {
        assert x !in tbl.m;
      }
    }
  }

  /** Replaying the serialized tables from the `n`-th on, onto a store that
      holds exactly the normalized edges of the first `n`, gives the
      normalized edges of all of them. */
  lemma {:induction false} ReplayAll(s: Store, t: Store, version: Value, links: seq<(string, seq<(string, Value)>)>, n: nat)
    returns (t': Store)
    requires TablesOk(s) && version != Str("0.4.0")
    requires links == SerializeLinks(s, s.outgoingLinks.keys) && n <= |links|
    requires ReplayedUpTo(t, s, n)
    ensures ReplayLinks(t, version, links[n..]) == Done(t')
    ensures t'.addresses == t.addresses && t'.clusters == t.clusters
    ensures forall tk, x :: EdgeAt(t', tk, x) == Normalize(EdgeAt(s, tk, x))
    decreases |links| - n
  {
    var tkeys := s.outgoingLinks.keys;
    if n == |links| {
      t' := t;
      forall tk, x ensures EdgeAt(t', tk, x) == Normalize(EdgeAt(s, tk, x)) {
        assert tkeys[..n] == tkeys;
        if tk !in tkeys {
          assert tk !in s.outgoingLinks.m;
        }
      }
    } else {
      var t1 := ReplayOne(s, t, version, n);
      assert links[n..][1..] == links[n + 1..];
      t' := ReplayAll(s, t1, version, links, n + 1);
    }
  }

  // --------------------------------------------------- phase 1: clusters

  /** `c` and `d` agree on every property the round trip rebuilds as-is. */
  ghost predicate SameFields(c: Entity, d: Entity) {
    forall k :: k != "addresses" && k != "forAddresses" && k != "outgoing" ==> Prop(c, k) == Prop(d, k)
  }

  /** The payload a serialized cluster is re-added with. */
  function ReaddedCluster(c: Entity): (q: Entity)
    requires Prop(c, "addresses").Members?
    ensures "addresses" !in q && "outgoing" !in q
    ensures Prop(q, "forAddresses") == Arr(KeyValues(Prop(c, "addresses").members.keys))
    ensures SameFields(q, c)
  {
    ClusterPayload(SerializeCluster(c).value)
  }

  /** The `forAddresses` loop links nothing in a store without addresses. */
  lemma {:induction false} NoAddressesNoLinks(s: Store, ckey: string, ks: Value, xs: seq<Value>)
    requires ckey in s.clusters.m && s.addresses.m == map[]
    ensures LinkForAddresses(s, ckey, ks, xs) == Done(s)
    decreases |xs|
  {
    if xs != [] {
      NoAddressesNoLinks(s, ckey, ks, xs[1..]);
    }
  }

  /** A re-added cluster is its payload merged into a fresh cluster. */
  lemma FreshClusterFields(c: Entity, ck: string)
    requires ClusterFieldsOk(c, ck)
    ensures var merged := (NewCluster(Prop(c, "id"), ck) + ReaddedCluster(c)) - {"cluster"};
      Prop(merged, "addresses") == Members(Empty()) && SameFields(merged, c)
  {
    var q := ReaddedCluster(c);
    var merged := (NewCluster(Prop(c, "id"), ck) + q) - {"cluster"};
    forall k | k != "addresses" && k != "forAddresses" && k != "outgoing" ensures Prop(merged, k) == Prop(c, k) {
      assert Prop(q, k) == Prop(c, k);
      if k == "id" || k == "type" {
        assert k in c;
      }
    }
  }

  /** `add` takes a serialized cluster, in a store without addresses, down
      the cluster path, where the `forAddresses` loop links nothing. */
  lemma ReAddClusterIsMerge(t: Store, c: Entity, ck: string)
    requires t.addresses.m == map[] && ClusterFieldsOk(c, ck)
    ensures MergeCluster(t, ReaddedCluster(c), Prop(c, "keyspace"), Prop(c, "id")).Some?
    ensures Add(t, Obj(ReaddedCluster(c))) ==
      Added(MergeCluster(t, ReaddedCluster(c), Prop(c, "keyspace"), Prop(c, "id")).value, Obj(ReaddedCluster(c)), Ref(ClusterKind, ck))
  {
    var q := ReaddedCluster(c);
    var ks, id := Prop(c, "keyspace"), Prop(c, "id");
    assert Prop(q, "type") == Str("cluster") && Prop(q, "address") == Prop(c, "address");
    assert Prop(q, "keyspace") == ks && Prop(q, "id") == id && Prop(q, "cluster") == Undefined;
    assert Classify(q) == Some((ClusterKind, id));
    assert Add(t, Obj(q)) == AddCluster(t, q, Obj(q), ks, id);
    var t1 := MergeCluster(t, q, ks, id).value;
    NoAddressesNoLinks(t1, ck, ks, Prop(q, "forAddresses").items);
  }

  /** Re-adding a serialized cluster to a store without addresses creates it
      with no members and every other field as it was. */
  lemma ReAddCluster(t: Store, c: Entity, ck: string) returns (t1: Store)
    requires t.addresses.m == map[] && ClusterFieldsOk(c, ck) && ck !in t.clusters.m
    ensures Add(t, Obj(ReaddedCluster(c))) == Added(t1, Obj(ReaddedCluster(c)), Ref(ClusterKind, ck))
    ensures ck in t1.clusters.m && t1.clusters.m == t.clusters.m[ck := t1.clusters.m[ck]]
    ensures t1.clusters.keys == t.clusters.keys + [ck]
    ensures Prop(t1.clusters.m[ck], "addresses") == Members(Empty()) && SameFields(t1.clusters.m[ck], c)
    ensures t1.addresses == t.addresses
    ensures forall tk, x :: EdgeAt(t1, tk, x) == EdgeAt(t, tk, x)
  {
    var q := ReaddedCluster(c);
    var ks, id := Prop(c, "keyspace"), Prop(c, "id");
    ReAddClusterIsMerge(t, c, ck);
    t1 := MergeCluster(t, q, ks, id).value;
    assert EntityMap(t1, ClusterKind) == t1.clusters && EntityMap(t, ClusterKind) == t.clusters;
    assert t1.clusters.m[ck] == (NewCluster(id, ck) + q) - {"cluster"};
    FreshClusterFields(c, ck);
    forall tk, x ensures EdgeAt(t1, tk, x) == EdgeAt(t, tk, x) {
      MergeKeepsEdges(t, q, ks, id, tk, x);
    }
  }

  /** One step of `AddAll` that adds the `n`-th object. */
  lemma AddAllStep(t: Store, t1: Store, objects: seq<Entity>, n: nat, asCluster: bool)
    requires n < |objects|
    requires var p := if asCluster then ClusterPayload(objects[n]) else objects[n];
      Add(t, Obj(p)).Added? && Add(t, Obj(p)).store == t1
    ensures AddAll(t, objects[n..], asCluster) == AddAll(t1, objects[n + 1..], asCluster)
  {
    var rest := objects[n..];
    assert rest[0] == objects[n] && rest[1..] == objects[n + 1..];
  }

  /** Every cluster of `s` is in the shape its re-adding relies on. */
  predicate ClusterShapes(s: Store) {
    && WellFormed(s.clusters)
    && forall ck :: ck in s.clusters.m ==> ClusterFieldsOk(s.clusters.m[ck], ck)
  }

  /** A store without addresses or edges that holds, in order, the first `n`
      clusters of `s`, each without members and otherwise as in `s`. */
  ghost predicate ClustersReadded(t: Store, s: Store, n: nat)
    requires n <= |s.clusters.keys|
  {
    && t.addresses.m == map[] && t.addresses.keys == []
    && t.clusters.keys == s.clusters.keys[..n]
    && WellFormed(t.clusters)
    && (forall ck :: ck in t.clusters.m ==>
          && ck in s.clusters.m
          && Prop(t.clusters.m[ck], "addresses") == Members(Empty())
          && SameFields(t.clusters.m[ck], s.clusters.m[ck]))
    && (forall tk, x :: EdgeAt(t, tk, x) == None)
  }

  /** Re-adding the `n`-th serialized cluster. */
  lemma ReAddOne(s: Store, t: Store, n: nat) returns (t1: Store)
    requires ClusterShapes(s) && n < |s.clusters.keys| && ClustersReadded(t, s, n)
    ensures var c := s.clusters.m[s.clusters.keys[n]];
      Add(t, Obj(ReaddedCluster(c))).Added? && Add(t, Obj(ReaddedCluster(c))).store == t1
    ensures ClustersReadded(t1, s, n + 1)
  {
    var keys := s.clusters.keys;
    var ck := keys[n];
    var c := s.clusters.m[ck];
    assert ck !in keys[..n];
    t1 := ReAddCluster(t, c, ck);
    TakeNext(keys, n);
    ExtendWellFormed(t.clusters, t1.clusters, ck);
    forall k | k in t1.clusters.m
      ensures k in s.clusters.m
      ensures Prop(t1.clusters.m[k], "addresses") == Members(Empty())
      ensures SameFields(t1.clusters.m[k], s.clusters.m[k])
    {
      if k != ck {
        assert t1.clusters.m[k] == t.clusters.m[k];
      }
    }
  }

  /** Phase one of `deserialize`: re-adding the serialized clusters from the
      `n`-th on. */
  lemma {:induction false} ReAddAll(s: Store, t: Store, cs: seq<Entity>, n: nat) returns (t': Store)
    requires ClusterShapes(s)
    requires |cs| == |s.clusters.keys|
    requires forall i :: 0 <= i < |cs| ==> cs[i] == SerializeCluster(s.clusters.m[s.clusters.keys[i]]).value
    requires n <= |cs| && ClustersReadded(t, s, n)
    ensures AddAll(t, cs[n..], true) == Done(t') && ClustersReadded(t', s, |cs|)
    decreases |cs| - n
  {
    if n == |cs| {
      t' := t;
    } else {
      var t1 := ReAddOne(s, t, n);
      assert ClusterPayload(cs[n]) == ReaddedCluster(s.clusters.m[s.clusters.keys[n]]);
      AddAllStep(t, t1, cs, n, true);
      t' := ReAddAll(s, t1, cs, n + 1);
    }
  }

  // -------------------------------------------------- phase 2: addresses

  /** A serialized address: its table dropped and its cluster collapsed to the cluster's id. */
  function ReaddedAddress(s: Store, a: Entity): Entity {
    (a - {"outgoing"})["cluster" := Field(s, Prop(a, "cluster"), "id")]
  }

  /** `add` takes a new address whose `cluster` names an existing cluster
      down the address path: merge, then link to that cluster. */
  lemma ReAddAddressIsJoin(t: Store, p: Entity, ck: string) returns (t3: Store, t1: Store)
    requires "address" !in p && Prop(p, "type") == Str("address")
    requires var ks, id, cid := Prop(p, "keyspace"), Prop(p, "id"), Prop(p, "cluster");
      && Truthy(ks) && IsStringOrNumber(id) && IsStringOrNumber(cid) && Truthy(cid) && Prefix(ks, cid) == ck
      && Prefix(ks, id) !in t.addresses.m && ck in t.clusters.m && Prop(t.clusters.m[ck], "addresses").Members?
    ensures MergeAddress(t, p, Prop(p, "keyspace"), Prop(p, "id")) == Some(t3)
    ensures ck in t3.clusters.m && Prefix(Prop(p, "keyspace"), Prop(p, "id")) in t3.addresses.m
    ensures LinkMember(t3, ck, ToStr(Prop(p, "id")), Prefix(Prop(p, "keyspace"), Prop(p, "id"))) == Some(t1)
    ensures Add(t, Obj(p)).Added? && Add(t, Obj(p)).store == t1
  {
    var ks, id, cid := Prop(p, "keyspace"), Prop(p, "id"), Prop(p, "cluster");
    var key := Prefix(ks, id);
    assert Classify(p) == Some((AddressKind, id));
    StoreProps.AddIsAddAddress(t, p);
    t3 := MergeAddress(t, p, ks, id).value;
    assert EntityMap(t3, AddressKind) == t3.addresses && EntityMap(t, AddressKind) == t.addresses;
    assert t3.addresses.m[key] == (NewAddress(id, key) + p) - {"address"};
    assert Prop(t3.addresses.m[key], "id") == id;
    assert ToCluster(p) == cid;
    assert EnsureCluster(t3, key, ks, id, cid, true) == Some(t3);
    t1 := LinkMember(t3, ck, ToStr(id), key).value;
  }

  lemma OverwriteTwice<V>(m: map<string, V>, k: string, x: V, y: V)
    ensures m[k := x][k := y] == m[k := y]
  {
  }

  /** A serialized address whose cluster has id `cid`. */
  function SerialAddress(a: Entity, cid: Value): Entity {
    (a - {"outgoing"})["cluster" := cid]
  }

  /** The address `add` rebuilds from a serialized address is the original
      with its own table. */
  lemma ReaddedAddressEntity(a: Entity, ak: string, ck: string, cid: Value)
    requires AddressFieldsOk(a, ak, ck, cid)
    ensures ((NewAddress(Prop(a, "id"), ak) + SerialAddress(a, cid)) - {"address"})["cluster" := Ref(ClusterKind, ck)]
      == a["outgoing" := TableRef(ak)]
  {
    var b := ((NewAddress(Prop(a, "id"), ak) + SerialAddress(a, cid)) - {"address"})["cluster" := Ref(ClusterKind, ck)];
    assert "id" in a && "type" in a && "cluster" in a;
    assert b.Keys == a.Keys + {"outgoing"};
  }

  /** Re-adding one serialized address whose cluster is already back: the
      address returns with its own table and nothing else changes but the
      cluster it joins. */
  lemma ReAddAddress(t: Store, a: Entity, ak: string, ck: string, cid: Value) returns (t1: Store)
    requires AddressFieldsOk(a, ak, ck, cid)
    requires ak !in t.addresses.m && ck in t.clusters.m && Prop(t.clusters.m[ck], "addresses").Members?
    ensures Add(t, Obj(SerialAddress(a, cid))).Added? && Add(t, Obj(SerialAddress(a, cid))).store == t1
    ensures t1.addresses.m == t.addresses.m[ak := a["outgoing" := TableRef(ak)]]
    ensures t1.addresses.keys == t.addresses.keys + [ak]
    ensures t1.clusters.keys == t.clusters.keys && t1.clusters.m.Keys == t.clusters.m.Keys
    ensures forall k :: k in t.clusters.m && k != ck ==> t1.clusters.m[k] == t.clusters.m[k]
    ensures forall k :: k != "addresses" ==> Prop(t1.clusters.m[ck], k) == Prop(t.clusters.m[ck], k)
    ensures Prop(t1.clusters.m[ck], "addresses").Members?
  {
    var p := SerialAddress(a, cid);
    var ks, id := Prop(a, "keyspace"), Prop(a, "id");
    assert Prop(p, "keyspace") == ks && Prop(p, "id") == id && Prop(p, "cluster") == cid && Prop(p, "type") == Str("address");
    var t3;
    t3, t1 := ReAddAddressIsJoin(t, p, ck);
    assert EntityMap(t3, AddressKind) == t3.addresses && EntityMap(t, AddressKind) == t.addresses;
    var merged := (NewAddress(id, ak) + p) - {"address"};
    var linked := merged["cluster" := Ref(ClusterKind, ck)];
    ReaddedAddressEntity(a, ak, ck, cid);
    assert linked == a["outgoing" := TableRef(ak)];
    assert t3.addresses.m == t.addresses.m[ak := merged];
    assert t1.addresses.m == t3.addresses.m[ak := linked];
    OverwriteTwice(t.addresses.m, ak, merged, linked);
  }

  /** Re-adding one serialized address adds its own member entry to its
      cluster and keeps every other entry but the one it overwrites. */
  lemma ReAddAddressMembers(t: Store, a: Entity, ak: string, ck: string, cid: Value)
    requires AddressFieldsOk(a, ak, ck, cid)
    requires ak !in t.addresses.m && ck in t.clusters.m && Prop(t.clusters.m[ck], "addresses").Members?
    ensures Add(t, Obj(SerialAddress(a, cid))).Added?
    ensures var t1 := Add(t, Obj(SerialAddress(a, cid))).store;
      forall c, mk, x :: MemberOf(t1, c, mk, x) <==>
        (c == ck && mk == ToStr(Prop(a, "id")) && x == ak) || (MemberOf(t, c, mk, x) && (c != ck || mk != ToStr(Prop(a, "id"))))
  {
    var p := SerialAddress(a, cid);
    var id := Prop(a, "id");
    assert Prop(p, "keyspace") == Prop(a, "keyspace") && Prop(p, "id") == id && Prop(p, "cluster") == cid && Prop(p, "type") == Str("address");
    var t3, t1 := ReAddAddressIsJoin(t, p, ck);
    forall c, mk, x ensures MemberOf(t1, c, mk, x) <==>
      (c == ck && mk == ToStr(id) && x == ak) || (MemberOf(t, c, mk, x) && (c != ck || mk != ToStr(id)))
    {
      LinkMemberEffect(t3, ck, ToStr(id), ak, c, mk, x);
    }
  }

  /** Re-adding one serialized address touches no edge. */
  lemma ReAddAddressEdges(t: Store, a: Entity, ak: string, ck: string, cid: Value)
    requires AddressFieldsOk(a, ak, ck, cid)
    requires ak !in t.addresses.m && ck in t.clusters.m && Prop(t.clusters.m[ck], "addresses").Members?
    ensures Add(t, Obj(SerialAddress(a, cid))).Added?
    ensures forall tk, x :: EdgeAt(Add(t, Obj(SerialAddress(a, cid))).store, tk, x) == EdgeAt(t, tk, x)
  {
    var p := SerialAddress(a, cid);
    var ks, id := Prop(a, "keyspace"), Prop(a, "id");
    assert Prop(p, "keyspace") == ks && Prop(p, "id") == id && Prop(p, "cluster") == cid && Prop(p, "type") == Str("address");
    var t3, t1 := ReAddAddressIsJoin(t, p, ck);
    MergeAddressEdges(t, p, ks, id);
  }

  lemma MergeAddressEdges(t: Store, p: Entity, ks: Value, id: Value)
    requires MergeAddress(t, p, ks, id).Some?
    ensures forall tk, x :: EdgeAt(MergeAddress(t, p, ks, id).value, tk, x) == EdgeAt(t, tk, x)
  {
    forall tk, x ensures EdgeAt(MergeAddress(t, p, ks, id).value, tk, x) == EdgeAt(t, tk, x) {
      MergeKeepsEdges(t, p, ks, id, tk, x);
    }
  }

  /** A store that holds every cluster of `s` with its fields, the first `n`
      addresses of `s` (each with its own table), exactly those member
      entries of `s` whose address is back, and no edge. */
  ghost predicate AddressesReadded(t: Store, s: Store, n: nat)
    requires n <= |s.addresses.keys|
  {
    && t.clusters.keys == s.clusters.keys && t.clusters.m.Keys == s.clusters.m.Keys
    && (forall ck :: ck in t.clusters.m ==>
          Prop(t.clusters.m[ck], "addresses").Members? && SameFields(t.clusters.m[ck], s.clusters.m[ck]))
    && t.addresses.keys == s.addresses.keys[..n] && WellFormed(t.addresses)
    && (forall ak :: ak in t.addresses.m ==>
          ak in s.addresses.m && t.addresses.m[ak] == s.addresses.m[ak]["outgoing" := TableRef(ak)])
    && (forall ck, mk, ak :: MemberOf(t, ck, mk, ak) <==> MemberOf(s, ck, mk, ak) && ak in t.addresses.m)
    && (forall tk, x :: EdgeAt(t, tk, x) == None)
  }

  /** After the clusters, no address is back yet. */
  lemma ClustersThenAddresses(s: Store, t: Store)
    requires ClusterShapes(s) && ClustersReadded(t, s, |s.clusters.keys|)
    ensures AddressesReadded(t, s, 0)
  {
    var keys := s.clusters.keys;
    assert keys[..|keys|] == keys;
    InKeys(t.clusters);
    forall ck, mk, ak ensures !MemberOf(t, ck, mk, ak) {
      if ck in t.clusters.m {
        assert Prop(t.clusters.m[ck], "addresses") == Members(Empty());
      }
    }
  }

  /** The member entries after one address is back: those of `s` whose
      address is back, given that the new entry is one of `s` and that the
      new address is listed in `s` under nothing else. */
  lemma MembersStep(s: Store, t: Store, t1: Store, ak: string, ck: string, mk0: string)
    requires MemberOf(s, ck, mk0, ak)
    requires forall c, mk :: MemberOf(s, c, mk, ak) ==> c == ck && mk == mk0
    requires forall c, mk, x :: MemberOf(t, c, mk, x) <==> MemberOf(s, c, mk, x) && x in t.addresses.m
    requires forall c, mk, x :: MemberOf(t1, c, mk, x) <==>
      (c == ck && mk == mk0 && x == ak) || (MemberOf(t, c, mk, x) && (c != ck || mk != mk0))
    requires t1.addresses.m.Keys == t.addresses.m.Keys + {ak}
    ensures forall c, mk, x :: MemberOf(t1, c, mk, x) <==> MemberOf(s, c, mk, x) && x in t1.addresses.m
  {
    forall c, mk, x ensures MemberOf(t1, c, mk, x) <==> MemberOf(s, c, mk, x) && x in t1.addresses.m {
      if MemberOf(s, c, mk, x) && x in t1.addresses.m && x !in t.addresses.m {
        assert x == ak;
      }
    }
  }

  /** In a consistent store an address is listed only by its own cluster,
      under its own id. */
  lemma ListedOnce(s: Store, ak: string)
    requires Consistent(s) && ak in s.addresses.m
    ensures var cl := Prop(s.addresses.m[ak], "cluster");
      forall c, mk :: MemberOf(s, c, mk, ak) ==> cl == Ref(ClusterKind, c) && mk == ToStr(Prop(s.addresses.m[ak], "id"))
  {
    forall c, mk | MemberOf(s, c, mk, ak)
      ensures Prop(s.addresses.m[ak], "cluster") == Ref(ClusterKind, c) && mk == ToStr(Prop(s.addresses.m[ak], "id"))
    {
      assert ClusterOk(s, c);
      assert MemberBack(s, c, mk, Prop(s.clusters.m[c], "addresses").members.m[mk]);
    }
  }

  /** What consistency says about one address: its cluster, that cluster's
      id, and that only its cluster lists it, under its own id. */
  lemma AddressFacts(s: Store, ak: string) returns (ck: string, cid: Value)
    requires Consistent(s) && ak in s.addresses.m
    ensures var a := s.addresses.m[ak];
      && ck in s.clusters.m && cid == Prop(s.clusters.m[ck], "id")
      && AddressFieldsOk(a, ak, ck, cid)
      && MemberOf(s, ck, ToStr(Prop(a, "id")), ak)
      && forall c, mk :: MemberOf(s, c, mk, ak) ==> c == ck && mk == ToStr(Prop(a, "id"))
  {
    assert AddressOk(s, ak);
    ck := Prop(s.addresses.m[ak], "cluster").key;
    cid := Prop(s.clusters.m[ck], "id");
    ListedOnce(s, ak);
  }

  /** Re-adding the `n`-th serialized address, given what consistency says about it. */
  lemma ReAddAddressOne(s: Store, t: Store, n: nat, ck: string, cid: Value) returns (t1: Store)
    requires WellFormed(s.addresses) && n < |s.addresses.keys|
    requires var ak := s.addresses.keys[n]; var a := s.addresses.m[ak];
      && ck in s.clusters.m && cid == Prop(s.clusters.m[ck], "id")
      && AddressFieldsOk(a, ak, ck, cid)
      && MemberOf(s, ck, ToStr(Prop(a, "id")), ak)
      && forall c, mk :: MemberOf(s, c, mk, ak) ==> c == ck && mk == ToStr(Prop(a, "id"))
    requires AddressesReadded(t, s, n)
    ensures var a := s.addresses.m[s.addresses.keys[n]];
      Add(t, Obj(ReaddedAddress(s, a))).Added? && Add(t, Obj(ReaddedAddress(s, a))).store == t1
    ensures AddressesReadded(t1, s, n + 1)
  {
    var keys := s.addresses.keys;
    var ak := keys[n];
    var a := s.addresses.m[ak];
    assert ReaddedAddress(s, a) == SerialAddress(a, cid);
    assert ak !in keys[..n];
    t1 := ReAddAddress(t, a, ak, ck, cid);
    ReAddAddressMembers(t, a, ak, ck, cid);
    ReAddAddressEdges(t, a, ak, ck, cid);
    MembersStep(s, t, t1, ak, ck, ToStr(Prop(a, "id")));
    TakeNext(keys, n);
    ExtendWellFormed(t.addresses, t1.addresses, ak);
    ClusterFieldsStep(s, t, t1, ck);
    AddressEntitiesStep(s, t, t1, ak);
  }

  /** Bringing back address `ak` with its own table keeps every address back as in `s`. */
  lemma AddressEntitiesStep(s: Store, t: Store, t1: Store, ak: string)
    requires ak in s.addresses.m
    requires forall x :: x in t.addresses.m ==>
      x in s.addresses.m && t.addresses.m[x] == s.addresses.m[x]["outgoing" := TableRef(x)]
    requires t1.addresses.m == t.addresses.m[ak := s.addresses.m[ak]["outgoing" := TableRef(ak)]]
    ensures forall x :: x in t1.addresses.m ==>
      x in s.addresses.m && t1.addresses.m[x] == s.addresses.m[x]["outgoing" := TableRef(x)]
  {
  }

  /** Linking a member into cluster `ck` keeps every cluster's fields. */
  lemma ClusterFieldsStep(s: Store, t: Store, t1: Store, ck: string)
    requires t.clusters.m.Keys == s.clusters.m.Keys && t1.clusters.m.Keys == t.clusters.m.Keys && ck in t.clusters.m
    requires forall c :: c in t.clusters.m ==>
      Prop(t.clusters.m[c], "addresses").Members? && SameFields(t.clusters.m[c], s.clusters.m[c])
    requires forall c :: c in t.clusters.m && c != ck ==> t1.clusters.m[c] == t.clusters.m[c]
    requires forall k :: k != "addresses" ==> Prop(t1.clusters.m[ck], k) == Prop(t.clusters.m[ck], k)
    requires Prop(t1.clusters.m[ck], "addresses").Members?
    ensures forall c :: c in t1.clusters.m ==>
      Prop(t1.clusters.m[c], "addresses").Members? && SameFields(t1.clusters.m[c], s.clusters.m[c])
  {
    assert SameFields(t.clusters.m[ck], s.clusters.m[ck]);
  }

  /** Phase two of `deserialize`: re-adding the serialized addresses from
      the `n`-th on. */
  lemma {:induction false} ReAddAddresses(s: Store, t: Store, xs: seq<Entity>, n: nat) returns (t': Store)
    requires Consistent(s)
    requires |xs| == |s.addresses.keys|
    requires forall i :: 0 <= i < |xs| ==> xs[i] == ReaddedAddress(s, s.addresses.m[s.addresses.keys[i]])
    requires n <= |xs| && AddressesReadded(t, s, n)
    ensures AddAll(t, xs[n..], false) == Done(t') && AddressesReadded(t', s, |xs|)
    decreases |xs| - n
  {
    if n == |xs| {
      t' := t;
    } else {
      var ck, cid := AddressFacts(s, s.addresses.keys[n]);
      var t1 := ReAddAddressOne(s, t, n, ck, cid);
      AddAllStep(t, t1, xs, n, false);
      t' := ReAddAddresses(s, t1, xs, n + 1);
    }
  }

  // ---------------------------------------------------------- round trip

  /** A consistent store serializes without error. */
  lemma ConsistentSerializes(s: Store)
    requires Consistent(s)
    ensures Serialize(s).Some?
  {
    forall i | 0 <= i < |s.addresses.keys| ensures Readable(Prop(s.addresses.m[s.addresses.keys[i]], "cluster")) {
      assert AddressOk(s, s.addresses.keys[i]);
    }
    forall i | 0 <= i < |s.clusters.keys| ensures Prop(s.clusters.m[s.clusters.keys[i]], "addresses").Members? {
      assert ClusterOk(s, s.clusters.keys[i]);
    }
  }

  /** Once every address is back, the addresses and the member entries are those of `s`. */
  lemma AddressesDone(s: Store, t: Store)
    requires Consistent(s) && AddressesReadded(t, s, |s.addresses.keys|)
    ensures t.addresses.keys == s.addresses.keys && t.clusters.keys == s.clusters.keys
    ensures forall ak :: ak in s.addresses.m ==>
      ak in t.addresses.m && t.addresses.m[ak] == s.addresses.m[ak]["outgoing" := TableRef(ak)]
    ensures forall ck :: ck in s.clusters.m ==> ck in t.clusters.m && SameFields(t.clusters.m[ck], s.clusters.m[ck])
    ensures forall ck, mk, ak :: MemberOf(t, ck, mk, ak) <==> MemberOf(s, ck, mk, ak)
  {
    var keys := s.addresses.keys;
    assert keys[..|keys|] == keys;
    InKeys(t.addresses);
    InKeys(s.addresses);
    assert t.addresses.m.Keys == s.addresses.m.Keys;
    forall ck, mk, ak | MemberOf(s, ck, mk, ak) ensures ak in t.addresses.m {
      assert ClusterOk(s, ck);
      assert MemberBack(s, ck, mk, ak);
    }
  }

  /** The starting point of `deserialize`. */
  lemma EmptyStart(s: Store)
    ensures ClustersReadded(EmptyStore(), s, 0)
  {
    assert EmptyStore() == Store(Empty(), Empty(), Empty());
  }

  /** `deserialize(serialize())` into an empty store rebuilds a consistent
      store: the same address and cluster keys in the same order, every
      address as it was but for its table, every cluster as it was but for
      its table, its member map and a `forAddresses` copy of its member ids,
      the same member entries, and the same edges, save that statistics with
      a falsy field come back as "no data". The 0.4.0 format is excluded: it
      resolves tables by bare id. */
  lemma {:induction false} RoundTrip(s: Store, version: Value) returns (t: Store)
    requires Consistent(s) && version != Str("0.4.0")
    ensures Serialize(s).Some?
    ensures Deserialize(EmptyStore(), version, Serialize(s).value) == Done(t)
    ensures t.addresses.keys == s.addresses.keys && t.clusters.keys == s.clusters.keys
    ensures forall ak :: ak in s.addresses.m ==>
      ak in t.addresses.m && t.addresses.m[ak] == s.addresses.m[ak]["outgoing" := TableRef(ak)]
    ensures forall ck :: ck in s.clusters.m ==> ck in t.clusters.m && SameFields(t.clusters.m[ck], s.clusters.m[ck])
    ensures forall ck, mk, ak :: MemberOf(t, ck, mk, ak) <==> MemberOf(s, ck, mk, ak)
    ensures forall tk, x :: EdgeAt(t, tk, x) == Normalize(EdgeAt(s, tk, x))
  {
    ConsistentSerializes(s);
    var snap := Serialize(s).value;
    EmptyStart(s);
    assert ClusterShapes(s) by {
      forall ck | ck in s.clusters.m ensures ClusterFieldsOk(s.clusters.m[ck], ck) {
        assert ClusterOk(s, ck);
      }
    }
    var t1 := ReAddAll(s, EmptyStore(), snap.clusters, 0);
    assert snap.clusters[0..] == snap.clusters;
    ClustersThenAddresses(s, t1);
    var t2 := ReAddAddresses(s, t1, snap.addresses, 0);
    assert snap.addresses[0..] == snap.addresses;
    AddressesDone(s, t2);
    InKeys(s.outgoingLinks);
    assert snap.links == SerializeLinks(s, s.outgoingLinks.keys);
    t := ReplayAll(s, t2, version, snap.links, 0);
    assert snap.links[0..] == snap.links;
  }
}
